=== FILE: README.md ===
# hashfs core in Dafny

hashfs is a FUSE file system that shows media files as a virtual directory
tree. The tree is built from metadata records kept in a Tokyo Cabinet table
store. Each file is a record keyed `file:md5(path)`. Each "set" (an anime,
a release group) is a record keyed `set:source:type:md5(name)`. A file
record holds, under the set's type, the key of the set it belongs to.

A mount point has a schema of `/`-separated levels. Each level has:

- a query `q`, which may refer back to the entries resolved above it as
  `$prev[n].key`;
- an optional grouping field `g`;
- a display format `d`.

A path `/mount/a/b` is resolved level by level. At each level, the first
result whose display text equals the segment is the one used. Backends are
loadable modules that fill in metadata. The AniDB client library
(libanidb) asks the AniDB UDP API (protocol version 3) for anime, episode,
file and group data. It parses `|`-separated replies into a tagged result.
File identity is the eDonkey2000 ed2k hash.

This project models that core as pure functions over immutable values and
proves properties about them. A Dafny `string` stands for a C byte string:
each `char` is one byte, so a length or a capacity counts bytes, as
`strlen` and `g_strlcpy` do. A UTF-8 name cut to 255 characters is cut
at 255 bytes, possibly in the middle of a multi-byte character.

| module | models |
|---|---|
| `Mounts`, `Schema`, `Backref`, `Walk`, `Mount` | the path projection engine of `src/hashfs/hashfsmount.c`: the mount table, `parse_schema`, `prepare_query`/`eval_cb`, `resolve_path(s)`, and the decisions of getattr, readdir and open, each over the resolution the C function actually calls |
| `Store`, `Records` | the record model of `src/hashfs/db.c`, `file.c` and `set.c`: primary keys, field maps, merge-put and the transaction order |
| `Backends` | the backend registry of `src/hashfs/backend.c` |
| `Ed2k` | the block framing and hex output of `src/hashfs/ed2k.c` |
| `RefCount`, `AnidbResult`, `AnidbSession` | the request builder, handler dispatch, tagged result and reference counts of `src/lib/libanidb/anidb.c` |
| `AnidbHandlers`, `AnidbHandlersOld` | the reply handlers of `src/lib/libanidb/handlers.c` and of the earlier copy `src/libanidb/handlers.c` |
| `Basename`, `Strings`, `Wrappers` | `hashfs_basename`/`anidbfs_basename` and shared string helpers |

Foreign parts become parameters:

- the store's query engine, grouping and `hashfs_db_entry_format` (declared
  without a body in `src/hashfs/hashfs.h`) form a `StoreView`;
- MD4 and `hashfs_md5_str` are functions passed in;
- the AniDB server is a function from the request sent to the reply
  received;
- `stat` is a function from a real path to its size;
- module loading, glob matching and the backends' `setup_func` are given
  outcomes or functions.

## Model

| member | source | states |
|---|---|---|
| Basename.Basename | src/hashfs/util.c:8-20 | the result has no '/' and is never longer than the input |
| Basename.BasenameSuffix | src/hashfs/util.c:8-20 | the input is a prefix that is empty or ends in '/', followed by the result |
| Basename.BasenameCases | src/anidbfs/util.c:12-18 | without a '/' the whole input comes back; an input ending in '/' gives "" |
| Basename.BasenameSnoc | src/hashfs/util.c:13-17 | one more character: a '/' moves the start past it, anything else extends the result |
| Basename.BasenameScan | src/hashfs/util.c:13-19 | the pointer loop returns exactly the suffix after the last '/' |
| Basename.BasenameIdempotent | src/anidbfs/util.c:7-19 | taking the basename twice gives the same as once |
| Basename.BasenameUnique | src/hashfs/util.c:8-20 | the split of the input into a directory prefix and a '/'-free tail is unique, and the tail is the basename |
| Strings.Split | src/hashfs/hashfsmount.c:206-209 | `g_strsplit` on '/' gives at least one part, and no part contains the delimiter |
| Strings.JoinSplit | src/hashfs/hashfsmount.c:206-209 | gluing the parts back with the delimiter gives the original string |
| Strings.SplitJoin | src/lib/libanidb/handlers.c:16-22 | cutting delimiter-free fields joined by the delimiter gives back the same fields |
| Strings.SplitCount | src/libanidb/handlers.c:19-29 | there is exactly one more field than there are delimiters |
| Strings.FindFrom | src/lib/libanidb/handlers.c:33-36 | the `strstr` search finds the first delimiter from the position on, or the end when there is none |
| Strings.WordEnd | src/hashfs/hashfsmount.c:72 | the run `\w+` from a position is maximal: word characters up to it, none right after |
| Strings.DigitEnd | src/hashfs/hashfsmount.c:182 | the run `\d+` from a position is maximal |
| Strings.DecimalNumeral | src/hashfs/hashfsmount.c:145-147 | `atoi` of the numeral printed for a number reads that number back |
| Ed2k.DigitTable | src/hashfs/ed2k.c:21 | entry n of the digit table is the lower-case hex digit of n |
| Ed2k.BlockCount | src/hashfs/ed2k.c:39-46 | the block count is the size divided by 9,728,000 rounded up, and 0 only for an empty file |
| Ed2k.BlockLen | src/hashfs/ed2k.c:58-59 | intended length: every block but the last is full, and the last one ends exactly at the file size |
| Ed2k.BlockLenAsWritten | src/hashfs/ed2k.c:58-59 | the C length rule: every block but the last is full, and every block lies inside the file; `BlockLenAgreement` states where it differs from the intended rule |
| Ed2k.BlockLenAgreement | src/hashfs/ed2k.c:59 | the C length rule agrees with the intended one, except on the last block of an exact multiple, where it is 0 |
| Ed2k.BlocksAsWritten | src/hashfs/ed2k.c:58-71 | the C loop hashes one stretch per block |
| Ed2k.BlockAsWrittenAt | src/hashfs/ed2k.c:58-71 | block b as read by the C loop lies in the file and starts at offset b times the block size |
| Ed2k.BlockStepAsWritten | src/hashfs/ed2k.c:58-71 | one loop turn reads block b and moves the offset to the start of block b+1 |
| Ed2k.Blocks | src/hashfs/ed2k.c:58-71 | the intended blocks are non-empty and at most one block size long |
| Ed2k.BlocksPrefix | src/hashfs/ed2k.c:52-71 | the first b intended blocks are exactly the first b block sizes of the file |
| Ed2k.FullBlockBefore | src/hashfs/ed2k.c:58-71 | every block before the last covers a full stretch of the file |
| Ed2k.BlocksCoverContent | src/hashfs/ed2k.c:58-71 | the intended blocks, concatenated, are the whole file: every byte is hashed once, in order |
| Ed2k.DigestAll | src/hashfs/ed2k.c:64-66 | digest b is MD4 of block b |
| Ed2k.FinalDigest | src/hashfs/ed2k.c:75-83 | a single block's digest is the hash itself; several digests are hashed again as one byte run (no contract of its own; `HashEd2k`'s invariants tie the C code to it) |
| Ed2k.HexByte | src/hashfs/ed2k.c:86-89 | a byte prints as two lower-case hex digits |
| Ed2k.HexByteTable | src/hashfs/ed2k.c:87-88 | the two digits are the table entries of the high and the low nibble |
| Ed2k.Hex | src/hashfs/ed2k.c:85-89 | the hex text is twice as long as the digest |
| Ed2k.HexAt | src/hashfs/ed2k.c:86-89 | byte i is printed at characters 2i and 2i+1 |
| Ed2k.HexAlphabet | src/hashfs/ed2k.c:85-89 | the hex text holds only lower-case hex digits |
| Ed2k.UnhexHex | src/hashfs/ed2k.c:85-89 | reading the hex text back gives the digest bytes |
| Ed2k.HexInjective | src/hashfs/ed2k.c:85-89 | different digests print differently |
| Ed2k.Ed2kAsWritten | src/hashfs/ed2k.c:23-97 | the C function returns a 32-character hash exactly when the file opens and is not empty |
| Ed2k.Ed2k | src/hashfs/ed2k.c:23-97 | the intended hash exists exactly when the file opens and is not empty, and it is 32 lower-case hex digits |
| Ed2k.HashEd2k | src/hashfs/ed2k.c:23-97 | the loop of the C function (block loop, final digest, hex loop) computes the as-written hash |
| Ed2k.AsWrittenAgreesOffMultiples | src/hashfs/ed2k.c:59 | for sizes that are not a multiple of the block size, the C code computes the intended hash |
| Ed2k.ExactBlockHashesNothing | src/hashfs/ed2k.c:59 | a file of exactly one block gets the hash of the empty string from the C code, not the hash of its content |
| Store.EntryNew | src/hashfs/db.c:81-105 | a new entry's key is `set:source:type:md5(id)` for the prefix "set" and `prefix:md5(id)` otherwise; it starts with no fields |
| Store.PrimaryKey | src/hashfs/db.c:86-97 | the key composed from prefix, source, type and digest (no contract of its own; `SetKeyComponents`, `PlainKeyComponents` and `SetKeyInjective` state how it reads back) |
| Store.SetKeyComponents | src/hashfs/db.c:90-91 | a set key splits on ':' into "set", source, type and digest |
| Store.PlainKeyComponents | src/hashfs/db.c:92-93 | any other key splits into prefix and digest, and source and type do not affect it |
| Store.SetKeyInjective | src/hashfs/db.c:88-94 | with colon-free components, equal set keys have equal source, type and digest |
| Store.SetKeyIsSetKey | src/hashfs/db.c:90-91 | a set key contains "set:" |
| Store.FileKeyIsNotSetKey | src/hashfs/db.c:92-93 | a file key never contains "set:" |
| Store.EntrySet | src/hashfs/db.c:107-115 | the field is set to the value; the key and every other field are unchanged |
| Store.EntryLookup | src/hashfs/hashfs.h:112 | a lookup succeeds exactly for a field the entry holds, with its value |
| Store.SetThenLookup | src/hashfs/db.c:107-115 | a field reads back as the value just set, and other fields read as before |
| Store.MergeFields | src/hashfs/db.c:131-132 | a put-cat keeps stored fields, adds new ones and settles clashes by the policy |
| Store.MergePut | src/hashfs/db.c:124-133 | a put creates or merges the record under its key and no other record changes |
| Store.PutKeepsStoredFields | src/hashfs/db.c:131-132 | a put never loses a field already stored under its key |
| Store.PutIdempotent | src/hashfs/db.c:131-132 | with a stable clash policy, putting the same fields twice equals putting them once |
| Store.EntryPut | src/hashfs/db.c:124-133 | a missing entry gives no operation; otherwise there is one put of the entry's fields under its own key |
| Store.Apply | src/hashfs/db.c:55-71 | inside a transaction a put changes only the pending table; commit publishes it; abort drops it; a put outside a transaction is visible at once |
| Store.Observed | src/hashfs/db.c:55-71 | a reader sees the committed table before the first operation and, at position i, the committed table after the first i operations |
| Records.Truncate | src/hashfs/set.c:14 | `g_strlcpy` keeps a prefix of at most capacity-1 bytes, and a short name whole |
| Records.SetNew | src/hashfs/set.c:7-19 | the set's key is the "set" key of (name, source, type), its fields are empty, and its name is the name cut to 255 bytes |
| Records.SetKeyDeterminedByTriple | src/hashfs/set.c:13 | equal (name, source, type) triples give equal set keys |
| Records.SetPropSet | src/hashfs/set.c:30-37 | only the set's own entry changes, in that one field |
| Records.SetPropLookup | src/hashfs/set.c:21-28 | the lookup reads the set's own entry |
| Records.SetDestroy | src/hashfs/set.c:39-50 | destroying a set puts its entry once |
| Records.FileNew | src/hashfs/file.c:5-26 | a new file has key `file:md5(filename)`, the single field path = filename and no sets, and it begins a transaction |
| Records.FilePropSet | src/hashfs/file.c:37-44 | only the file's own entry changes, in that one field |
| Records.FilePropLookup | src/hashfs/file.c:28-35 | the lookup reads the file's own entry; `hashfs_file_prop_lookup` is the same code as `hashfs_set_prop_lookup` (set.c:21-28) on a file, hence the same body as `Records.SetPropLookup` |
| Records.SourceOf | src/hashfs/file.c:53-56 | the set source is the backend's short name, or "unknown" without a backend |
| Records.FileAddToSet | src/hashfs/file.c:46-65 | the new set is appended to the file's sets and returned; the file field named by the type holds the set's key; nothing else changes |
| Records.PutSets | src/hashfs/file.c:83-92 | the sets are put in list order |
| Records.FileDestroyAsWritten | src/hashfs/file.c:67-101 | the C order: commit, then a put for each set in order, then the file's put |
| Records.FileDestroy | src/hashfs/file.c:67-101 | the intended order: each set's put, the file's put, then commit |
| Records.PutsStayPending | src/hashfs/db.c:55-65 | puts inside an open transaction never show in the committed table |
| Records.FileDestroyIsAtomic | src/hashfs/file.c:72-97 | with the intended order, readers see the table before the destroy or the table with every put, nothing in between |
| Records.FileDestroyAsWrittenExposesPartialState | src/hashfs/file.c:72-97 | with the C order, a reader can see a set's record stored while the file's record is not |
| Records.FileDestroyPersistsAll | src/hashfs/file.c:83-97 | after the intended destroy every set key and the file key are in the committed table |
| Backends.Lookup | src/hashfs/backend.c:115-129 | the result is the first registered backend with that short name, or none exactly when no backend has it |
| Backends.Load | src/hashfs/backend.c:8-64 | a backend loads exactly when its module and descriptor are found and its short name is not yet registered; it carries what its setup left |
| Backends.LoadAll | src/hashfs/backend.c:66-113 | the registry only grows at the end, by at most one backend per module file, and afterwards every module that had a descriptor is registered under its short name |
| Backends.LoadAllAppendsAdmitted | src/hashfs/backend.c:99-105 | what is appended is exactly, in directory order, each descriptor whose short name was neither registered before nor seen earlier in the run, set up by its `setup_func` |
| Backends.LoadAllKeepsNamesUnique | src/hashfs/backend.c:45-51 | loading keeps short names unique |
| Backends.LookupFindsRegistered | src/hashfs/backend.c:115-129 | with unique names each registered backend is found by its own name |
| Backends.GlobSet | src/hashfs/backend.c:162-178 | the patterns are appended after the existing ones, in argument order |
| Backends.GlobTry | src/hashfs/backend.c:180-194 | true exactly when some registered pattern matches, so false with none |
| Backends.ConfigRegister | src/hashfs/backend.c:222-229 | the default is written only when the key is absent; existing values are never overwritten |
| Backends.ConfigRegisterIdempotent | src/hashfs/backend.c:222-229 | registering the same default twice equals registering it once |
| Backends.Invoke | src/hashfs/backend.c:146-160 | a callback is called once when it is set and not at all otherwise |
| Backends.DestroyAll | src/hashfs/backend.c:131-144 | destroying the registry makes at most one destroy call per backend |
| Backends.DestroyAllCallsEachSetCallback | src/hashfs/backend.c:196-201 | every backend with a destroy callback gets its call |
| Backends.NotCalledWithoutName | src/hashfs/backend.c:131-144 | no call goes to a name no backend carries |
| Mounts.MountsGet | src/hashfs/hashfsmount.c:245-249 | none exactly when no mount has the name; otherwise a schema stored under it |
| Mounts.MountsGetUnique | src/hashfs/hashfsmount.c:245-249 | with unique names, the lookup gives the schema recorded with the name |
| Mounts.MountsExists | src/hashfs/hashfsmount.c:251-262 | true exactly when a mount has the name |
| Mounts.MountsAdd | src/hashfs/hashfsmount.c:239-243 | the name then maps to `/name/schema`, replacing an earlier schema; other names are unaffected; the table grows only for a new name |
| Mounts.MountsAddNames | src/hashfs/hashfsmount.c:239-243 | existing mounts keep their places, and a new name is appended |
| Mounts.MountsAddUnique | src/hashfs/hashfsmount.c:239-243 | adding keeps mount names unique |
| Mounts.Names | src/hashfs/hashfsmount.c:384-390 | the root listing has one name per mount, in table order |
| Schema.QuoteEnd | src/hashfs/hashfsmount.c:72 | the lazy `.*?` stops at the first quote, and a line break of GRegex's default newline convention (`\n`, `\r`, `\v` or `\f`) ends the attempt |
| Schema.MatchAt | src/hashfs/hashfsmount.c:72 | a match has a word-character key and a quote-free value, lies in the text, and cannot start at a non-word character |
| Schema.MatchAtText | src/hashfs/hashfsmount.c:72 | what the pattern matches is the text `key="value"` |
| Schema.MatchAtItem | src/hashfs/hashfsmount.c:72 | a written-out binding is matched as exactly that binding |
| Schema.ScanBindings | src/hashfs/hashfsmount.c:82-90 | every binding the scan collects has a valid key and value |
| Schema.ScanSkipsJunk | src/hashfs/hashfsmount.c:82-90 | text without word characters, such as the stray ")", holds no binding |
| Schema.ScanSkipsOne | src/hashfs/hashfsmount.c:82-90 | a character where no match starts is passed over |
| Schema.ScanRender | src/hashfs/hashfsmount.c:82-90 | bindings written out with separators are scanned back as the same bindings, in order |
| Schema.ToMap | src/hashfs/hashfsmount.c:87 | the table has exactly the keys the bindings have |
| Schema.ToMapLastWins | src/hashfs/hashfsmount.c:87 | a key ends up with the value of its last binding |
| Schema.ParseLevel | src/hashfs/hashfsmount.c:63-96 | the table of a level holds only valid keys and values, a value holding neither a quote nor a line break |
| Schema.CarriageReturnBindsNothing | src/hashfs/hashfsmount.c:72-90 | the level `q="a\rb"` binds nothing, since `.` does not match the carriage return |
| Schema.ParseRender | src/hashfs/hashfsmount.c:63-96 | writing out bindings with distinct keys and parsing the text gives the same table, whatever the separator |
| Schema.ByGroupFirstLevel | src/hashfs/hashfsmount.c:506 | the first by-group level parses to q and d only; the stray ")" is ignored |
| Backref.RefAt | src/hashfs/hashfsmount.c:182 | a reference match is `$name[n].key` with word name and key and a decimal n, starts at a '$' and ends where the key's word run ends |
| Backref.RefAtText | src/hashfs/hashfsmount.c:182 | a written-out reference not followed by a word character is matched as exactly that reference |
| Backref.Prev | src/hashfs/hashfsmount.c:150-151 | `$prev[n]` is the entry n places from the end, and there is none for n = 0 or n beyond the chain |
| Backref.PrevSteps | src/hashfs/hashfsmount.c:142-151 | the count `g_list_nth_prev` receives is `atoi(n) - 1` at C's widths: below 2^32, n - 1 for 1 <= n <= 2^32, 2^32 - 1 for n = 0, and fixed once `strtol` saturates |
| Backref.Eval | src/hashfs/hashfsmount.c:136-172 | the value is the entry's key for `pkey` and its field otherwise, and empty for another variable, a missing entry or a missing field; the entry is the one `PrevSteps` counts back to |
| Backref.EvalIndexWraps | src/hashfs/hashfsmount.c:142-151 | `$prev[4294967297].pkey` gives the last entry's key, although no entry is 4294967297 places from the end |
| Backref.Substitute | src/hashfs/hashfsmount.c:174-197 | text without '$' is copied unchanged |
| Backref.PrepareQuery | src/hashfs/hashfsmount.c:174-197 | a query without references is left as it is |
| Backref.SubstitutePlain | src/hashfs/hashfsmount.c:192 | plain text is copied and the substitution carries on after it |
| Backref.SubstituteRef | src/hashfs/hashfsmount.c:192 | a reference is replaced by its value and the substitution resumes after it |
| Backref.SubstituteOne | src/hashfs/hashfsmount.c:174-197 | plain text, one reference, plain text: only the reference is replaced |
| Backref.SubstituteAround | src/hashfs/hashfsmount.c:174-197 | with one reference in the text, the result is the text before, its value, and the text after |
| Backref.ByNameFileQuery | src/hashfs/hashfsmount.c:504-505 | the by-name file level asks for files whose anime field is the key of the anime resolved above |
| Walk.Chain | src/hashfs/hashfsmount.c:212-231 | a resolution has one entry per remaining segment, after the entries given |
| Walk.ChainResolves | src/hashfs/hashfsmount.c:212-231 | the chain is found exactly when every segment resolves to its entry, so the resolution is unique |
| Walk.WalkAsWritten | src/hashfs/hashfsmount.c:212-231 | the C loop never returns more entries than there are segments |
| Walk.WalkAgrees | src/hashfs/hashfsmount.c:219-227 | where every segment resolves, the C loop returns the chain |
| Walk.WalkRestartsAfterMiss | src/hashfs/hashfsmount.c:220-227 | after a miss the C loop starts again and can return entries for a path that does not resolve |
| Walk.ReadWalk | src/hashfs/hashfsmount.c:404-424 | readdir lists nothing for a level that does not exist |
| Walk.ChainAppend | src/hashfs/hashfsmount.c:404-424 | a path one segment longer resolves exactly when the directory resolves and the next level finds the name; along a resolved directory, readdir lists that next level |
| Walk.ListedIffExtends | src/hashfs/hashfsmount.c:404-424 | a resolved directory lists a name exactly when that name resolves inside it |
| Mount.LevelAt | src/hashfs/hashfsmount.c:212-216 | a level exists exactly when the schema has it and it binds both q and d, and it carries their values and g when bound |
| Mount.FindIndex | src/hashfs/hashfsmount.c:114-128 | the index of the first result whose display text is the name, or the end |
| Mount.FindDisplayed | src/hashfs/hashfsmount.c:98-134 | none exactly when no result displays as the name; otherwise the first that does |
| Mount.ResolvePath | src/hashfs/hashfsmount.c:114-128 | the loop of `resolve_path` returns the first result displayed as the segment |
| Mount.Listing | src/hashfs/hashfsmount.c:340-371 | one name per result, in result order, each the result's display text |
| Mount.ListingFinds | src/hashfs/hashfsmount.c:356-367 | a level lists a name exactly when `resolve_path` finds it |
| Mount.ResolverOf | src/hashfs/hashfsmount.c:212-218 | a mount's levels list exactly the names they resolve, and a missing level resolves nothing |
| Mount.ResolvePaths | src/hashfs/hashfsmount.c:199-237 | intended: a non-empty answer resolves every segment below an existing mount |
| Mount.ResolvePathsComplete | src/hashfs/hashfsmount.c:199-237 | every full resolution of a path is the answer |
| Mount.ResolvePathsAsWritten | src/hashfs/hashfsmount.c:199-237 | the C function returns at most one entry per segment |
| Mount.AsWrittenAgreesOnResolvedPaths | src/hashfs/hashfsmount.c:199-237 | on paths that resolve, the C function gives the intended answer |
| Mount.ResolveAfterMissAsWritten | src/hashfs/hashfsmount.c:220-227 | a mount with two levels where the first misses and the second hits: the C function returns an entry |
| Mount.MiniWalk | src/hashfs/hashfsmount.c:220-227 | for that path the C answer is one entry and the intended answer is none |
| Mount.ListAttrs | src/hashfs/hashfsmount.c:278-318 | over `resolve_paths` as written: -ENOENT exactly when it returns no entries; otherwise 0 and the attributes of its last entry |
| Mount.EntryAttrs | src/hashfs/hashfsmount.c:286-309 | a resolved entry always answers 0 |
| Mount.GetAttr | src/hashfs/hashfsmount.c:320-338 | the root and the mount points are 0555 directories; below them -ENOENT exactly when `resolve_paths` as written returns no entries |
| Mount.Open | src/hashfs/hashfsmount.c:436-464 | over `resolve_paths` as written: -ENOENT when it returns no entries, checked before -EACCES for any access mode but read-only; 0 otherwise, opening the real path of the last entry; a real file is opened only on 0 |
| Mount.ReadDir | src/hashfs/hashfsmount.c:373-434 | `.` and `..` come first; the root lists the mount names |
| Mount.ListedIffResolves | src/hashfs/hashfsmount.c:373-434 | a resolved directory lists a name exactly when the path of that name inside it resolves |
| Mount.RootListing | src/hashfs/hashfsmount.c:382-392 | the root lists exactly the mount names, and each is a 0555 directory |
| Mount.ListedHasAttrs | src/hashfs/hashfsmount.c:320-338 | a name listed in a directory whose segments all resolve has attributes |
| Mount.ResolvedPathAttrs | src/hashfs/hashfsmount.c:284-313 | where every segment resolves, getattr gives the attributes of the last entry of that resolution and open opens its real path |
| Mount.MiniAttrsAsWritten | src/hashfs/hashfsmount.c:220-227 | as written, getattr and open accept `/m/a/b` in the two-level mount although nothing is displayed as `a` |
| Mount.OpenAgreesWithGetAttr | src/hashfs/hashfsmount.c:446-449 | below the mount points, open finds a path exactly when getattr does |
| Mount.AttrsOfRecords | src/hashfs/hashfsmount.c:293-307 | a path whose as-written resolution ends at a set record is a 0755 directory; one ending at a file record is a 0444 regular file the size of the real file |
| Mount.SetEntryAttrs | src/hashfs/hashfsmount.c:293-295 | a set record is a 0755 directory with two links |
| Mount.FileEntryAttrs | src/hashfs/hashfsmount.c:296-307 | a file record with a path is a 0444 regular file with one link and the real size |
| RefCount.Unref | src/lib/libanidb/anidb.c:158-168 | unref releases exactly when the count was 1, and otherwise leaves one fewer |
| RefCount.Ref | src/lib/libanidb/anidb.c:152-156 | after ref there is at least one holder |
| RefCount.RefThenUnref | src/lib/libanidb/anidb.c:152-168 | unref undoes ref on a live object |
| RefCount.RefTimesAdds | src/lib/libanidb/anidb.c:152-156 | n refs add n |
| RefCount.ReleasedExactlyAtLast | src/lib/libanidb/anidb.c:158-168 | of n unrefs, only the one matching the last holder releases |
| RefCount.BalancedRelease | src/lib/libanidb/anidb.c:597-637 | a new object given k more refs is freed by unref k+1 and not earlier |
| AnidbResult.FirstMatchSpec | src/lib/libanidb/anidb.c:723-729 | the lookup fails exactly when no pair has the key, and otherwise gives the first pair with it |
| AnidbResult.GetType | src/lib/libanidb/anidb.c:681-685 | the type is the tag of the value |
| AnidbResult.GetStr | src/lib/libanidb/anidb.c:693-702 | succeeds exactly under tag STRING, with its string |
| AnidbResult.GetInt | src/lib/libanidb/anidb.c:704-713 | succeeds exactly under tag NUMBER, with its number |
| AnidbResult.GetDict | src/lib/libanidb/anidb.c:732-739 | the node list exactly under tag DICT, NULL otherwise |
| AnidbResult.DictGet | src/lib/libanidb/anidb.c:715-730 | fails when the tag is not DICT; otherwise the value of the first node with the key |
| AnidbResult.New | src/lib/libanidb/anidb.c:597-609 | the code, tag NULL, one reference, and every getter fails |
| AnidbResult.SetStr | src/lib/libanidb/anidb.c:639-644 | the tag becomes STRING with the string; code and count stay |
| AnidbResult.SetInt | src/lib/libanidb/anidb.c:646-651 | the tag becomes NUMBER with the number; code and count stay |
| AnidbResult.DictSet | src/lib/libanidb/anidb.c:653-679 | the tag becomes DICT and the pair is appended at the tail of the list |
| AnidbResult.FirstMatchAppend | src/lib/libanidb/anidb.c:667-677 | appending never hides a key already present |
| AnidbResult.DictGetAfterSet | src/lib/libanidb/anidb.c:715-730 | after a set, a key reads its first value ever stored; other keys are unaffected |
| AnidbResult.DictSetAllOrder | src/lib/libanidb/anidb.c:653-679 | a fresh result filled with pairs holds exactly those pairs, in order, duplicates included |
| AnidbResult.Unref | src/lib/libanidb/anidb.c:617-637 | the result is released exactly at the last reference; otherwise code and value stay |
| AnidbResult.Ref | src/lib/libanidb/anidb.c:611-615 | ref keeps code and value, and one unref brings a live result back |
| AnidbSession.Appended | src/lib/libanidb/anidb.c:24-31 | the loop appends at least one character per argument |
| AnidbSession.Request | src/lib/libanidb/anidb.c:194-199 | the request is the command plus the appended arguments, one character shorter than the space plus the arguments |
| AnidbSession.Flatten | src/lib/libanidb/anidb.c:226-234 | pairs become alternating key and value arguments |
| AnidbSession.AppendedPairs | src/lib/libanidb/anidb.c:19-34 | key/value arguments are appended as `k1=v1&…&kn=vn&` |
| AnidbSession.RequestPairs | src/lib/libanidb/anidb.c:194-199 | a call with pairs sends `cmd k1=v1&…&kn=vn`: the trailing '&' is what gets removed |
| AnidbSession.RequestBare | src/lib/libanidb/anidb.c:33 | without arguments the removed character is the space after the command |
| AnidbSession.Atoi | src/lib/libanidb/anidb.c:204 | a reply that starts with neither space, sign nor digit reads as code 0 |
| AnidbSession.AtoiNumeral | src/lib/libanidb/anidb.c:204 | the code printed at the head of a reply is read back exactly |
| AnidbSession.FirstHandler | src/lib/libanidb/anidb.c:207-212 | the first table entry with the code, or the end |
| AnidbSession.Dispatch | src/lib/libanidb/anidb.c:204-212 | a new result for the reply's code, given to the first handler for that code; with none it stays NULL |
| AnidbSession.DispatchUnique | src/lib/libanidb/anidb.c:207-212 | with unique codes the handler registered for the code is the one applied |
| AnidbSession.Cmd | src/lib/libanidb/anidb.c:185-215 | the request sent is the built line, and the result is the dispatch of the server's reply to it |
| AnidbSession.SetKey | src/lib/libanidb/anidb.c:170-174 | only the key changes |
| AnidbSession.LoggedInAfterSetKey | src/lib/libanidb/anidb.c:170-183 | logged in exactly when the key last set is not empty |
| AnidbSession.IsLoggedIn | src/lib/libanidb/anidb.c:177-183 | logged in when the key's first character is set, that is, when the key is not empty (no contract of its own; stated through `LoggedInAfterSetKey`) |
| AnidbSession.NewSession | src/lib/libanidb/anidb.c:89-150 | a new session has the client names, one reference and no login |
| AnidbSession.UnrefSession | src/lib/libanidb/anidb.c:158-168 | the session goes with its last reference, and otherwise only the count drops |
| AnidbSession.Authenticate | src/lib/libanidb/anidb.c:220-237 | the request sent is the documented AUTH line |
| AnidbSession.AuthRequest | src/lib/libanidb/anidb.c:226-234 | the AUTH pairs serialise to `AUTH user=…&pass=…&protover=3&client=…&clientver=…&nat=1&enc=UTF8` |
| AnidbSession.Logout | src/lib/libanidb/anidb.c:534-544 | the request sent is `LOGOUT s=` and the key |
| AnidbHandlers.Part | src/lib/libanidb/handlers.c:24-43 | field idx has no delimiter, is the idx-th field when there is one, and is empty past the last |
| AnidbHandlers.FieldStart | src/lib/libanidb/handlers.c:32-42 | where round n starts reading, never past one beyond the terminator |
| AnidbHandlers.FieldStartJoin | src/lib/libanidb/handlers.c:32-42 | from there on, the text is the remaining fields joined by '|'; past the last field it is beyond the terminator |
| AnidbHandlers.FieldAt | src/lib/libanidb/handlers.c:33-39 | round n copies exactly field n, and nothing past the last |
| AnidbHandlers.GetPart | src/lib/libanidb/handlers.c:24-43 | the `strstr` loop yields field idx |
| AnidbHandlers.Fields | src/lib/libanidb/handlers.c:16-22 | key i is paired with field i |
| AnidbHandlers.ParseKeys | src/lib/libanidb/handlers.c:16-22 | `PARSE_KEYS` keeps the code and the reference count and appends key i = field i for every key, in key order, after the pairs already there |
| AnidbHandlers.ParseKeysIsDictSetAll | src/lib/libanidb/handlers.c:16-22 | `PARSE_KEYS` is one `dict_set` per key, in key order |
| AnidbHandlers.ParseKeysOrder | src/lib/libanidb/handlers.c:16-22 | on a fresh result the dictionary is key i = field i, in key order |
| AnidbHandlers.IndexOfFirst | src/lib/libanidb/handlers.c:66-70 | the index found holds the key, and no earlier index does |
| AnidbHandlers.DistinctIndexOf | src/lib/libanidb/handlers.c:66-70 | in a table without repeats each key is found at its own position |
| AnidbHandlers.FirstMatchAt | src/lib/libanidb/anidb.c:723-727 | a key absent before position i is found with the value at i |
| AnidbHandlers.ParseKeysRender | src/lib/libanidb/handlers.c:16-22 | on fields joined by '|', each key reads back its own field |
| AnidbHandlers.ReplyFields | src/lib/libanidb/handlers.c:63-124 | a header of the skipped length followed by joined fields parses to key i = field i |
| AnidbHandlers.Body | src/lib/libanidb/handlers.c:72 | the body is what follows the header |
| AnidbHandlers.KeyTables | src/lib/libanidb/handlers.c:63-124 | the tables hold 19, 3, 10, 34 and 10 keys, and none of them has a repeat |
| AnidbHandlers.FileKeysDistinct | src/lib/libanidb/handlers.c:94-113 | the 34 file keys have no repeats |
| AnidbHandlers.HeaderLengths | src/lib/libanidb/handlers.c:72-123 | each handler's offset (10, 14, 12, 9, 10) skips exactly its status line and newline: what is left is the rest of the reply |
| AnidbHandlers.AnimeFieldsFit | src/lib/libanidb/handlers.c:63-73 | nineteen delimiter-free fields fit the anime keys |
| AnidbHandlers.AnimeFields | src/lib/libanidb/handlers.c:63-73 | `handler_anime` gives each of its 19 keys the field at the same position |
| AnidbHandlers.AnimeBody | src/lib/libanidb/handlers.c:72 | the fields after the anime status line are parsed in order, whatever the key table |
| AnidbHandlers.Anime | src/lib/libanidb/handlers.c:63-73 | the result becomes a DICT and keeps its code; `AnimeFields` states its content |
| AnidbHandlers.AnimeDesc | src/lib/libanidb/handlers.c:75-81 | the result becomes a DICT and keeps its code; `AnimeDescFields` states its content |
| AnidbHandlers.Episode | src/lib/libanidb/handlers.c:83-91 | the result becomes a DICT and keeps its code; `EpisodeFields` states its content |
| AnidbHandlers.File | src/lib/libanidb/handlers.c:93-114 | the result becomes a DICT and keeps its code; `FileFields` states its content |
| AnidbHandlers.Group | src/lib/libanidb/handlers.c:116-124 | the result becomes a DICT and keeps its code; `GroupFields` states its content |
| AnidbHandlers.StatusBody | src/lib/libanidb/handlers.c:72-123 | for any status line and its length, the fields after it are parsed in key order |
| AnidbHandlers.AnimeDescFieldsFit | src/lib/libanidb/handlers.c:75-81 | three delimiter-free fields fit the animedesc keys |
| AnidbHandlers.AnimeDescReply | src/lib/libanidb/handlers.c:75-81 | `handler_animedesc` skips `233 ANIMEDESC` and its newline and parses the fields after it |
| AnidbHandlers.AnimeDescFields | src/lib/libanidb/handlers.c:75-81 | `handler_animedesc` gives each of its 3 keys the field at the same position |
| AnidbHandlers.EpisodeFieldsFit | src/lib/libanidb/handlers.c:83-91 | ten delimiter-free fields fit the episode keys |
| AnidbHandlers.EpisodeReply | src/lib/libanidb/handlers.c:83-91 | `handler_episode` skips `240 EPISODE` and its newline and parses the fields after it |
| AnidbHandlers.EpisodeFields | src/lib/libanidb/handlers.c:83-91 | `handler_episode` gives each of its 10 keys the field at the same position |
| AnidbHandlers.FileFieldsFit | src/lib/libanidb/handlers.c:93-114 | thirty-four delimiter-free fields fit the file keys |
| AnidbHandlers.FileReply | src/lib/libanidb/handlers.c:93-114 | `handler_file` skips `220 FILE` and its newline and parses the fields after it |
| AnidbHandlers.FileFields | src/lib/libanidb/handlers.c:93-114 | `handler_file` gives each of its 34 keys the field at the same position |
| AnidbHandlers.GroupFieldsFit | src/lib/libanidb/handlers.c:116-124 | ten delimiter-free fields fit the group keys |
| AnidbHandlers.GroupReply | src/lib/libanidb/handlers.c:116-124 | `handler_group` skips `250 GROUP` and its newline and parses the fields after it |
| AnidbHandlers.GroupFields | src/lib/libanidb/handlers.c:116-124 | `handler_group` gives each of its 10 keys the field at the same position |
| AnidbHandlers.WordStop | src/lib/libanidb/handlers.c:50 | the `%s` run stops at the first white space |
| AnidbHandlers.Token | src/lib/libanidb/handlers.c:50 | the token `%s` reads holds no white space |
| AnidbHandlers.AuthAccepted | src/lib/libanidb/handlers.c:45-53 | the result becomes a STRING and keeps its code |
| AnidbHandlers.AuthAcceptedKey | src/lib/libanidb/handlers.c:45-53 | the reply `200 key LOGIN ACCEPTED` yields exactly the key, read at the value level (the dangling buffer is under Left out) |
| AnidbHandlers.AuthLogout | src/lib/libanidb/handlers.c:56-60 | the result is left unchanged |
| AnidbHandlers.HandlerCodes | src/lib/libanidb/handlers.c:126-157 | the table `Handlers` (`anidb_handlers`) has seven entries with the codes 200, 203, 230, 233, 240, 220 and 250, each once |
| AnidbHandlers.UnlistedCodeStaysNull | src/lib/libanidb/anidb.c:204-212 | a code the table does not list leaves a NULL result |
| AnidbHandlers.Login | src/lib/libanidb/handlers.c:45-53 | a login reply yields the key in a STRING result, and setting it logs the session in; value level, as for `AuthAcceptedKey` |
| AnidbHandlers.AtoiAnime | src/lib/libanidb/anidb.c:204 | a reply starting with 230 carries code 230 |
| AnidbHandlers.DispatchAnime | src/lib/libanidb/handlers.c:131-132 | a reply with code 230 goes to `handler_anime` on a fresh result |
| AnidbHandlers.AnimeRoute | src/lib/libanidb/handlers.c:131-132 | any reply starting with the anime status line goes to `handler_anime` |
| AnidbHandlersOld.CharStep | src/libanidb/handlers.c:19-29 | one more character adds a delimiter to the count or grows the field it falls in |
| AnidbHandlersOld.GetPartOld | src/libanidb/handlers.c:13-34 | the character loop yields field idx, and "" past the last field |
| AnidbHandlersOld.FieldsJoin | src/libanidb/handlers.c:13-34 | joining every field with the delimiter gives the source string back |
| AnidbHandlersOld.AnimeKeyTables | src/libanidb/handlers.c:69-87 | the earlier anime keys agree with the later ones except field 8, named `rating_average` |
| AnidbHandlersOld.AnimeOld | src/libanidb/handlers.c:61-88 | the result becomes a DICT and keeps its code; `AnimeOldReply` states its content |
| AnidbHandlersOld.OldAnimeFieldsFit | src/libanidb/handlers.c:61-88 | nineteen delimiter-free fields fit the earlier anime keys |
| AnidbHandlersOld.AuthLogoutOld | src/libanidb/handlers.c:51-58 | test, test1, test2 and test3, each "hej", are appended in that order |
| AnidbHandlersOld.OldHandlerCodes | src/libanidb/handlers.c:90-97 | the earlier table `OldHandlers` has exactly the codes 200, 203 and 230, in that order |
| AnidbHandlersOld.OldLogoutReply | src/libanidb/handlers.c:51-58 | a logout reply leaves exactly the four test pairs |
| AnidbHandlersOld.OldUnlistedCodeStaysNull | src/libanidb/handlers.c:90-97 | any other code leaves the result NULL |
| AnidbHandlersOld.AnimeOldReply | src/libanidb/handlers.c:61-88 | an anime reply gives each earlier key the field at its position |

## Left out

- Store internals: Tokyo Cabinet open, close, error text and the condition-language query engine. The engine is the `search` and `format` of a `StoreView`. `hashfs_db_entry_lookup` has no body in the source, so it is modelled as a plain field lookup.
- MD4, `hashfs_md5_str`, `open`, `mmap` and `stat` are foreign calls and become function parameters. The model takes the file's bytes, not its open descriptor.
- FUSE plumbing: `read`, `release`, `fuse_main` and real file descriptors. `Mount.Open` gives the path it would open, not a descriptor.
- The `printf` tracing in `hashfsmount.c` and `test_query` produce output only.
- The AniDB network and clock: `anidb_session_new`'s socket, `sock_send`, `throttle_session` and `get_ms` are out. The server is a function from request to reply. `AnidbSession.NewSession` keeps only the names and the count.
- The other AniDB command wrappers (ANIME, ANIMEDESC, EPISODE, FILE, GROUP, MYLISTADD, MYLISTDEL) are `Cmd` with their own pairs, covered by `RequestPairs`. The `sprintf` of ids into 10-byte buffers is not modelled. `anidb_session_groupstatus` and `anidb_session_mylist_stats` have empty bodies.
- `anidb_dict_new/ref/unref/set/get/next`: the node list is the sequence of pairs of a DICT value. Node reference counts follow `RefCount`.
- Fixed-size buffers: the 1024-byte request and reply buffers, the 10-byte `buf` of `handler_auth_accepted` and the 1000-byte `recv` are not modelled. Overflow behaviour is not modelled.
- AnidbHandlers.AuthAccepted: `sscanf` into a 10-byte buffer is modelled as reading the whole token. A reply that `atoi` reads as 200 but `sscanf(data, "200 %s", ...)` cannot read, such as `" 200 k"`, `"0200 k"` or `"200"` alone, leaves the buffer unset in C; the model stores the empty string. The handler also hands that stack buffer to `anidb_result_set_str`, which keeps the pointer and copies nothing (`src/lib/libanidb/anidb.c:639-644`). Once the handler returns, the STRING result points into a dead stack frame, and callers that read it back as the session key read freed stack memory. This is a defect in C. `AnidbHandlers.AuthAcceptedKey` and `AnidbHandlers.Login` state the key at the value level, that is, what the code evidently means to hand back.
- AnidbHandlers.Body: a reply shorter than its header leaves nothing to read, where C would read past the terminator.
- AnidbHandlers.Part: `get_part` past the last field reads beyond the terminator in C; the model gives "" there.
- AnidbSession.NewSession and AnidbSession.SetKey keep whole strings. In C the `clientname`, `clientversion` and `key` fields are `char *` left NULL by `calloc`, and `strncpy` copies into them with `sizeof(char *)` as the length. That crashes, or at best keeps 8 characters. The model keeps the names and the key whole.
- `PARSE_KEYS` hands the same stack buffer to every `dict_set`, and `anidb_dict_set` keeps borrowed pointers. The model uses value semantics, so every key keeps its own field. In C all values would alias the last field.
- The handler table's `LENGTH` is taken over `extern anidb_handlers[1024]`, not over the real table. The table is modelled as a sequence of its actual entries.
- AnidbSession.Atoi: reads unbounded integers; C `atoi` overflow is undefined and not modelled.
- Backref.PrevSteps: reads the `$prev[n]` index at the widths `eval_cb` uses on an LP64 glibc platform: `strtol` saturates at 2^63-1, and the narrowing to `gint` and the subtraction `nth - 1` wrap modulo 2^32. The C standard leaves that overflow undefined and the narrowing implementation-defined; the model follows the two's-complement behaviour of gcc. A 32-bit `long` is not modelled.
- The `anidb_result_t` value is a C union. Reading it under a different tag is not modelled. `anidb_result_set_str` after `dict_set` would leak the list; that is ignored.
- Ed2k.Unhex is total: a trailing odd digit is dropped. It exists only as the inverse used in `UnhexHex`.
- The GLib hash tables of `parse_schema` and the mount table become a map and an insertion-ordered sequence. `g_hash_table_get_keys` has an unspecified order; the model lists mounts in insertion order.
- `parse_schema`'s regex is a hand-written scanner over ASCII `\w`. Non-ASCII word characters and GRegex's UTF-8 handling are not modelled.
- Schema.QuoteEnd, Schema.MatchAt, Schema.MatchAtItem, Schema.ScanBindings, Schema.ScanRender, Schema.ParseLevel and Schema.ParseRender: of the line breaks `.` refuses under GRegex's default newline convention, the single-byte ones (`\n`, `\r`, `\v`, `\f`) are modelled. The multi-byte UTF-8 forms of U+0085, U+2028 and U+2029 are not, so a value holding one of them is bound in the model and not in C.
- `g_pattern_match` and `g_module_build_path` become a `matches` parameter and a list of module outcomes.
- `hashfs_fuse_readdir` on an unknown mount passes NULL to `g_strsplit` in C. The model lists only `.` and `..` there.
- Mount.ResolvePathsAsWritten: on an unknown mount with three or more segments, C splits a NULL schema and then dereferences its missing levels, which crashes. The model returns no entries, so `Mount.GetAttr`, `Mount.ListAttrs` and `Mount.Open` answer -ENOENT there. With exactly two segments C also returns no entries.
- Mount.LevelAt: a level beyond the schema, or one without `q` or `d`, would hand NULL to `parse_schema` or to the query engine in C. The model gives no level there. `resolve_paths` then treats that segment as a miss.
- Mount.ReadDir: a missing level anywhere from the mount's first level to the level being listed empties the whole listing to `.` and `..` (`Walk.ReadWalk`). It is not treated as a miss that the walk skips.
- Schema.ByGroupFirstLevel and Mount.MiniLevel spell their constants through `Schema.Item`. The text is the same as the literal in the doc comment.
- `hashfs_current_time` and `anidbfs_current_time` read the clock.
- `src/backends/anidb/anidb.c`, `src/anidbfs/anidbfs-update.c`, `src/hashfs/config.c` and `src/hashfs/hashfs.c` are not part of this model. They are a plugin, an updater, a key-file wrapper and the command-line driver, built on the operations modelled here. Configuration values are a map in `Backends.ConfigRegister`.

## Findings

| source | as written | input that shows it | evidently intended | confidence | as-written member | corrected member |
|---|---|---|---|---|---|---|
| src/hashfs/ed2k.c:59 | the last block's length is `size % BLOCKSIZE` | a file of exactly 9,728,000 bytes: one block of length 0, so MD4 of nothing is returned | the last block holds the remaining `size - (blocks-1)*BLOCKSIZE` bytes | high, not executed | Ed2k.ExactBlockHashesNothing | Ed2k.BlocksCoverContent |
| src/hashfs/hashfsmount.c:220-227 | a miss clears the entries and the loop goes on with the later segments | mount `m` with two levels; `/m/a/b` where level 2 finds no `a` and level 3 finds `b`: one entry comes back, and getattr and open accept the path (`Mount.MiniAttrsAsWritten`) | a miss fails the whole path; getattr, listattrs and open are modelled over the code as written | medium, not executed | Mount.ResolveAfterMissAsWritten | Mount.ResolvePathsComplete |
| src/hashfs/file.c:72-97 | the transaction is committed before the sets and the file are put, so those puts land outside it one by one | a file with one set: between the set's put and the file's put, a reader sees the set record without the file record | put everything, then commit | medium, not executed | Records.FileDestroyAsWrittenExposesPartialState | Records.FileDestroyIsAtomic |

=== FILE: anidb_handlers.dfy ===
/**
 The reply handlers of the AniDB client (`src/lib/libanidb/handlers.c`): the
 pipe-separated fields of a reply body are cut out by `get_part` and stored
 under fixed key names by `PARSE_KEYS`, after a header of fixed length; the
 login reply yields the session key; the table maps response codes to
 handlers.
 */
module AnidbHandlers {
  import opened Wrappers
  import opened Strings
  import opened AnidbResult
  import opened AnidbSession

  /** The field separator of AniDB replies. */
  const Pipe := '|'

  /** Field `idx` of `src` cut at `d`, counting from 0; empty past the last field. */
  function Part(src: string, d: char, idx: nat): (f: string)
    ensures d !in f
    ensures |f| <= |src|
    ensures idx < |Split(src, d)| ==> f == Split(src, d)[idx]
    ensures idx >= Count(src, d) + 1 ==> f == ""
  {
    PartsShorter(src, d);
    SplitCount(src, d);
    var ps := Split(src, d);
    if idx < |ps| then ps[idx] else ""
  }

  /**
   One round of the loop of `get_part`: when the text from `ptr` on is the
   remaining fields joined by `d`, the round copies the first of them and
   moves past its separator onto the join of the others.
   */
  lemma FieldStep(src: string, d: char, ptr: nat, parts: seq<string>)
    requires ptr <= |src| && |parts| >= 1
    requires forall i :: 0 <= i < |parts| ==> d !in parts[i]
    requires src[ptr..] == Join(parts, d)
    ensures var k := FindFrom(src, d, ptr);
      src[ptr..k] == parts[0]
      && (|parts| > 1 ==> k < |src| && src[k + 1..] == Join(parts[1..], d))
      && (|parts| == 1 ==> k == |src|)
  {
    var t := src[ptr..];
    var len := |parts[0]|;
    var rest := if |parts| == 1 then [] else [d] + Join(parts[1..], d);
    assert t == parts[0] + rest;
    FindFirstOfPart(parts[0], d, rest);
    FindFromShift(src, d, ptr, 0);
    var k := FindFrom(src, d, ptr);
    SliceShift(src, ptr, len, k);
    assert t[..len] == parts[0];
    if |parts| > 1 {
      assert t[len + 1..] == Join(parts[1..], d);
    }
  }

  /** Where round `n` of `get_part` starts reading: just past the `n`-th `|`, or beyond the terminator once the fields run out. */
  function FieldStart(src: string, n: nat): (ptr: nat)
    ensures ptr <= |src| + 1
  {
    if n == 0 then 0
    else
      var p := FieldStart(src, n - 1);
      if p <= |src| then FindFrom(src, Pipe, p) + 1 else p
  }

  /** While there are fields left, the text from `FieldStart(src, n)` on is fields `n..` joined by `|`. */
  lemma {:induction false} FieldStartJoin(src: string, n: nat)
    ensures var ps := Split(src, Pipe);
      n < |ps| ==> FieldStart(src, n) <= |src| && src[FieldStart(src, n)..] == Join(ps[n..], Pipe)
    ensures n >= |Split(src, Pipe)| ==> FieldStart(src, n) == |src| + 1
  {
    var ps := Split(src, Pipe);
    if n == 0 {
      JoinSplit(src, Pipe);
      assert src[0..] == src && ps[0..] == ps;
    } else {
      FieldStartJoin(src, n - 1);
      if n - 1 < |ps| {
        FieldStartNext(src, n);
      }
    }
  }

  lemma FieldStartNext(src: string, n: nat)
    requires var ps := Split(src, Pipe);
      0 < n && n - 1 < |ps| && FieldStart(src, n - 1) <= |src| && src[FieldStart(src, n - 1)..] == Join(ps[n - 1..], Pipe)
    ensures var ps := Split(src, Pipe);
      n < |ps| ==> FieldStart(src, n) <= |src| && src[FieldStart(src, n)..] == Join(ps[n..], Pipe)
    ensures n >= |Split(src, Pipe)| ==> FieldStart(src, n) == |src| + 1
  {
    var ps := Split(src, Pipe);
    var p := FieldStart(src, n - 1);
    var parts := ps[n - 1..];
    assert FieldStart(src, n) == FindFrom(src, Pipe, p) + 1;
    assert forall i :: 0 <= i < |parts| ==> Pipe !in parts[i] by {
      forall i | 0 <= i < |parts| ensures Pipe !in parts[i] { assert parts[i] == ps[n - 1 + i]; }
    }
    FieldStep(src, Pipe, p, parts);
    assert parts[1..] == ps[n..];
  }

  /** Round `n` copies exactly field `n`, and nothing once past the last one. */
  lemma FieldAt(src: string, n: nat)
    ensures var p := FieldStart(src, n);
      (p <= |src| ==> src[p..FindFrom(src, Pipe, p)] == Part(src, Pipe, n))
      && (p > |src| ==> Part(src, Pipe, n) == "")
  {
    var ps := Split(src, Pipe);
    FieldStartJoin(src, n);
    SplitCount(src, Pipe);
    var p := FieldStart(src, n);
    if n < |ps| {
      var parts := ps[n..];
      assert forall i :: 0 <= i < |parts| ==> Pipe !in parts[i] by {
        forall i | 0 <= i < |parts| ensures Pipe !in parts[i] { assert parts[i] == ps[n + i]; }
      }
      FieldStep(src, Pipe, p, parts);
    }
  }

  /**
   `get_part` of `src/lib/libanidb/handlers.c`: `n` runs from 0 to `idx`; each
   round copies from `ptr` up to the next `|` (or the end) and moves `ptr`
   past that separator. Rounds that start beyond the terminator read nothing.
   */
  method GetPart(src: string, idx: nat) returns (buf: string)
    ensures buf == Part(src, Pipe, idx)
  {
    var ptr: nat := 0;
    var n: nat := 0;
    buf := "";
    while n <= idx
      invariant n <= idx + 1
      invariant ptr == FieldStart(src, n)
      invariant n > 0 ==> buf == Part(src, Pipe, n - 1)
    {
      FieldAt(src, n);
      if ptr <= |src| {
        var k := FindFrom(src, Pipe, ptr);
        buf := src[ptr..k];
        ptr := k + 1;
      } else {
        buf := "";
      }
      n := n + 1;
    }
  }

  /** `PARSE_KEYS`: for each key in order, `dict_set(key, field i)`. */
  function ParseKeys(r: Result, src: string, keys: seq<string>): (r': Result)
    ensures r'.code == r.code && r'.refs == r.refs
    ensures |keys| > 0 ==> GetDict(r') == Some(PairsOf(r) + Fields(src, keys))
  {
    if |keys| == 0 then r
    else
      var init := ParseKeys(r, src, keys[..|keys| - 1]);
      var fs := Fields(src, keys);
      var last := (keys[|keys| - 1], Part(src, Pipe, |keys| - 1));
      assert fs == Fields(src, keys[..|keys| - 1]) + [last];
      assert PairsOf(init) == PairsOf(r) + Fields(src, keys[..|keys| - 1]);
      assert PairsOf(init) + [last] == PairsOf(r) + fs;
      DictSet(init, last.0, last.1)
  }

  /** The pairs `PARSE_KEYS` stores: key `i` with field `i`. */
  function Fields(src: string, keys: seq<string>): (pairs: seq<(string, string)>)
    ensures |pairs| == |keys|
    ensures forall i :: 0 <= i < |keys| ==> pairs[i] == (keys[i], Part(src, Pipe, i))
  {
    seq(|keys|, i requires 0 <= i < |keys| => (keys[i], Part(src, Pipe, i)))
  }

  lemma {:induction false} ParseKeysIsDictSetAll(r: Result, src: string, keys: seq<string>)
    ensures ParseKeys(r, src, keys) == DictSetAll(r, Fields(src, keys))
    decreases |keys|
  {
    if |keys| > 0 {
      var init := keys[..|keys| - 1];
      ParseKeysIsDictSetAll(r, src, init);
      var fs := Fields(src, keys);
      assert fs[..|fs| - 1] == Fields(src, init);
    }
  }

  /** On a fresh result, `PARSE_KEYS` leaves the dictionary `keys[i] = field i`, in key order. */
  lemma ParseKeysOrder(code: int, src: string, keys: seq<string>)
    requires |keys| > 0
    ensures GetDict(ParseKeys(New(code), src, keys)) == Some(Fields(src, keys))
    ensures ParseKeys(New(code), src, keys).code == code
  {
    ParseKeysIsDictSetAll(New(code), src, keys);
    DictSetAllOrder(code, Fields(src, keys));
  }

  predicate Distinct(keys: seq<string>)
  {
    forall i, j :: 0 <= i < j < |keys| ==> keys[i] != keys[j]
  }

  /** Position of the first occurrence of `k` in `keys`; `|keys|` when there is none. */
  function IndexOf(keys: seq<string>, k: string): nat
  {
    if |keys| == 0 || keys[0] == k then 0 else 1 + IndexOf(keys[1..], k)
  }

  /** `IndexOf` finds `k` at the position it returns, and nowhere before it. */
  lemma {:induction false} IndexOfFirst(keys: seq<string>, k: string)
    ensures IndexOf(keys, k) <= |keys|
    ensures IndexOf(keys, k) < |keys| ==> keys[IndexOf(keys, k)] == k
    ensures forall j :: 0 <= j < IndexOf(keys, k) ==> keys[j] != k
  {
    if |keys| > 0 && keys[0] != k {
      IndexOfFirst(keys[1..], k);
      forall j | 0 <= j < IndexOf(keys, k) ensures keys[j] != k {
        if j > 0 {
          assert keys[j] == keys[1..][j - 1];
        }
      }
    }
  }

  /** In a list without repeats every key is first found at its own position. */
  lemma {:induction false} DistinctIndexOf(keys: seq<string>, i: nat)
    requires Distinct(keys) && i < |keys|
    ensures IndexOf(keys, keys[i]) == i
  {
    if i > 0 {
      assert keys[0] != keys[i];
      assert Distinct(keys[1..]) by {
        forall a, b | 0 <= a < b < |keys[1..]| ensures keys[1..][a] != keys[1..][b] {
          assert keys[1..][a] == keys[a + 1] && keys[1..][b] == keys[b + 1];
        }
      }
      DistinctIndexOf(keys[1..], i - 1);
      assert keys[1..][i - 1] == keys[i];
    }
  }

  /** A key that does not occur before position `i` is found with the value stored at `i`. */
  lemma {:induction false} FirstMatchAt(pairs: seq<(string, string)>, i: nat)
    requires i < |pairs|
    requires forall j :: 0 <= j < i ==> pairs[j].0 != pairs[i].0
    ensures FirstMatch(pairs, pairs[i].0) == Some(pairs[i].1)
  {
    if i > 0 {
      assert pairs[1..][i - 1] == pairs[i];
      FirstMatchAt(pairs[1..], i - 1);
    }
  }

  /**
   A body made of delimiter-free fields joined by `|`, with at least as many
   fields as keys, is parsed into `key i = field i` for every key that does
   not already occur earlier in the key list.
   */
  lemma ParseKeysRender(code: int, fields: seq<string>, keys: seq<string>, i: nat)
    requires 0 < |keys| <= |fields|
    requires forall j :: 0 <= j < |fields| ==> Pipe !in fields[j]
    requires i < |keys| && forall j :: 0 <= j < i ==> keys[j] != keys[i]
    ensures DictGet(ParseKeys(New(code), Join(fields, Pipe), keys), keys[i]) == Some(fields[i])
  {
    var src := Join(fields, Pipe);
    ParseKeysOrder(code, src, keys);
    SplitJoin(fields, Pipe);
    var pairs := Fields(src, keys);
    FirstMatchAt(pairs, i);
  }

  /**
   At least as many fields as keys, none holding the delimiter, and key `i`
   not already used by an earlier key.
   */
  predicate FieldsFit(fields: seq<string>, keys: seq<string>, i: nat)
  {
    && 0 < |keys| <= |fields|
    && (forall j :: 0 <= j < |fields| ==> Pipe !in fields[j])
    && i < |keys|
    && IndexOf(keys, keys[i]) == i
  }

  /** A reply made of a header and fields joined by `|`, cut after the header, is parsed into `key i = field i`. */
  lemma ReplyFields(code: int, header: string, fields: seq<string>, keys: seq<string>, i: nat, data: string, skip: nat)
    requires FieldsFit(fields, keys, i) && data == header + Join(fields, Pipe) && skip == |header|
    ensures DictGet(ParseKeys(New(code), Body(data, skip), keys), keys[i]) == Some(fields[i])
  {
    var body := Join(fields, Pipe);
    assert (header + body)[|header|..] == body;
    IndexOfFirst(keys, keys[i]);
    ParseKeysRender(code, fields, keys, i);
  }

  /** The body after a header of `skip` characters; a shorter reply leaves nothing to read. */
  function Body(data: string, skip: nat): (b: string)
    ensures skip <= |data| ==> data == data[..skip] + b
  {
    if skip <= |data| then data[skip..] else ""
  }

  const AnimeKeys: seq<string> := ["aid", "eps", "ep_count", "special_cnt",
    "rating", "votes", "tmprating", "tmpvotes",
    "rating_avg", "reviews", "year", "type",
    "romaji", "kanji", "english", "other",
    "short_names", "synonyms", "category_list"]

  const AnimeDescKeys: seq<string> := ["part", "max_parts", "description"]

  const EpisodeKeys: seq<string> := ["eid", "aid", "length", "rating",
    "votes", "epno", "eng", "romaji",
    "kanji", "aired"]

  const FileKeys: seq<string> := ["fid", "aid", "eid", "gid",
    "lid", "state", "size", "ed2k",
    "md5", "sha1", "crc32", "dub",
    "sub", "quality", "source",
    "audio", "video", "resolution",
    "ext", "duration",
    "group_name", "group_short",
    "ep_number", "ep_eng", "ep_romaji",
    "ep_kanji",
    "anime_totalep", "anime_lastep",
    "anime_year", "anime_type",
    "anime_romaji", "anime_kanji",
    "anime_eng", "anime_categories"]

  const GroupKeys: seq<string> := ["gid", "rating", "votes", "acount",
    "fcount", "name", "short",
    "irc_channel", "irc_server", "url"]

  /** `handler_anime`: 19 fields after `230 ANIME` and its newline. */
  function Anime(r: Result, data: string): (r': Result)
    ensures r'.code == r.code && GetType(r') == DictType
  {
    ParseKeys(r, Body(data, 10), AnimeKeys)
  }

  /** `handler_animedesc`: 3 fields after `233 ANIMEDESC` and its newline. */
  function AnimeDesc(r: Result, data: string): (r': Result)
    ensures r'.code == r.code && GetType(r') == DictType
  {
    ParseKeys(r, Body(data, 14), AnimeDescKeys)
  }

  /** `handler_episode`: 10 fields after `240 EPISODE` and its newline. */
  function Episode(r: Result, data: string): (r': Result)
    ensures r'.code == r.code && GetType(r') == DictType
  {
    ParseKeys(r, Body(data, 12), EpisodeKeys)
  }

  /** `handler_file`: 34 fields after `220 FILE` and its newline. */
  function File(r: Result, data: string): (r': Result)
    ensures r'.code == r.code && GetType(r') == DictType
  {
    ParseKeys(r, Body(data, 9), FileKeys)
  }

  /** `handler_group`: 10 fields after `250 GROUP` and its newline. */
  function Group(r: Result, data: string): (r': Result)
    ensures r'.code == r.code && GetType(r') == DictType
  {
    ParseKeys(r, Body(data, 10), GroupKeys)
  }

  /** The key tables have the sizes the handlers rely on, and no key twice. */
  lemma KeyTables()
    ensures |AnimeKeys| == 19 && |AnimeDescKeys| == 3 && |EpisodeKeys| == 10 && |FileKeys| == 34 && |GroupKeys| == 10
    ensures Distinct(AnimeKeys) && Distinct(AnimeDescKeys) && Distinct(EpisodeKeys) && Distinct(GroupKeys)
    ensures Distinct(FileKeys)
  {
    FileKeysDistinct();
  }

  /** Two key lists without repeats and without a common key join into one without repeats. */
  lemma DistinctJoin(a: seq<string>, b: seq<string>)
    requires Distinct(a) && Distinct(b)
    requires forall i, j :: 0 <= i < |a| && 0 <= j < |b| ==> a[i] != b[j]
    ensures Distinct(a + b)
  {
    forall i, j | 0 <= i < j < |a + b| ensures (a + b)[i] != (a + b)[j] {
      if j < |a| {
      } else if i < |a| {
        assert (a + b)[j] == b[j - |a|];
      } else {
        assert (a + b)[i] == b[i - |a|] && (a + b)[j] == b[j - |a|];
      }
    }
  }

  const FileKeysA: seq<string> := ["fid", "aid", "eid", "gid", "lid", "state", "size", "ed2k", "md5"]
  const FileKeysB: seq<string> := ["sha1", "crc32", "dub", "sub", "quality", "source", "audio", "video"]
  const FileKeysC: seq<string> := ["resolution", "ext", "duration", "group_name", "group_short",
    "ep_number", "ep_eng", "ep_romaji"]
  const FileKeysD: seq<string> := ["ep_kanji", "anime_totalep", "anime_lastep", "anime_year",
    "anime_type", "anime_romaji", "anime_kanji", "anime_eng", "anime_categories"]

  /** The 34 file keys have no repeats, checked a quarter of the table at a time. */
  lemma FileKeysDistinct()
    ensures Distinct(FileKeys)
  {
    assert FileKeys == FileKeysA + FileKeysB + FileKeysC + FileKeysD;
    assert Distinct(FileKeysA) && Distinct(FileKeysB) && Distinct(FileKeysC) && Distinct(FileKeysD);
    FileKeysApart();
    DistinctJoin(FileKeysA, FileKeysB);
    DistinctJoin(FileKeysA + FileKeysB, FileKeysC);
    DistinctJoin(FileKeysA + FileKeysB + FileKeysC, FileKeysD);
  }

  lemma FileKeysApart()
    ensures forall i, j :: 0 <= i < |FileKeysA + FileKeysB| && 0 <= j < |FileKeysC| ==> (FileKeysA + FileKeysB)[i] != FileKeysC[j]
    ensures forall i, j :: 0 <= i < |FileKeysA| && 0 <= j < |FileKeysB| ==> FileKeysA[i] != FileKeysB[j]
    ensures forall i, j :: 0 <= i < |FileKeysA + FileKeysB + FileKeysC| && 0 <= j < |FileKeysD| ==> (FileKeysA + FileKeysB + FileKeysC)[i] != FileKeysD[j]
  {
  }

  /** Nineteen delimiter-free fields fit the anime keys at every position. */
  lemma AnimeFieldsFit(fields: seq<string>, i: nat)
    requires |fields| == |AnimeKeys| && forall j :: 0 <= j < |fields| ==> Pipe !in fields[j]
    requires i < |AnimeKeys|
    ensures FieldsFit(fields, AnimeKeys, i)
  {
    KeyTables();
    DistinctIndexOf(AnimeKeys, i);
  }

  /**
   Each handler's offset skips exactly its reply's status line (code, space,
   name) and the newline after it.
   */
  lemma HeaderLengths(rest: string)
    ensures Body("230 ANIME\n" + rest, 10) == rest && Body("233 ANIMEDESC\n" + rest, 14) == rest
    ensures Body("240 EPISODE\n" + rest, 12) == rest
    ensures Body("220 FILE\n" + rest, 9) == rest && Body("250 GROUP\n" + rest, 10) == rest
  {
    assert ("230 ANIME\n" + rest)[10..] == rest;
    assert ("233 ANIMEDESC\n" + rest)[14..] == rest;
    assert ("240 EPISODE\n" + rest)[12..] == rest;
    assert ("220 FILE\n" + rest)[9..] == rest;
    assert ("250 GROUP\n" + rest)[10..] == rest;
  }

  /** End of the run of non-space characters from `i`. */
  function WordStop(s: string, i: nat): (j: nat)
    requires i <= |s|
    ensures i <= j <= |s|
    ensures forall p :: i <= p < j ==> !IsSpace(s[p])
    ensures j < |s| ==> IsSpace(s[j])
    decreases |s| - i
  {
    if i == |s| || IsSpace(s[i]) then i else WordStop(s, i + 1)
  }

  /** What `%s` reads from position `i`: white space skipped, then the longest run of other characters. */
  function Token(s: string, i: nat): (t: string)
    requires i <= |s|
    ensures forall p :: 0 <= p < |t| ==> !IsSpace(t[p])
  {
    var j := SkipSpace(s, i);
    var k := WordStop(s, j);
    assert forall p :: 0 <= p < k - j ==> s[j..k][p] == s[j + p];
    s[j..k]
  }

  /**
   `handler_auth_accepted`: `sscanf(data, "200 %s")` then a STRING result. A
   reply that does not start with `200`, or has nothing after it, leaves the
   buffer unset; the model stores the empty string then.
   */
  function AuthAccepted(r: Result, data: string): (r': Result)
    ensures r'.code == r.code && GetType(r') == StringType
  {
    if |data| >= 3 && data[..3] == "200" then SetStr(r, Token(data, 3)) else SetStr(r, "")
  }

  /** The login reply `200 {key} LOGIN ACCEPTED` yields exactly the key. */
  lemma AuthAcceptedKey(r: Result, key: string, rest: string)
    requires |key| > 0 && forall p :: 0 <= p < |key| ==> !IsSpace(key[p])
    requires rest == [] || IsSpace(rest[0])
    ensures GetStr(AuthAccepted(r, "200 " + key + rest)) == Some(key)
  {
    var data := "200 " + key + rest;
    assert data[..3] == "200";
    assert data[3] == ' ';
    assert SkipSpace(data, 4) == 4 by { assert data[4] == key[0]; }
    assert SkipSpace(data, 3) == 4;
    WordStopSkip(data, 4, 4 + |key|);
    assert data[4..4 + |key|] == key;
  }

  lemma {:induction false} WordStopSkip(s: string, i: nat, j: nat)
    requires i <= j <= |s|
    requires forall p :: i <= p < j ==> !IsSpace(s[p])
    requires j < |s| ==> IsSpace(s[j])
    ensures WordStop(s, i) == j
    decreases j - i
  {
    if i < j {
      WordStopSkip(s, i + 1, j);
    }
  }

  /** `handler_auth_logout`: nothing to record. */
  function AuthLogout(r: Result, data: string): (r': Result)
    ensures r' == r
  {
    r
  }

  /** `anidb_handlers`. */
  const Handlers: seq<Handler> := [
    Handler(LoginAccepted, AuthAccepted),
    Handler(LoggedOut, AuthLogout),
    Handler(AnimeCode, Anime),
    Handler(AnimeDescription, AnimeDesc),
    Handler(EpisodeCode, Episode),
    Handler(FileCode, File),
    Handler(GroupCode, Group)]

  /** The codes the table answers, each once. */
  lemma HandlerCodes()
    ensures |Handlers| == 7 && UniqueCodes(Handlers)
    ensures forall i :: 0 <= i < |Handlers| ==> Handlers[i].code in {200, 203, 230, 233, 240, 220, 250}
  {
  }

  /** A reply with a code the table does not list leaves the result NULL. */
  lemma UnlistedCodeStaysNull(reply: string)
    requires Atoi(reply) !in {200, 203, 230, 233, 240, 220, 250}
    ensures Dispatch(Handlers, reply) == New(Atoi(reply))
    ensures GetType(Dispatch(Handlers, reply)) == NullType
  {
  }

  /** A successful login: the reply's key ends up in a STRING result, and setting it logs the session in. */
  lemma Login(s: Session, key: string)
    requires |key| > 0 && forall p :: 0 <= p < |key| ==> !IsSpace(key[p])
    ensures var r := Dispatch(Handlers, "200 " + key + " LOGIN ACCEPTED");
      r.code == 200 && GetStr(r) == Some(key) && IsLoggedIn(SetKey(s, key))
  {
    var reply := "200 " + key + " LOGIN ACCEPTED";
    assert Numeral(200) == "200" by {
      assert Numeral(2) == "2";
      assert Numeral(20) == Numeral(2) + ['0'];
    }
    assert reply == Numeral(200) + (" " + key + " LOGIN ACCEPTED");
    AtoiNumeral(200, " " + key + " LOGIN ACCEPTED");
    HandlerCodes();
    DispatchUnique(Handlers, reply, 0);
    assert reply == "200 " + key + (" LOGIN ACCEPTED");
    AuthAcceptedKey(New(200), key, " LOGIN ACCEPTED");
    LoggedInAfterSetKey(s, key);
  }

  /** The status code at the head of a reply `230 …`. */
  lemma AtoiAnime(rest: string)
    requires rest == [] || !IsDigit(rest[0])
    ensures Atoi("230" + rest) == 230
  {
    assert Numeral(230) == "230" by {
      assert Numeral(2) == "2";
      assert Numeral(23) == Numeral(2) + ['3'];
    }
    AtoiNumeral(230, rest);
  }

  /** The status line of an anime reply is the code followed by the rest of the line. */
  lemma AnimeStatusLine(body: string)
    ensures "230 ANIME\n" + body == "230" + (" ANIME\n" + body)
  {
    assert "230 ANIME\n" == "230" + " ANIME\n";
  }

  /** A reply carrying code 230 goes to `handler_anime`. */
  lemma DispatchAnime(reply: string)
    requires Atoi(reply) == 230
    ensures Dispatch(Handlers, reply) == Anime(New(230), reply)
  {
    HandlerCodes();
    DispatchUnique(Handlers, reply, 2);
  }

  /** Any reply starting with the anime status line is parsed by `handler_anime` on a fresh result. */
  lemma AnimeRoute(body: string)
    ensures Dispatch(Handlers, "230 ANIME\n" + body) == Anime(New(230), "230 ANIME\n" + body)
  {
    AnimeStatusLine(body);
    AtoiAnime(" ANIME\n" + body);
    DispatchAnime("230 ANIME\n" + body);
  }

  /** Whatever the key table, the fields after the anime status line are parsed in order. */
  lemma AnimeBody(fields: seq<string>, keys: seq<string>, i: nat)
    requires FieldsFit(fields, keys, i)
    ensures DictGet(ParseKeys(New(230), Body("230 ANIME\n" + Join(fields, Pipe), 10), keys), keys[i]) == Some(fields[i])
  {
    ReplyFields(230, "230 ANIME\n", fields, keys, i, "230 ANIME\n" + Join(fields, Pipe), 10);
  }

  /** `handler_anime` gives each of its 19 keys the field at the same position. */
  lemma AnimeFields(fields: seq<string>, i: nat)
    requires |fields| == |AnimeKeys| && forall j :: 0 <= j < |fields| ==> Pipe !in fields[j]
    requires i < |AnimeKeys|
    ensures DictGet(Anime(New(230), "230 ANIME\n" + Join(fields, Pipe)), AnimeKeys[i]) == Some(fields[i])
  {
    AnimeFieldsFit(fields, i);
    AnimeBody(fields, AnimeKeys, i);
  }

  /** The fields after any status line of `skip` characters are parsed in order, whatever the key table. */
  lemma StatusBody(code: int, header: string, skip: nat, fields: seq<string>, keys: seq<string>, i: nat)
    requires FieldsFit(fields, keys, i) && skip == |header|
    ensures DictGet(ParseKeys(New(code), Body(header + Join(fields, Pipe), skip), keys), keys[i]) == Some(fields[i])
  {
    ReplyFields(code, header, fields, keys, i, header + Join(fields, Pipe), skip);
  }

  /** Three delimiter-free fields fit the animedesc keys at every position. */
  lemma AnimeDescFieldsFit(fields: seq<string>, i: nat)
    requires |fields| == |AnimeDescKeys| && forall j :: 0 <= j < |fields| ==> Pipe !in fields[j]
    requires i < |AnimeDescKeys|
    ensures FieldsFit(fields, AnimeDescKeys, i)
  {
    KeyTables();
    DistinctIndexOf(AnimeDescKeys, i);
  }

  /** `handler_animedesc` skips its status line and parses the fields after it in key order. */
  lemma AnimeDescReply(fields: seq<string>, i: nat)
    requires FieldsFit(fields, AnimeDescKeys, i)
    ensures DictGet(AnimeDesc(New(233), "233 ANIMEDESC\n" + Join(fields, Pipe)), AnimeDescKeys[i]) == Some(fields[i])
  {
    StatusBody(233, "233 ANIMEDESC\n", 14, fields, AnimeDescKeys, i);
  }

  /** `handler_animedesc` gives each of its 3 keys the field at the same position. */
  lemma AnimeDescFields(fields: seq<string>, i: nat)
    requires |fields| == |AnimeDescKeys| && forall j :: 0 <= j < |fields| ==> Pipe !in fields[j]
    requires i < |AnimeDescKeys|
    ensures DictGet(AnimeDesc(New(233), "233 ANIMEDESC\n" + Join(fields, Pipe)), AnimeDescKeys[i]) == Some(fields[i])
  {
    AnimeDescFieldsFit(fields, i);
    AnimeDescReply(fields, i);
  }

  /** Ten delimiter-free fields fit the episode keys at every position. */
  lemma EpisodeFieldsFit(fields: seq<string>, i: nat)
    requires |fields| == |EpisodeKeys| && forall j :: 0 <= j < |fields| ==> Pipe !in fields[j]
    requires i < |EpisodeKeys|
    ensures FieldsFit(fields, EpisodeKeys, i)
  {
    KeyTables();
    DistinctIndexOf(EpisodeKeys, i);
  }

  /** `handler_episode` skips its status line and parses the fields after it in key order. */
  lemma EpisodeReply(fields: seq<string>, i: nat)
    requires FieldsFit(fields, EpisodeKeys, i)
    ensures DictGet(Episode(New(240), "240 EPISODE\n" + Join(fields, Pipe)), EpisodeKeys[i]) == Some(fields[i])
  {
    StatusBody(240, "240 EPISODE\n", 12, fields, EpisodeKeys, i);
  }

  /** `handler_episode` gives each of its 10 keys the field at the same position. */
  lemma EpisodeFields(fields: seq<string>, i: nat)
    requires |fields| == |EpisodeKeys| && forall j :: 0 <= j < |fields| ==> Pipe !in fields[j]
    requires i < |EpisodeKeys|
    ensures DictGet(Episode(New(240), "240 EPISODE\n" + Join(fields, Pipe)), EpisodeKeys[i]) == Some(fields[i])
  {
    EpisodeFieldsFit(fields, i);
    EpisodeReply(fields, i);
  }

  /** Thirty-four delimiter-free fields fit the file keys at every position. */
  lemma FileFieldsFit(fields: seq<string>, i: nat)
    requires |fields| == |FileKeys| && forall j :: 0 <= j < |fields| ==> Pipe !in fields[j]
    requires i < |FileKeys|
    ensures FieldsFit(fields, FileKeys, i)
  {
    FileKeysDistinct();
    DistinctIndexOf(FileKeys, i);
  }

  /** `handler_file` skips its status line and parses the fields after it in key order. */
  lemma FileReply(fields: seq<string>, i: nat)
    requires FieldsFit(fields, FileKeys, i)
    ensures DictGet(File(New(220), "220 FILE\n" + Join(fields, Pipe)), FileKeys[i]) == Some(fields[i])
  {
    StatusBody(220, "220 FILE\n", 9, fields, FileKeys, i);
  }

  /** `handler_file` gives each of its 34 keys the field at the same position. */
  lemma FileFields(fields: seq<string>, i: nat)
    requires |fields| == |FileKeys| && forall j :: 0 <= j < |fields| ==> Pipe !in fields[j]
    requires i < |FileKeys|
    ensures DictGet(File(New(220), "220 FILE\n" + Join(fields, Pipe)), FileKeys[i]) == Some(fields[i])
  {
    FileFieldsFit(fields, i);
    FileReply(fields, i);
  }

  /** Ten delimiter-free fields fit the group keys at every position. */
  lemma GroupFieldsFit(fields: seq<string>, i: nat)
    requires |fields| == |GroupKeys| && forall j :: 0 <= j < |fields| ==> Pipe !in fields[j]
    requires i < |GroupKeys|
    ensures FieldsFit(fields, GroupKeys, i)
  {
    KeyTables();
    DistinctIndexOf(GroupKeys, i);
  }

  /** `handler_group` skips its status line and parses the fields after it in key order. */
  lemma GroupReply(fields: seq<string>, i: nat)
    requires FieldsFit(fields, GroupKeys, i)
    ensures DictGet(Group(New(250), "250 GROUP\n" + Join(fields, Pipe)), GroupKeys[i]) == Some(fields[i])
  {
    StatusBody(250, "250 GROUP\n", 10, fields, GroupKeys, i);
  }

  /** `handler_group` gives each of its 10 keys the field at the same position. */
  lemma GroupFields(fields: seq<string>, i: nat)
    requires |fields| == |GroupKeys| && forall j :: 0 <= j < |fields| ==> Pipe !in fields[j]
    requires i < |GroupKeys|
    ensures DictGet(Group(New(250), "250 GROUP\n" + Join(fields, Pipe)), GroupKeys[i]) == Some(fields[i])
  {
    GroupFieldsFit(fields, i);
    GroupReply(fields, i);
  }
}

=== FILE: anidb_handlers_old.dfy ===
/**
 The earlier copy of the AniDB reply handlers (`src/libanidb/handlers.c`):
 a character-by-character `get_part`, an anime handler that adds its 19
 fields one call at a time, a logout handler that records four fixed pairs,
 and a table of three codes.
 */
module AnidbHandlersOld {
  import opened Wrappers
  import opened Strings
  import opened AnidbResult
  import opened AnidbSession
  import opened AnidbHandlers

  /** Appending one character grows the delimiter count or the field it falls in. */
  lemma CharStep(s: string, c: char, d: char, idx: nat)
    ensures Count(s + [c], d) == Count(s, d) + (if c == d then 1 else 0)
    ensures Part(s + [c], d, idx) == (if c != d && idx == Count(s, d) then Part(s, d, idx) + [c] else Part(s, d, idx))
  {
    assert (s + [c])[..|s|] == s;
    SplitSnoc(s, c, d);
    SplitCount(s, d);
    SplitCount(s + [c], d);
  }

  /**
   `get_part` of `src/libanidb/handlers.c`: walks every character, counting
   delimiters in `i`, and keeps the non-delimiter characters seen while `i`
   equals `idx`.
   */
  method GetPartOld(src: string, delim: char, idx: nat) returns (buf: string)
    ensures buf == Part(src, delim, idx)
  {
    var i: nat := 0;
    var p: nat := 0;
    buf := "";
    assert src[..0] == [];
    while p < |src|
      invariant p <= |src|
      invariant i == Count(src[..p], delim)
      invariant buf == Part(src[..p], delim, idx)
    {
      CharStep(src[..p], src[p], delim, idx);
      if i == idx && src[p] != delim {
        buf := buf + [src[p]];
      }
      if src[p] == delim {
        i := i + 1;
      }
      assert src[..p + 1] == src[..p] + [src[p]];
      p := p + 1;
    }
    assert src[..|src|] == src;
  }

  /** Joining every field with the delimiter gives back the source string. */
  lemma FieldsJoin(src: string, d: char)
    ensures var fs := seq(Count(src, d) + 1, i requires 0 <= i < Count(src, d) + 1 => Part(src, d, i));
      Join(fs, d) == src
  {
    SplitCount(src, d);
    var fs := seq(Count(src, d) + 1, i requires 0 <= i < Count(src, d) + 1 => Part(src, d, i));
    assert fs == Split(src, d);
    JoinSplit(src, d);
  }

  /** The keys of the earlier anime handler; field 8 is `rating_average` here. */
  const OldAnimeKeys: seq<string> := ["aid", "eps", "ep_count", "special_cnt",
    "rating", "votes", "tmprating", "tmpvotes",
    "rating_average", "reviews", "year", "type",
    "romaji", "kanji", "english", "other",
    "short_names", "synonyms", "category_list"]

  /** `handler_anime`: fields 0 to 18 of the data after 10 characters, added one `dict_set` at a time. */
  function AnimeOld(r: Result, data: string): (r': Result)
    ensures r'.code == r.code && GetType(r') == DictType
  {
    ParseKeys(r, Body(data, 10), OldAnimeKeys)
  }

  /** The two anime key tables agree except for the name of field 8. */
  lemma AnimeKeyTables()
    ensures |OldAnimeKeys| == |AnimeKeys| == 19
    ensures forall i :: 0 <= i < 19 && i != 8 ==> OldAnimeKeys[i] == AnimeKeys[i]
    ensures OldAnimeKeys[8] == "rating_average" && AnimeKeys[8] == "rating_avg"
  {
  }

  lemma OldAnimeKeysDistinct()
    ensures |OldAnimeKeys| == 19 && Distinct(OldAnimeKeys)
  {
  }

  /** Nineteen delimiter-free fields fit the earlier anime keys at every position. */
  lemma OldAnimeFieldsFit(fields: seq<string>, i: nat)
    requires |fields| == |OldAnimeKeys| && forall j :: 0 <= j < |fields| ==> Pipe !in fields[j]
    requires i < |OldAnimeKeys|
    ensures FieldsFit(fields, OldAnimeKeys, i)
  {
    OldAnimeKeysDistinct();
    DistinctIndexOf(OldAnimeKeys, i);
  }

  /** The pairs the earlier logout handler records. */
  const LogoutPairs: seq<(string, string)> := [("test", "hej"), ("test1", "hej"), ("test2", "hej"), ("test3", "hej")]

  /** `handler_auth_logout` of the earlier copy: four `dict_set` calls in a row. */
  function AuthLogoutOld(r: Result, data: string): (r': Result)
    ensures GetDict(r') == Some(PairsOf(r) + LogoutPairs)
    ensures r'.code == r.code
  {
    var r1 := DictSet(r, "test", "hej");
    var r2 := DictSet(r1, "test1", "hej");
    var r3 := DictSet(r2, "test2", "hej");
    var r4 := DictSet(r3, "test3", "hej");
    assert PairsOf(r4) == PairsOf(r) + LogoutPairs;
    r4
  }

  /** `anidb_handlers` of the earlier copy. */
  const OldHandlers: seq<Handler> := [
    Handler(LoginAccepted, AuthAccepted),
    Handler(LoggedOut, AuthLogoutOld),
    Handler(AnimeCode, AnimeOld)]

  /** The earlier table answers exactly 200, 203 and 230, in that order. */
  lemma OldHandlerCodes()
    ensures |OldHandlers| == 3 && UniqueCodes(OldHandlers)
    ensures OldHandlers[0].code == 200 && OldHandlers[1].code == 203 && OldHandlers[2].code == 230
  {
  }

  /** A logout reply leaves a dictionary of exactly the four test pairs, in order. */
  lemma OldLogoutReply(reply: string)
    requires Atoi(reply) == 203
    ensures GetDict(Dispatch(OldHandlers, reply)) == Some(LogoutPairs)
    ensures Dispatch(OldHandlers, reply).code == 203
  {
    OldHandlerCodes();
    DispatchUnique(OldHandlers, reply, 1);
    var r := Dispatch(OldHandlers, reply);
    assert r == AuthLogoutOld(New(203), reply);
    assert PairsOf(New(203)) + LogoutPairs == LogoutPairs;
  }

  /** Codes other than 200, 203 and 230 leave the result NULL in the earlier copy. */
  lemma OldUnlistedCodeStaysNull(reply: string)
    requires Atoi(reply) !in {200, 203, 230}
    ensures Dispatch(OldHandlers, reply) == New(Atoi(reply))
  {
  }

  /** An anime reply of 19 `|`-separated fields gives each of the earlier keys its field. */
  lemma AnimeOldReply(fields: seq<string>, i: nat)
    requires |fields| == |OldAnimeKeys| && forall j :: 0 <= j < |fields| ==> Pipe !in fields[j]
    requires i < |OldAnimeKeys|
    ensures DictGet(AnimeOld(New(230), "230 ANIME\n" + Join(fields, Pipe)), OldAnimeKeys[i]) == Some(fields[i])
  {
    OldAnimeFieldsFit(fields, i);
    AnimeBody(fields, OldAnimeKeys, i);
  }
}

=== FILE: anidb_result.dfy ===
/**
 The tagged value an AniDB command returns (`anidb_result_t` and the
 `anidb_result_*` functions in `src/lib/libanidb/anidb.c`): a response code,
 a reference count and a value that is nothing, a number, a string or an
 insertion-ordered dictionary of string pairs (the `anidb_dict_t` list).
 */
module AnidbResult {
  import opened Wrappers
  import RefCount

  /** `enum anidb_result_type`. */
  datatype Type = NullType | NumberType | StringType | DictType

  /** The tag and the union member it selects; a dictionary is its list of nodes in list order. */
  datatype Value = Null | Number(number: int) | Str(str: string) | Dict(pairs: seq<(string, string)>)

  datatype Result = Result(code: int, value: Value, refs: nat)

  /** The first value stored under `key`, in list order. */
  function FirstMatch(pairs: seq<(string, string)>, key: string): Option<string>
  {
    if |pairs| == 0 then None
    else if pairs[0].0 == key then Some(pairs[0].1)
    else FirstMatch(pairs[1..], key)
  }

  /** A lookup finds nothing exactly when no pair has the key, and otherwise the value of the first pair that does. */
  lemma {:induction false} FirstMatchSpec(pairs: seq<(string, string)>, key: string)
    ensures FirstMatch(pairs, key).None? <==> forall i :: 0 <= i < |pairs| ==> pairs[i].0 != key
    ensures FirstMatch(pairs, key).Some? ==> exists i :: 0 <= i < |pairs| && pairs[i] == (key, FirstMatch(pairs, key).value) && forall j :: 0 <= j < i ==> pairs[j].0 != key
  {
    if |pairs| > 0 && pairs[0].0 != key {
      var v := FirstMatch(pairs[1..], key);
      FirstMatchSpec(pairs[1..], key);
      assert forall i :: 1 <= i < |pairs| ==> pairs[i] == pairs[1..][i - 1];
      if v.Some? {
        var i :| 0 <= i < |pairs[1..]| && pairs[1..][i] == (key, v.value) && forall j :: 0 <= j < i ==> pairs[1..][j].0 != key;
        assert pairs[i + 1] == (key, v.value);
      }
    } else if |pairs| > 0 {
      assert pairs[0] == (key, pairs[0].1);
    }
  }

  /** `anidb_result_get_type`. */
  function GetType(r: Result): (t: Type)
    ensures t == NullType <==> r.value.Null?
    ensures t == NumberType <==> r.value.Number?
    ensures t == StringType <==> r.value.Str?
    ensures t == DictType <==> r.value.Dict?
  {
    match r.value
    case Null => NullType
    case Number(_) => NumberType
    case Str(_) => StringType
    case Dict(_) => DictType
  }

  /** `anidb_result_get_str`: fails unless the tag is STRING. */
  function GetStr(r: Result): (s: Option<string>)
    ensures s.Some? <==> GetType(r) == StringType
    ensures s.Some? ==> r.value == Str(s.value)
  {
    if r.value.Str? then Some(r.value.str) else None
  }

  /** `anidb_result_get_int`: fails unless the tag is NUMBER. */
  function GetInt(r: Result): (n: Option<int>)
    ensures n.Some? <==> GetType(r) == NumberType
    ensures n.Some? ==> r.value == Number(n.value)
  {
    if r.value.Number? then Some(r.value.number) else None
  }

  /** `anidb_result_get_dict`: the node list, or NULL unless the tag is DICT. */
  function GetDict(r: Result): (d: Option<seq<(string, string)>>)
    ensures d.Some? <==> GetType(r) == DictType
    ensures d.Some? ==> r.value == Dict(d.value)
  {
    if r.value.Dict? then Some(r.value.pairs) else None
  }

  /** `anidb_result_dict_get`: the value of the first node whose key is `key`; 0 when the tag is not DICT or no node has it. */
  function DictGet(r: Result, key: string): (v: Option<string>)
    ensures GetType(r) != DictType ==> v.None?
    ensures GetType(r) == DictType ==> v == FirstMatch(r.value.pairs, key)
  {
    if r.value.Dict? then FirstMatch(r.value.pairs, key) else None
  }

  /** `anidb_result_new`: the code, tag NULL and one reference. */
  function New(code: int): (r: Result)
    ensures r.code == code && r.refs == 1
    ensures GetType(r) == NullType
    ensures GetStr(r).None? && GetInt(r).None? && GetDict(r).None?
    ensures forall key :: DictGet(r, key).None?
  {
    Result(code, Null, 1)
  }

  /** `anidb_result_set_str`: overwrites the tag and the value. */
  function SetStr(r: Result, s: string): (r': Result)
    ensures GetStr(r') == Some(s)
    ensures r'.code == r.code && r'.refs == r.refs
  {
    r.(value := Str(s))
  }

  /** `anidb_result_set_int`: overwrites the tag and the value. */
  function SetInt(r: Result, n: int): (r': Result)
    ensures GetInt(r') == Some(n)
    ensures r'.code == r.code && r'.refs == r.refs
  {
    r.(value := Number(n))
  }

  /** The node list a `dict_set` extends: the current one under tag DICT, otherwise none yet. */
  function PairsOf(r: Result): seq<(string, string)>
  {
    if r.value.Dict? then r.value.pairs else []
  }

  /** `anidb_result_dict_set`: sets the tag to DICT and appends a node at the tail. */
  function DictSet(r: Result, key: string, val: string): (r': Result)
    ensures GetDict(r') == Some(PairsOf(r) + [(key, val)])
    ensures r'.code == r.code && r'.refs == r.refs
  {
    r.(value := Dict(PairsOf(r) + [(key, val)]))
  }

  /** Appending never hides a key that is already there. */
  lemma {:induction false} FirstMatchAppend(pairs: seq<(string, string)>, key: string, val: string, q: string)
    ensures FirstMatch(pairs + [(key, val)], q) ==
      (if FirstMatch(pairs, q).Some? then FirstMatch(pairs, q) else if q == key then Some(val) else None)
  {
    if |pairs| > 0 {
      assert (pairs + [(key, val)])[1..] == pairs[1..] + [(key, val)];
      FirstMatchAppend(pairs[1..], key, val, q);
    } else {
      assert [(key, val)][1..] == [];
    }
  }

  /** After `dict_set(key, val)` a lookup of `key` gives the first value ever stored under it; other keys are unaffected. */
  lemma DictGetAfterSet(r: Result, key: string, val: string, q: string)
    ensures DictGet(DictSet(r, key, val), q) ==
      (if DictGet(r, q).Some? then DictGet(r, q) else if q == key then Some(val) else None)
  {
    FirstMatchAppend(PairsOf(r), key, val, q);
  }

  /** `dict_set` over a list of pairs, in order. */
  function DictSetAll(r: Result, pairs: seq<(string, string)>): Result
  {
    if |pairs| == 0 then r
    else DictSet(DictSetAll(r, pairs[..|pairs| - 1]), pairs[|pairs| - 1].0, pairs[|pairs| - 1].1)
  }

  /** `dict_set` keeps the code and the reference count. */
  lemma {:induction false} DictSetAllKeeps(r: Result, pairs: seq<(string, string)>)
    ensures DictSetAll(r, pairs).code == r.code && DictSetAll(r, pairs).refs == r.refs
  {
    if |pairs| > 0 {
      DictSetAllKeeps(r, pairs[..|pairs| - 1]);
    }
  }

  /** Filling a result that holds nothing keeps the pairs in insertion order, duplicates included. */
  lemma {:induction false} DictSetAllPairs(r: Result, pairs: seq<(string, string)>)
    requires r.value == Null && |pairs| > 0
    ensures DictSetAll(r, pairs).value == Dict(pairs)
    decreases |pairs|
  {
    var init := pairs[..|pairs| - 1];
    var last := pairs[|pairs| - 1];
    assert init + [last] == pairs;
    if |pairs| > 1 {
      DictSetAllPairs(r, init);
    } else {
      assert init == [];
    }
  }

  /** A fresh result filled with `pairs` hands back exactly those pairs, in order. */
  lemma DictSetAllOrder(code: int, pairs: seq<(string, string)>)
    requires |pairs| > 0
    ensures GetDict(DictSetAll(New(code), pairs)) == Some(pairs)
    ensures DictSetAll(New(code), pairs).code == code
  {
    DictSetAllPairs(New(code), pairs);
    DictSetAllKeeps(New(code), pairs);
  }

  /**
   `anidb_result_unref`: the result and, under tag DICT, each node of its list
   (created with one reference each) are released when the last reference goes.
   */
  function Unref(r: Result): (o: Option<Result>)
    requires r.refs >= 1
    ensures o.None? <==> RefCount.Unref(r.refs).Released?
    ensures o.Some? ==> o.value.code == r.code && o.value.value == r.value && RefCount.Ref(o.value.refs) == r.refs
  {
    match RefCount.Unref(r.refs)
    case Released => None
    case Held(n) => Some(r.(refs := n))
  }

  /** `anidb_result_ref`. */
  function Ref(r: Result): (r': Result)
    ensures r'.code == r.code && r'.value == r.value && r'.refs >= 1
    ensures Unref(r') == (if r.refs == 0 then None else Some(r))
  {
    RefCount.RefThenUnref(r.refs);
    r.(refs := RefCount.Ref(r.refs))
  }

  /** A new result is released by its first `unref`. */
  lemma NewThenUnref(code: int)
    ensures Unref(New(code)) == None
  {
  }
}

=== FILE: anidb_session.dfy ===
/**
 An AniDB UDP API session as driven by `src/lib/libanidb/anidb.c`: the request
 line `CMD k1=v1&k2=v2…` built by `gen_query_va`, the response code read with
 `atoi`, the dispatch of the reply to the first handler registered for that
 code, and the session key that marks a session as logged in. The datagram
 exchange with the server is a parameter (`server` maps the request sent to
 the reply received). Strings stand for the characters of C strings, before
 their terminating NUL.
 */
module AnidbSession {
  import opened Wrappers
  import opened Strings
  import opened AnidbResult
  import RefCount

  /** `ANIDB_PROTO_VERSION`: version 3 of the AniDB UDP API. */
  const ProtoVersion := "3"

  const LoginAccepted := 200
  const LoggedOut := 203
  const FileCode := 220
  const AnimeCode := 230
  const AnimeDescription := 233
  const EpisodeCode := 240
  const GroupCode := 250

  /** What follows argument number `i`: `=` after a key, `&` after a value. */
  function Sep(i: nat): string
  {
    if i % 2 == 0 then "=" else "&"
  }

  /** The text the loop of `gen_query_va` appends: every argument followed by its separator. */
  function Appended(args: seq<string>): (s: string)
    ensures |s| >= |args|
  {
    if |args| == 0 then "" else Appended(args[..|args| - 1]) + args[|args| - 1] + Sep(|args| - 1)
  }

  /** The request line: `cmd`, a space, the appended arguments, less the last character written. */
  function Request(cmd: string, args: seq<string>): (out: string)
    ensures |out| == |cmd| + |Appended(args)|
  {
    var buf := cmd + " " + Appended(args);
    buf[..|buf| - 1]
  }

  /** Key/value pairs as the alternating argument list of a call. */
  function Flatten(pairs: seq<(string, string)>): (args: seq<string>)
    ensures |args| == 2 * |pairs|
    ensures forall i :: 0 <= i < |pairs| ==> args[2 * i] == pairs[i].0 && args[2 * i + 1] == pairs[i].1
  {
    if |pairs| == 0 then []
    else Flatten(pairs[..|pairs| - 1]) + [pairs[|pairs| - 1].0, pairs[|pairs| - 1].1]
  }

  /** The reference query text `k1=v1&…&kn=vn`. */
  function Query(pairs: seq<(string, string)>): string
    requires |pairs| > 0
  {
    var p := pairs[|pairs| - 1];
    if |pairs| == 1 then p.0 + "=" + p.1 else Query(pairs[..|pairs| - 1]) + ("&" + p.0 + "=" + p.1)
  }

  lemma {:induction false} AppendedPairs(pairs: seq<(string, string)>)
    requires |pairs| > 0
    ensures Appended(Flatten(pairs)) == Query(pairs) + "&"
    decreases |pairs|
  {
    var init := pairs[..|pairs| - 1];
    var p := pairs[|pairs| - 1];
    var a := Flatten(init);
    assert Flatten(pairs) == a + [p.0, p.1];
    AppendedPair(a, p.0, p.1);
    if |pairs| > 1 {
      AppendedPairs(init);
      Regroup2(Query(init), p.0, p.1);
    } else {
      assert a == [];
      Regroup1(p.0 + "=" + p.1);
    }
  }

  /** The loop appends a key with `=` and its value with `&`. */
  lemma AppendedPair(a: seq<string>, k: string, v: string)
    requires |a| % 2 == 0
    ensures Appended(a + [k, v]) == Appended(a) + (k + "=" + v) + "&"
  {
    assert a + [k, v] == (a + [k]) + [v];
    AppendedArg(a, k);
    AppendedArg(a + [k], v);
    SepParity(|a|);
    Regroup(Appended(a), k, v);
  }

  /** One more argument is appended followed by its separator. */
  lemma AppendedArg(a: seq<string>, x: string)
    ensures Appended(a + [x]) == Appended(a) + x + Sep(|a|)
  {
    assert (a + [x])[..|a|] == a;
  }

  /** A key sits at an even position and is followed by `=`; its value by `&`. */
  lemma SepParity(n: nat)
    requires n % 2 == 0
    ensures Sep(n) == "=" && Sep(n + 1) == "&"
  {
  }

  lemma Regroup1(x: string)
    ensures "" + x + "&" == x + "&"
  {
  }

  lemma Regroup2(q: string, k: string, v: string)
    ensures q + "&" + (k + "=" + v) + "&" == q + ("&" + k + "=" + v) + "&"
  {
  }

  lemma Regroup(q: string, x: string, y: string)
    ensures q + x + "=" + y + "&" == q + (x + "=" + y) + "&"
  {
  }

  /** A call with key/value pairs sends `cmd k1=v1&…&kn=vn`; the trailing `&` is what gets removed. */
  lemma RequestPairs(cmd: string, pairs: seq<(string, string)>)
    requires |pairs| > 0
    ensures Request(cmd, Flatten(pairs)) == cmd + " " + Query(pairs)
  {
    AppendedPairs(pairs);
    RequestDropsLast(cmd, Flatten(pairs), Query(pairs));
  }

  /** When the arguments end with `&`, the request is the rest of the buffer. */
  lemma RequestDropsLast(cmd: string, args: seq<string>, tail: string)
    requires Appended(args) == tail + "&"
    ensures Request(cmd, args) == cmd + " " + tail
  {
    var buf := cmd + " " + Appended(args);
    assert buf == (cmd + " " + tail) + "&";
  }

  /** Without arguments the removed character is the space after the command. */
  lemma RequestBare(cmd: string)
    ensures Request(cmd, []) == cmd
  {
    assert (cmd + " " + "")[..|cmd|] == cmd;
  }

  /** The C `isspace` set. */
  predicate IsSpace(c: char)
  {
    c == ' ' || c == '\t' || c == '\n' || c == '\U{B}' || c == '\U{C}' || c == '\r'
  }

  function SkipSpace(s: string, i: nat): (j: nat)
    requires i <= |s|
    ensures i <= j <= |s|
    ensures j < |s| ==> !IsSpace(s[j])
    decreases |s| - i
  {
    if i == |s| || !IsSpace(s[i]) then i else SkipSpace(s, i + 1)
  }

  /** `atoi`: leading white space, an optional sign, then the longest run of digits; no digits give 0. */
  function Atoi(s: string): (n: int)
    ensures (|s| == 0 || !(IsSpace(s[0]) || IsDigit(s[0]) || s[0] == '-' || s[0] == '+')) ==> n == 0
  {
    var i := SkipSpace(s, 0);
    var neg := i < |s| && s[i] == '-';
    var j := if i < |s| && (s[i] == '-' || s[i] == '+') then i + 1 else i;
    var k := DigitEnd(s, j);
    var v: int := Decimal(s[j..k]);
    if neg then -v else v
  }

  /** The code at the head of a reply is read back exactly. */
  lemma AtoiNumeral(v: nat, rest: string)
    requires rest == [] || !IsDigit(rest[0])
    ensures Atoi(Numeral(v) + rest) == v
  {
    var w := Numeral(v);
    var s := w + rest;
    assert s[0] == w[0];
    assert SkipSpace(s, 0) == 0;
    forall p | 0 <= p < |w| ensures IsDigit(s[p]) { assert s[p] == w[p]; }
    DigitEndSkip(s, 0, |w|);
    assert s[0..|w|] == w;
    DecimalNumeral(v);
  }

  /** An entry of the handler table: a response code and what to do with a reply carrying it. */
  datatype Handler = Handler(code: int, func: (Result, string) -> Result)

  /** Position of the first handler for `code`, or `|table|` when there is none. */
  function FirstHandler(table: seq<Handler>, code: int): (i: nat)
    ensures i <= |table|
    ensures i < |table| ==> table[i].code == code
    ensures forall j :: 0 <= j < i ==> table[j].code != code
  {
    if |table| == 0 then 0
    else if table[0].code == code then 0
    else 1 + FirstHandler(table[1..], code)
  }

  /** The handler-dispatch part of `anidb_session_cmd`: a new result for the code read from the reply, passed to the first handler for that code. */
  function Dispatch(table: seq<Handler>, reply: string): (r: Result)
    ensures (forall j :: 0 <= j < |table| ==> table[j].code != Atoi(reply)) ==> r == New(Atoi(reply))
    ensures forall i :: 0 <= i < |table| && table[i].code == Atoi(reply) && (forall j :: 0 <= j < i ==> table[j].code != Atoi(reply)) ==>
      r == table[i].func(New(Atoi(reply)), reply)
  {
    var code := Atoi(reply);
    var i := FirstHandler(table, code);
    if i < |table| then table[i].func(New(code), reply) else New(code)
  }

  /** Codes appear once each. */
  predicate UniqueCodes(table: seq<Handler>)
  {
    forall i, j :: 0 <= i < j < |table| ==> table[i].code != table[j].code
  }

  /** With unique codes, the handler registered for the reply's code is the one applied, wherever it sits. */
  lemma DispatchUnique(table: seq<Handler>, reply: string, i: nat)
    requires UniqueCodes(table)
    requires i < |table| && table[i].code == Atoi(reply)
    ensures Dispatch(table, reply) == table[i].func(New(Atoi(reply)), reply)
  {
  }

  /** `anidb_session_cmd`: the request sent and the result built from the reply. */
  function Cmd(server: string -> string, table: seq<Handler>, cmd: string, args: seq<string>): (r: (string, Result))
    ensures r.0 == Request(cmd, args)
    ensures (forall j :: 0 <= j < |table| ==> table[j].code != Atoi(server(r.0))) ==>
      GetType(r.1) == NullType && r.1.code == Atoi(server(r.0))
  {
    var out := Request(cmd, args);
    (out, Dispatch(table, server(out)))
  }

  datatype Session = Session(clientName: string, clientVersion: string, key: string, refs: nat)

  /** `anidb_session_set_key`: only the key changes. */
  function SetKey(s: Session, key: string): (s': Session)
    ensures s'.key == key
    ensures s'.clientName == s.clientName && s'.clientVersion == s.clientVersion && s'.refs == s.refs
  {
    s.(key := key)
  }

  /** `anidb_session_is_logged_in`: the key's first character is not its terminator. */
  predicate IsLoggedIn(s: Session)
  {
    |s.key| > 0
  }

  /** A session counts as logged in exactly when the key it was last given is not empty. */
  lemma LoggedInAfterSetKey(s: Session, key: string)
    ensures IsLoggedIn(SetKey(s, key)) <==> key != ""
  {
  }

  /** `anidb_session_new` without the socket: the names and one reference, no key. */
  function NewSession(name: string, version: string): (s: Session)
    ensures !IsLoggedIn(s) && s.refs == 1
    ensures s.clientName == name && s.clientVersion == version
  {
    Session(name, version, "", 1)
  }

  /** `anidb_session_unref`: the session (and its socket) goes with the last reference. */
  function UnrefSession(s: Session): (o: Option<Session>)
    requires s.refs >= 1
    ensures o.None? <==> s.refs == 1
    ensures o.Some? ==> o.value == s.(refs := s.refs - 1)
  {
    match RefCount.Unref(s.refs)
    case Released => None
    case Held(n) => Some(s.(refs := n))
  }

  /** The arguments of `anidb_session_authenticate`. */
  function AuthPairs(s: Session, user: string, pass: string): seq<(string, string)>
  {
    [("user", user), ("pass", pass), ("protover", ProtoVersion), ("client", s.clientName),
     ("clientver", s.clientVersion), ("nat", "1"), ("enc", "UTF8")]
  }

  /** `anidb_session_authenticate`. */
  function Authenticate(server: string -> string, table: seq<Handler>, s: Session, user: string, pass: string): (r: (string, Result))
    ensures r.0 == AuthText(s, user, pass)
  {
    AuthRequest(s, user, pass);
    Cmd(server, table, "AUTH", Flatten(AuthPairs(s, user, pass)))
  }

  /** The AUTH request line as the AniDB UDP API documents it. */
  function AuthText(s: Session, user: string, pass: string): string
  {
    "AUTH " + ("user=" + user + ("&pass=" + pass) + ("&protover=" + ProtoVersion) + ("&client=" + s.clientName)
      + ("&clientver=" + s.clientVersion) + "&nat=1" + "&enc=UTF8")
  }

  /** A query of one pair. */
  lemma QueryOne(k: string, v: string, text: string)
    requires text == k + "="
    ensures Query([(k, v)]) == text + v
  {
  }

  /** One more pair adds `&key=` and the value to the query. */
  lemma QueryStep(pairs: seq<(string, string)>, k: string, v: string, text: string)
    requires |pairs| > 0 && text == "&" + k + "="
    ensures Query(pairs + [(k, v)]) == Query(pairs) + (text + v)
  {
    assert (pairs + [(k, v)])[..|pairs|] == pairs;
  }

  /** One more pair whose value is fixed text adds `&key=value` to the query. */
  lemma QueryStepText(pairs: seq<(string, string)>, k: string, v: string, text: string)
    requires |pairs| > 0 && text == "&" + k + "=" + v
    ensures Query(pairs + [(k, v)]) == Query(pairs) + text
  {
    assert (pairs + [(k, v)])[..|pairs|] == pairs;
  }

  lemma AuthLiterals()
    ensures "user=" == "user" + "=" && "&pass=" == "&" + "pass" + "="
    ensures "&protover=" == "&" + "protover" + "=" && "&client=" == "&" + "client" + "="
    ensures "&clientver=" == "&" + "clientver" + "="
    ensures "&nat=1" == "&" + "nat" + "=" + "1" && "&enc=UTF8" == "&" + "enc" + "=" + "UTF8"
    ensures "AUTH " == "AUTH" + " "
  {
  }

  /** `anidb_session_authenticate` sends the documented AUTH line, its pairs in the order of the call. */
  lemma AuthRequest(s: Session, user: string, pass: string)
    ensures Request("AUTH", Flatten(AuthPairs(s, user, pass))) == AuthText(s, user, pass)
  {
    var ps1 := [("user", user)];
    var ps2 := ps1 + [("pass", pass)];
    var ps3 := ps2 + [("protover", ProtoVersion)];
    var ps4 := ps3 + [("client", s.clientName)];
    var ps5 := ps4 + [("clientver", s.clientVersion)];
    var ps6 := ps5 + [("nat", "1")];
    var ps7 := ps6 + [("enc", "UTF8")];
    assert AuthPairs(s, user, pass) == ps7;
    AuthLiterals();
    QueryOne("user", user, "user=");
    QueryStep(ps1, "pass", pass, "&pass=");
    QueryStep(ps2, "protover", ProtoVersion, "&protover=");
    QueryStep(ps3, "client", s.clientName, "&client=");
    QueryStep(ps4, "clientver", s.clientVersion, "&clientver=");
    QueryStepText(ps5, "nat", "1", "&nat=1");
    QueryStepText(ps6, "enc", "UTF8", "&enc=UTF8");
    RequestPairs("AUTH", ps7);
  }

  /** `anidb_session_logout`. */
  function Logout(server: string -> string, table: seq<Handler>, s: Session): (r: (string, Result))
    ensures r.0 == "LOGOUT s=" + s.key
  {
    RequestPairs("LOGOUT", [("s", s.key)]);
    Cmd(server, table, "LOGOUT", Flatten([("s", s.key)]))
  }
}

=== FILE: backends.dfy ===
/**
 The backend registry of `src/hashfs/backend.c`. Loading a shared module is a
 foreign operation, so its outcome is an input; the descriptor's
 `setup_func`, the glob matcher and the configuration file are parameters
 or plain values.
 */
module Backends {
  import opened Wrappers

  /** `hashfs_backend_desc_t` without its setup function. */
  datatype Desc = Desc(shortname: string, name: string, description: string)

  /** Which of the optional callbacks `init`, `file` and `destroy` a backend filled in. */
  datatype Callbacks = Callbacks(hasInit: bool, hasFile: bool, hasDestroy: bool)

  datatype Backend = Backend(desc: Desc, callbacks: Callbacks, globs: seq<string>)

  /** What `setup_func` leaves behind in the fresh backend. */
  datatype Setup = Setup(callbacks: Callbacks, globs: seq<string>)

  /** What opening a module file yields. */
  datatype ModuleOutcome =
    | OpenFailed                 // g_module_open returned NULL
    | SymbolMissing              // no HASHFS_BACKEND_DESC symbol
    | NullDescriptor             // the symbol is NULL
    | Found(desc: Desc)

  /** No two registered backends share a short name. */
  predicate UniqueNames(reg: seq<Backend>) {
    forall i, j :: 0 <= i < j < |reg| ==> reg[i].desc.shortname != reg[j].desc.shortname
  }

  /** `reg[i]` is the first registered backend named `name`. */
  predicate FirstNamed(reg: seq<Backend>, name: string, i: int) {
    && 0 <= i < |reg|
    && reg[i].desc.shortname == name
    && (forall j :: 0 <= j < i ==> reg[j].desc.shortname != name)
  }

  /** `hashfs_backends_lookup`: the first registered backend with the short name. */
  function Lookup(reg: seq<Backend>, name: string): (r: Option<Backend>)
    ensures r.Some? ==> exists i :: FirstNamed(reg, name, i) && reg[i] == r.value
    ensures r.None? <==> forall i :: 0 <= i < |reg| ==> reg[i].desc.shortname != name
  {
    if |reg| == 0 then None
    else if reg[0].desc.shortname == name then
      assert FirstNamed(reg, name, 0);
      Some(reg[0])
    else
      var r := Lookup(reg[1..], name);
      assert r.Some? ==> exists i :: FirstNamed(reg, name, i) && reg[i] == r.value by {
        if r.Some? {
          var i :| FirstNamed(reg[1..], name, i) && reg[1..][i] == r.value;
          assert FirstNamed(reg, name, i + 1);
        }
      }
      r
  }

  /**
   `hashfs_backend_load`: nothing when the module cannot be opened, lacks the
   descriptor symbol, has a NULL descriptor, or names an already registered
   short name; otherwise a fresh backend set up by `setup_func`.
   */
  function Load(reg: seq<Backend>, outcome: ModuleOutcome, setup: Desc -> Setup): (r: Option<Backend>)
    ensures r.Some? <==> outcome.Found? && Lookup(reg, outcome.desc.shortname).None?
    ensures r.Some? ==> r.value == Backend(outcome.desc, setup(outcome.desc).callbacks,
                                           setup(outcome.desc).globs)
  {
    match outcome
    case OpenFailed => None
    case SymbolMissing => None
    case NullDescriptor => None
    case Found(desc) =>
      if Lookup(reg, desc.shortname).Some? then None
      else Some(Backend(desc, setup(desc).callbacks, setup(desc).globs))
  }

  /**
   `hashfs_backends_load`: try each matching module file in turn and append
   what loads. The registry grows only at its end, and afterwards every
   module that had a descriptor is registered under its short name, either
   by this load or by an earlier one.
   */
  function LoadAll(reg: seq<Backend>, outcomes: seq<ModuleOutcome>, setup: Desc -> Setup): (r: seq<Backend>)
    ensures |reg| <= |r| <= |reg| + |outcomes|
    ensures r[..|reg|] == reg
    ensures forall j :: 0 <= j < |outcomes| && outcomes[j].Found? ==> Lookup(r, outcomes[j].desc.shortname).Some?
    decreases |outcomes|
  {
    if |outcomes| == 0 then reg
    else
      var next := Load(reg, outcomes[0], setup);
      var reg' := if next.Some? then reg + [next.value] else reg;
      var r := LoadAll(reg', outcomes[1..], setup);
      assert r[..|reg|] == r[..|reg'|][..|reg|];
      assert forall j :: 1 <= j < |outcomes| ==> outcomes[j] == outcomes[1..][j - 1];
      if outcomes[0].Found? then
        var name := outcomes[0].desc.shortname;
        var k :| 0 <= k < |reg'| && reg'[k].desc.shortname == name;
        assert r[k] == reg'[k];
        r
      else r
  }

  /** The short names of the registered backends. */
  function NamesOf(reg: seq<Backend>): set<string> {
    set i | 0 <= i < |reg| :: reg[i].desc.shortname
  }

  /**
   The backends a run of module outcomes adds when the names in `taken` are
   already registered: each descriptor whose short name is neither taken nor
   seen earlier in the run, set up by `setup_func`, in directory order.
   */
  function Admitted(taken: set<string>, outcomes: seq<ModuleOutcome>, setup: Desc -> Setup): seq<Backend>
    decreases |outcomes|
  {
    if |outcomes| == 0 then []
    else if outcomes[0].Found? && outcomes[0].desc.shortname !in taken then
      var d := outcomes[0].desc;
      [Backend(d, setup(d).callbacks, setup(d).globs)] + Admitted(taken + {d.shortname}, outcomes[1..], setup)
    else Admitted(taken, outcomes[1..], setup)
  }

  /** What `hashfs_backends_load` appends is exactly the admitted backends, in order. */
  lemma {:induction false} LoadAllAppendsAdmitted(reg: seq<Backend>, outcomes: seq<ModuleOutcome>, setup: Desc -> Setup)
    ensures LoadAll(reg, outcomes, setup) == reg + Admitted(NamesOf(reg), outcomes, setup)
    decreases |outcomes|
  {
    if |outcomes| > 0 {
      var next := Load(reg, outcomes[0], setup);
      if outcomes[0].Found? {
        LookupNames(reg, outcomes[0].desc.shortname);
      }
      if next.Some? {
        NamesOfSnoc(reg, next.value);
        LoadAllAppendsAdmitted(reg + [next.value], outcomes[1..], setup);
      } else {
        LoadAllAppendsAdmitted(reg, outcomes[1..], setup);
      }
    }
  }

  /** A short name is unregistered exactly when it is not among the registered names. */
  lemma LookupNames(reg: seq<Backend>, name: string)
    ensures Lookup(reg, name).None? <==> name !in NamesOf(reg)
  {
    if name in NamesOf(reg) {
      var i :| 0 <= i < |reg| && reg[i].desc.shortname == name;
    }
  }

  /** Appending a backend adds its short name to the registered names. */
  lemma NamesOfSnoc(reg: seq<Backend>, b: Backend)
    ensures NamesOf(reg + [b]) == NamesOf(reg) + {b.desc.shortname}
  {
    var reg' := reg + [b];
    forall n | n in NamesOf(reg') ensures n in NamesOf(reg) + {b.desc.shortname} {
      var i :| 0 <= i < |reg'| && reg'[i].desc.shortname == n;
      if i < |reg| { assert reg[i] == reg'[i]; }
    }
    forall n | n in NamesOf(reg) ensures n in NamesOf(reg') {
      var i :| 0 <= i < |reg| && reg[i].desc.shortname == n;
      assert reg'[i] == reg[i];
    }
    assert reg'[|reg|] == b;
  }

  /** Loading keeps short names unique: a descriptor whose short name is taken is refused. */
  lemma {:induction false} LoadAllKeepsNamesUnique(reg: seq<Backend>, outcomes: seq<ModuleOutcome>,
                                                    setup: Desc -> Setup)
    requires UniqueNames(reg)
    ensures UniqueNames(LoadAll(reg, outcomes, setup))
    decreases |outcomes|
  {
    if |outcomes| > 0 {
      var next := Load(reg, outcomes[0], setup);
      if next.Some? {
        var reg' := reg + [next.value];
        assert forall i :: 0 <= i < |reg| ==> reg[i].desc.shortname != next.value.desc.shortname;
        assert UniqueNames(reg');
        LoadAllKeepsNamesUnique(reg', outcomes[1..], setup);
      } else {
        LoadAllKeepsNamesUnique(reg, outcomes[1..], setup);
      }
    }
  }

  /** With unique short names, every registered backend is found by its own name. */
  lemma LookupFindsRegistered(reg: seq<Backend>, i: nat)
    requires UniqueNames(reg) && i < |reg|
    ensures Lookup(reg, reg[i].desc.shortname) == Some(reg[i])
  {
    var r := Lookup(reg, reg[i].desc.shortname);
    var k :| FirstNamed(reg, reg[i].desc.shortname, k) && reg[k] == r.value;
    assert k == i;
  }

  /** `hashfs_backend_glob_set`: the patterns are appended in argument order. */
  function GlobSet(b: Backend, patterns: seq<string>): (r: Backend)
    ensures r.desc == b.desc && r.callbacks == b.callbacks
    ensures |r.globs| == |b.globs| + |patterns|
    ensures r.globs[..|b.globs|] == b.globs && r.globs[|b.globs|..] == patterns
  {
    b.(globs := b.globs + patterns)
  }

  /** `hashfs_backend_glob_try`: some registered pattern matches the file name. */
  function GlobTry(globs: seq<string>, filename: string, matches: (string, string) -> bool): (r: bool)
    ensures r <==> exists i :: 0 <= i < |globs| && matches(globs[i], filename)
  {
    if |globs| == 0 then false
    else if matches(globs[0], filename) then true
    else
      var r := GlobTry(globs[1..], filename, matches);
      assert r ==> exists i :: 0 <= i < |globs| && matches(globs[i], filename) by {
        if r {
          var i :| 0 <= i < |globs[1..]| && matches(globs[1..][i], filename);
          assert globs[i + 1] == globs[1..][i];
        }
      }
      assert (exists i :: 0 <= i < |globs| && matches(globs[i], filename)) ==> r by {
        if exists i :: 0 <= i < |globs| && matches(globs[i], filename) {
          var i :| 0 <= i < |globs| && matches(globs[i], filename);
          assert i != 0;
          assert globs[1..][i - 1] == globs[i];
        }
      }
      r
  }

  /** A group and key of the configuration file. */
  datatype ConfigKey = ConfigKey(group: string, key: string)

  type Config = map<ConfigKey, string>

  /**
   `hashfs_backend_config_register`: the default is written under the
   backend's short name only when the key is absent; nothing else changes.
   */
  function ConfigRegister(cfg: Config, b: Backend, key: string, default: string): (r: Config)
    ensures ConfigKey(b.desc.shortname, key) in r
    ensures ConfigKey(b.desc.shortname, key) in cfg ==> r == cfg
    ensures ConfigKey(b.desc.shortname, key) !in cfg ==> r[ConfigKey(b.desc.shortname, key)] == default
    ensures r.Keys == cfg.Keys + {ConfigKey(b.desc.shortname, key)}
    ensures forall k :: k in cfg ==> r[k] == cfg[k]
  {
    var k := ConfigKey(b.desc.shortname, key);
    if k in cfg then cfg else cfg[k := default]
  }

  /** Registering the same default twice is the same as registering it once. */
  lemma ConfigRegisterIdempotent(cfg: Config, b: Backend, key: string, default: string)
    ensures ConfigRegister(ConfigRegister(cfg, b, key, default), b, key, default)
         == ConfigRegister(cfg, b, key, default)
  {
  }

  /** The callback slots of a backend. */
  datatype CallbackKind = InitCallback | FileCallback | DestroyCallback

  /** One call of a backend callback. */
  datatype Call = Call(kind: CallbackKind, backend: string)

  predicate HasCallback(c: Callbacks, kind: CallbackKind) {
    match kind
    case InitCallback => c.hasInit
    case FileCallback => c.hasFile
    case DestroyCallback => c.hasDestroy
  }

  /**
   `hashfs_backend_init`, `hashfs_backend_file` and the first step of
   `hashfs_backend_destroy`: the callback is called once if it is set and
   not at all otherwise.
   */
  function Invoke(b: Backend, kind: CallbackKind): (calls: seq<Call>)
    ensures |calls| <= 1
    ensures |calls| == 1 <==> HasCallback(b.callbacks, kind)
    ensures forall c :: c in calls ==> c == Call(kind, b.desc.shortname)
  {
    if HasCallback(b.callbacks, kind) then [Call(kind, b.desc.shortname)] else []
  }

  /** `hashfs_backends_destroy`: every backend in registry order gets its destroy callback, if set. */
  function DestroyAll(reg: seq<Backend>): (calls: seq<Call>)
    ensures |calls| <= |reg|
    ensures forall c :: c in calls ==> c.kind == DestroyCallback
    decreases |reg|
  {
    if |reg| == 0 then [] else Invoke(reg[0], DestroyCallback) + DestroyAll(reg[1..])
  }

  /** A backend's destroy callback is called by `DestroyAll` exactly when it is set. */
  lemma {:induction false} DestroyAllCallsEachSetCallback(reg: seq<Backend>, i: nat)
    requires UniqueNames(reg) && i < |reg|
    ensures Call(DestroyCallback, reg[i].desc.shortname) in DestroyAll(reg)
        <==> reg[i].callbacks.hasDestroy
    decreases |reg|
  {
    var c := Call(DestroyCallback, reg[i].desc.shortname);
    var rest := DestroyAll(reg[1..]);
    assert DestroyAll(reg) == Invoke(reg[0], DestroyCallback) + rest;
    assert UniqueNames(reg[1..]);
    if i == 0 {
      NotCalledWithoutName(reg[1..], reg[0].desc.shortname);
    } else {
      assert reg[1..][i - 1] == reg[i];
      DestroyAllCallsEachSetCallback(reg[1..], i - 1);
    }
  }

  /** A name no backend carries gets no destroy call. */
  lemma {:induction false} NotCalledWithoutName(reg: seq<Backend>, name: string)
    requires forall j :: 0 <= j < |reg| ==> reg[j].desc.shortname != name
    ensures Call(DestroyCallback, name) !in DestroyAll(reg)
    decreases |reg|
  {
    if |reg| > 0 {
      NotCalledWithoutName(reg[1..], name);
    }
  }
}

=== FILE: backref.dfy ===
/**
 Back-references in a schema query, as substituted by `prepare_query` and
 `eval_cb` in `src/hashfs/hashfsmount.c`: every leftmost, non-overlapping
 match of `\$(\w+)\[(\d+)\]\.(\w+)` is replaced by a value taken from the
 entries resolved at the earlier levels of the path.
 */
module Backref {
  import opened Wrappers
  import opened Strings
  import opened Store

  /** A matched reference `$name[n].key` and the index just past it. */
  datatype Ref = Ref(name: string, n: string, key: string, end: nat)

  predicate IsWord(w: string) {
    |w| > 0 && forall i :: 0 <= i < |w| ==> IsWordChar(w[i])
  }

  /** The text of a reference. */
  function RefText(name: string, n: string, key: string): string {
    "$" + name + "[" + n + "]." + key
  }

  /** The reference the pattern matches starting exactly at `i`, if any. */
  function RefAt(s: string, i: nat): (r: Option<Ref>)
    requires i <= |s|
    ensures r.Some? ==> i < r.value.end <= |s|
    ensures r.Some? ==> IsWord(r.value.name) && IsNumeral(r.value.n) && IsWord(r.value.key)
    ensures r.Some? ==> s[i..r.value.end] == RefText(r.value.name, r.value.n, r.value.key)
    ensures r.Some? ==> r.value.end == |s| || !IsWordChar(s[r.value.end])
    ensures i == |s| || s[i] != '$' ==> r.None?
  {
    if i < |s| && s[i] == '$' then
      var j := WordEnd(s, i + 1);
      if j > i + 1 && j < |s| && s[j] == '[' then
        var k := DigitEnd(s, j + 1);
        if k > j + 1 && k + 1 < |s| && s[k] == ']' && s[k + 1] == '.' then
          var m := WordEnd(s, k + 2);
          if m > k + 2 then
            RefSlice(s, i, j, k, m);
            Some(Ref(s[i + 1..j], s[j + 1..k], s[k + 2..m], m))
          else None
        else None
      else None
    else None
  }

  /** A stretch of `s` laid out like a reference is the text of the reference made of its pieces. */
  lemma RefSlice(s: string, i: nat, j: nat, k: nat, m: nat)
    requires i < j < k && k + 2 <= m <= |s|
    requires s[i] == '$' && s[j] == '[' && s[k] == ']' && s[k + 1] == '.'
    ensures s[i..m] == RefText(s[i + 1..j], s[j + 1..k], s[k + 2..m])
  {
    assert s[i..i + 1] == "$";
    assert s[j..j + 1] == "[";
    assert s[k..k + 2] == "].";
    SliceJoin(s, i, i + 1, j);
    SliceJoin(s, i, j, j + 1);
    SliceJoin(s, i, j + 1, k);
    SliceJoin(s, i, k, k + 2);
    SliceJoin(s, i, k + 2, m);
  }

  /**
   The entry `n` levels above the current one among those resolved so far
   (`g_list_nth_prev(g_list_last(entries), n - 1)`): 1 is the last one; 0
   and anything beyond the first give no entry.
   */
  function Prev(entries: seq<Entry>, n: nat): (r: Option<Entry>)
    ensures r.Some? <==> 1 <= n <= |entries|
    ensures r.Some? ==> r.value == entries[|entries| - n]
  {
    if 1 <= n <= |entries| then Some(entries[|entries| - n]) else None
  }

  /** The largest `long` on an LP64 platform, where `strtol` saturates. */
  const LongMax: int := 0x7fff_ffff_ffff_ffff

  /** The number of 32-bit values: `gint` and `guint` arithmetic is taken modulo it. */
  const Word32: int := 0x1_0000_0000

  /**
   The count handed to `g_list_nth_prev` for the index numeral `n`, that is
   `nth - 1` with `nth = atoi(n)`. glibc's `atoi` is `(int) strtol`: the
   value saturates at LONG_MAX, the cast to `gint` keeps its low 32 bits,
   and `nth - 1` becomes the unsigned `guint` parameter. Each of the last
   steps keeps the value modulo 2^32, so the count is the saturated value
   less one, modulo 2^32.
   */
  function PrevSteps(n: string): (m: nat)
    requires IsNumeral(n)
    ensures m < Word32
    ensures 1 <= Decimal(n) <= Word32 ==> m == Decimal(n) - 1
    ensures Decimal(n) == 0 ==> m == Word32 - 1
    ensures Decimal(n) >= LongMax ==> m == (LongMax - 1) % Word32
  {
    var v := if Decimal(n) < LongMax then Decimal(n) else LongMax;
    (v - 1) % Word32
  }

  /** The entry a `$prev[n]` reference names, `n` read as `eval_cb` reads it. */
  function Named(r: Ref, entries: seq<Entry>): Option<Entry>
    requires IsNumeral(r.n)
  {
    Prev(entries, PrevSteps(r.n) + 1)
  }

  /**
   `eval_cb`: `$prev[n].key` stands for the entry `n` levels above, with `n`
   read at C's integer widths (`PrevSteps`); `key` is `pkey` for its primary
   key, otherwise one of its fields. Any other variable, a missing entry and
   a missing field all give the empty text.
   */
  function Eval(r: Ref, entries: seq<Entry>): (v: string)
    requires IsNumeral(r.n)
    ensures r.name != "prev" || Named(r, entries).None? ==> v == ""
    ensures r.name == "prev" && Named(r, entries).Some? && r.key == "pkey" ==>
      v == Named(r, entries).value.pkey
    ensures r.name == "prev" && Named(r, entries).Some? && r.key != "pkey" ==>
      v == EntryLookup(Named(r, entries).value, r.key).GetOr("")
  {
    if r.name != "prev" then ""
    else
      match Named(r, entries)
      case None => ""
      case Some(e) =>
        if r.key == "pkey" then e.pkey
        else match EntryLookup(e, r.key)
          case Some(val) => val
          case None => ""
  }

  /** `prepare_query` from `from` on: text outside references is copied, each reference replaced by its value. */
  function Substitute(s: string, entries: seq<Entry>, from: nat): (r: string)
    requires from <= |s|
    ensures '$' !in s[from..] ==> r == s[from..]
    decreases |s| - from
  {
    if from == |s| then ""
    else
      match RefAt(s, from)
      case Some(ref) => Eval(ref, entries) + Substitute(s, entries, ref.end)
      case None =>
        assert s[from..] == [s[from]] + s[from + 1..];
        [s[from]] + Substitute(s, entries, from + 1)
  }

  /** The whole query with its references substituted. */
  function PrepareQuery(q: string, entries: seq<Entry>): (r: string)
    ensures '$' !in q ==> r == q
  {
    Substitute(q, entries, 0)
  }

  /** Text without `$` is copied through unchanged and the substitution carries on after it. */
  lemma {:induction false} SubstitutePlain(s: string, entries: seq<Entry>, from: nat, to: nat)
    requires from <= to <= |s|
    requires '$' !in s[from..to]
    ensures Substitute(s, entries, from) == s[from..to] + Substitute(s, entries, to)
    decreases |s| - from
  {
    if from < to {
      assert s[from] == s[from..to][0];
      assert s[from + 1..to] == s[from..to][1..];
      SubstituteStep(s, entries, from);
      SubstitutePlain(s, entries, from + 1, to);
      assert s[from..to] == [s[from]] + s[from + 1..to];
    }
  }

  /** A character that does not start a reference is copied. */
  lemma SubstituteStep(s: string, entries: seq<Entry>, from: nat)
    requires from < |s| && s[from] != '$'
    ensures Substitute(s, entries, from) == [s[from]] + Substitute(s, entries, from + 1)
  {
    assert RefAt(s, from).None?;
  }

  /** A reference is replaced by its value. */
  lemma SubstituteRef(s: string, entries: seq<Entry>, from: nat, r: Ref)
    requires from < |s| && RefAt(s, from) == Some(r)
    ensures Substitute(s, entries, from) == Eval(r, entries) + Substitute(s, entries, r.end)
  {
  }

  /** A written-out reference not followed by a word character is matched as exactly that reference. */
  lemma RefAtText(s: string, i: nat, name: string, n: string, key: string)
    requires IsWord(name) && IsNumeral(n) && IsWord(key)
    requires i + |RefText(name, n, key)| <= |s| && s[i..i + |RefText(name, n, key)|] == RefText(name, n, key)
    requires i + |RefText(name, n, key)| == |s| || !IsWordChar(s[i + |RefText(name, n, key)|])
    ensures RefAt(s, i) == Some(Ref(name, n, key, i + |RefText(name, n, key)|))
  {
    RefTextSlices(name, n, key);
    LayoutRefAt(s, i, RefText(name, n, key), name, n, key);
  }

  /** Text laid out like a reference, and not followed by a word character, is matched as that reference. */
  lemma LayoutRefAt(s: string, i: nat, t: string, name: string, n: string, key: string)
    requires Layout(t, name, n, key) && IsWord(name) && IsNumeral(n) && IsWord(key)
    requires i + |t| <= |s| && s[i..i + |t|] == t
    requires i + |t| == |s| || !IsWordChar(s[i + |t|])
    ensures RefAt(s, i) == Some(Ref(name, n, key, i + |t|))
  {
    var j, k, m := i + (1 + |name|), i + (2 + |name| + |n|), i + |t|;
    RefHeadAt(s, i, t, name, n, key, j);
    RefTailAt(s, i, t, name, n, key, j, k, m);
    RefAtParts(s, i, j, k, m, name, n, key);
    assert RefAt(s, i) == Some(Ref(name, n, key, m));
  }

  /** Where the name, the numeral and the key sit in the text of a reference. */
  predicate Layout(t: string, name: string, n: string, key: string) {
    && |t| == |name| + |n| + |key| + 4
    && t[0] == '$' && t[1..1 + |name|] == name && t[1 + |name|] == '['
    && t[2 + |name|..2 + |name| + |n|] == n && t[2 + |name| + |n|] == ']' && t[3 + |name| + |n|] == '.'
    && t[4 + |name| + |n|..|t|] == key
  }

  /** The pieces the pattern cuts at `i`: `$`, a word up to `j`, `[`, digits up to `k`, `].`, a word up to `m`. */
  predicate RefParts(s: string, i: nat, j: nat, k: nat, m: nat, name: string, n: string, key: string) {
    && i + 1 < j && j + 1 < k && k + 2 < m <= |s|
    && s[i] == '$' && WordEnd(s, i + 1) == j && s[j] == '['
    && DigitEnd(s, j + 1) == k && s[k] == ']' && s[k + 1] == '.'
    && WordEnd(s, k + 2) == m
    && s[i + 1..j] == name && s[j + 1..k] == n && s[k + 2..m] == key
  }

  /** The `$name[` part of a reference laid out at `i`. */
  lemma RefHeadAt(s: string, i: nat, t: string, name: string, n: string, key: string, j: nat)
    requires Layout(t, name, n, key) && IsWord(name)
    requires i + |t| <= |s| && s[i..i + |t|] == t && j == i + (1 + |name|)
    ensures i + 1 < j < |s| && s[i] == '$' && WordEnd(s, i + 1) == j && s[j] == '[' && s[i + 1..j] == name
  {
    WordAt(s, i, t, i + 1, j, name);
    assert s[i] == t[0] by { assert s[i] == s[i..i + |t|][0]; }
  }

  /** The `n].key` part of a reference laid out at `i`, the `[` being at `j`. */
  lemma RefTailAt(s: string, i: nat, t: string, name: string, n: string, key: string, j: nat, k: nat, m: nat)
    requires Layout(t, name, n, key) && IsNumeral(n) && IsWord(key)
    requires i + |t| <= |s| && s[i..i + |t|] == t
    requires i + |t| == |s| || !IsWordChar(s[i + |t|])
    requires j == i + (1 + |name|) && k == i + (2 + |name| + |n|) && m == i + |t|
    ensures j + 1 < k && k + 2 < m <= |s|
    ensures DigitEnd(s, j + 1) == k && s[k] == ']' && s[k + 1] == '.' && WordEnd(s, k + 2) == m
    ensures s[j + 1..k] == n && s[k + 2..m] == key
  {
    NumeralAt(s, i, t, j + 1, k, n);
    WordAt(s, i, t, k + 2, m, key);
  }

  lemma RefAtParts(s: string, i: nat, j: nat, k: nat, m: nat, name: string, n: string, key: string)
    requires RefParts(s, i, j, k, m, name, n, key)
    ensures RefAt(s, i) == Some(Ref(name, n, key, m))
  {
  }

  /** A word written as `t[a - i..b - i]`, with `t` written at `i` and a non-word character (or the end) after it, is a whole word run of `s`. */
  lemma WordAt(s: string, i: nat, t: string, a: nat, b: nat, w: string)
    requires i + |t| <= |s| && s[i..i + |t|] == t && i <= a <= b <= i + |t|
    requires IsWord(w) && t[a - i..b - i] == w
    requires b < i + |t| ==> !IsWordChar(t[b - i])
    requires b == i + |t| ==> b == |s| || !IsWordChar(s[b])
    ensures WordEnd(s, a) == b && s[a..b] == w
    ensures b < i + |t| ==> s[b] == t[b - i]
  {
    Within(s, i, t, a - i, b - i);
    if b < i + |t| {
      assert s[b] == s[i..i + |t|][b - i];
    }
    WordRun(s, a, b, w);
  }

  /** A numeral written as `t[a - i..b - i]`, with `t` written at `i` and two more characters after it, is a whole digit run of `s`. */
  lemma NumeralAt(s: string, i: nat, t: string, a: nat, b: nat, w: string)
    requires i + |t| <= |s| && s[i..i + |t|] == t && i <= a <= b && b + 1 < i + |t|
    requires IsNumeral(w) && t[a - i..b - i] == w && !IsDigit(t[b - i])
    ensures DigitEnd(s, a) == b && s[a..b] == w
    ensures s[b] == t[b - i] && s[b + 1] == t[b - i + 1]
  {
    Within(s, i, t, a - i, b - i);
    assert s[b] == s[i..i + |t|][b - i];
    assert s[b + 1] == s[i..i + |t|][b - i + 1];
    DigitRun(s, a, b, w);
  }

  lemma DigitRun(s: string, a: nat, b: nat, n: string)
    requires IsNumeral(n) && a <= b < |s| && s[a..b] == n && !IsDigit(s[b])
    ensures DigitEnd(s, a) == b
  {
    forall p | a <= p < b ensures IsDigit(s[p]) { assert s[p] == n[p - a]; }
    DigitEndSkip(s, a, b);
  }

  /** A word written at `a` and followed by a non-word character or the end ends its word run. */
  lemma WordRun(s: string, a: nat, b: nat, w: string)
    requires IsWord(w) && a <= b <= |s| && s[a..b] == w && (b == |s| || !IsWordChar(s[b]))
    ensures WordEnd(s, a) == b
  {
    forall p | a <= p < b ensures IsWordChar(s[p]) { assert s[p] == w[p - a]; }
    WordEndSkip(s, a, b);
  }

  /** The text of a reference has the layout the pattern expects. */
  lemma RefTextSlices(name: string, n: string, key: string)
    ensures Layout(RefText(name, n, key), name, n, key)
  {
    var a := 1 + |name|;
    var b := 2 + |name| + |n|;
    var t1 := "$" + name;
    var t3 := t1 + "[" + n;
    var t := t3 + "]." + key;
    assert t[..a] == t1 && t1[1..] == name;
    assert t[..b] == t3 && t3[a + 1..] == n;
    assert t[b + 2..] == key;
  }

  /**
   A query holding one reference between plain text becomes the text with the
   reference's value in its place.
   */
  lemma SubstituteOne(pre: string, name: string, n: string, key: string, post: string, entries: seq<Entry>)
    requires IsWord(name) && IsNumeral(n) && IsWord(key)
    requires '$' !in pre && '$' !in post
    requires post == [] || !IsWordChar(post[0])
    ensures PrepareQuery(pre + RefText(name, n, key) + post, entries)
      == pre + Eval(Ref(name, n, key, |pre| + |RefText(name, n, key)|), entries) + post
  {
    var s := pre + RefText(name, n, key) + post;
    OneRefLayout(pre, RefText(name, n, key), post);
    PrepareOne(s, pre, post, entries, name, n, key);
  }

  /** `SubstituteText` for a query already cut into its three pieces. */
  lemma PrepareOne(s: string, pre: string, post: string, entries: seq<Entry>, name: string, n: string, key: string)
    requires IsWord(name) && IsNumeral(n) && IsWord(key)
    requires |s| == |pre| + |RefText(name, n, key)| + |post|
    requires s[|pre|..|pre| + |RefText(name, n, key)|] == RefText(name, n, key)
    requires s[0..|pre|] == pre && s[|pre| + |RefText(name, n, key)|..] == post
    requires '$' !in pre && '$' !in post
    requires post == [] || !IsWordChar(post[0])
    ensures PrepareQuery(s, entries) == pre + Eval(Ref(name, n, key, |pre| + |RefText(name, n, key)|), entries) + post
  {
    if post != [] {
      assert s[|pre| + |RefText(name, n, key)|] == post[0];
    }
    SubstituteText(s, entries, |pre|, name, n, key);
  }

  /** The pieces of plain text, a reference and plain text, as `SubstituteText` takes them. */
  lemma OneRefLayout(pre: string, t: string, post: string)
    ensures var s := pre + t + post;
      |s| == |pre| + |t| + |post| && s[|pre|..|pre| + |t|] == t && s[0..|pre|] == pre && s[|pre| + |t|..] == post
  {
    Concat3(pre, t, post);
  }

  /** A written-out reference at `i` with no `$` around it is the only thing substituted. */
  lemma SubstituteText(s: string, entries: seq<Entry>, i: nat, name: string, n: string, key: string)
    requires IsWord(name) && IsNumeral(n) && IsWord(key)
    requires i + |RefText(name, n, key)| <= |s| && s[i..i + |RefText(name, n, key)|] == RefText(name, n, key)
    requires i + |RefText(name, n, key)| == |s| || !IsWordChar(s[i + |RefText(name, n, key)|])
    requires '$' !in s[0..i] && '$' !in s[i + |RefText(name, n, key)|..]
    ensures Substitute(s, entries, 0)
      == s[0..i] + Eval(Ref(name, n, key, i + |RefText(name, n, key)|), entries) + s[i + |RefText(name, n, key)|..]
  {
    RefAtText(s, i, name, n, key);
    SubstituteAround(s, entries, i, Ref(name, n, key, i + |RefText(name, n, key)|));
  }

  /** Plain text, one reference, plain text: only the reference changes. */
  lemma SubstituteAround(s: string, entries: seq<Entry>, i: nat, r: Ref)
    requires i < |s| && RefAt(s, i) == Some(r)
    requires '$' !in s[0..i] && '$' !in s[r.end..]
    ensures Substitute(s, entries, 0) == s[0..i] + Eval(r, entries) + s[r.end..]
  {
    var rest := Substitute(s, entries, r.end);
    assert rest == s[r.end..];
    SubstituteRef(s, entries, i, r);
    SubstitutePlain(s, entries, 0, i);
  }

  /** The three pieces of a concatenation, as slices of it. */
  lemma Concat3(a: string, b: string, c: string)
    ensures var s := a + b + c;
      |s| == |a| + |b| + |c| && s[0..|a|] == a && s[|a|..|a| + |b|] == b && s[|a| + |b|..] == c
      && (|c| > 0 ==> s[|a| + |b|] == c[0])
  {
  }

  /** The second level of the by-name mount refers to the anime resolved at the first level. */
  lemma ByNameFileQuery(anime: Entry, entries: seq<Entry>)
    ensures PrepareQuery("pkey.BeginsWith(file:), anime.Equals($prev[1].pkey)", entries + [anime])
      == "pkey.BeginsWith(file:), anime.Equals(" + anime.pkey + ")"
  {
    var pre := "pkey.BeginsWith(file:), anime.Equals(";
    PrevOnePkey();
    ByNameFileQueryPlain();
    SubstituteOne(pre, "prev", "1", "pkey", ")", entries + [anime]);
    ByNameFileQueryText();
  }

  /**
   The index is read at 32 bits: `$prev[4294967297].pkey` names the last
   entry, as `$prev[1].pkey` does, where an unbounded reading would find no
   entry that far up.
   */
  lemma EvalIndexWraps(entries: seq<Entry>, end: nat)
    requires 0 < |entries| <= Word32
    ensures var n := Numeral(Word32 + 1);
      Decimal(n) == Word32 + 1 && Prev(entries, Decimal(n)).None?
      && Eval(Ref("prev", n, "pkey", end), entries) == entries[|entries| - 1].pkey
  {
    DecimalNumeral(Word32 + 1);
  }

  /** The reference `$prev[1].pkey` is well formed and names the entry one level up. */
  lemma PrevOnePkey()
    ensures IsWord("prev") && IsWord("pkey") && IsNumeral("1") && Decimal("1") == 1
  {
    assert "1"[..0] == "";
  }

  lemma ByNameFileQueryPlain()
    ensures '$' !in "pkey.BeginsWith(file:), anime.Equals(" && '$' !in ")" && !IsWordChar(")"[0])
  {
  }

  lemma ByNameFileQueryText()
    ensures "pkey.BeginsWith(file:), anime.Equals($prev[1].pkey)"
      == "pkey.BeginsWith(file:), anime.Equals(" + RefText("prev", "1", "pkey") + ")"
  {
    var a := "pkey.BeginsWith(file:), anime.Equals($prev[1].pkey)";
    var b := "pkey.BeginsWith(file:), anime.Equals(" + RefText("prev", "1", "pkey") + ")";
    assert |a| == |b|;
    forall p | 0 <= p < |a| ensures a[p] == b[p] {
    }
  }
}

=== FILE: basename.dfy ===
/**
 `hashfs_basename` and `anidbfs_basename`: the two copies of one loop that
 returns the part of a path after its last '/'.
 */
module Basename {

  /** True when `p` is empty or ends in '/', i.e. a legal directory prefix. */
  predicate DirPrefix(p: string) {
    |p| == 0 || p[|p| - 1] == '/'
  }

  /** The suffix of `s` after its last '/', or all of `s` when it has none. */
  function Basename(s: string): (r: string)
    ensures '/' !in r
    ensures |r| <= |s|
    decreases |s|
  {
    if |s| == 0 then ""
    else if s[|s| - 1] == '/' then ""
    else Basename(s[..|s| - 1]) + [s[|s| - 1]]
  }

  /** The basename is a suffix, and what precedes it is empty or ends in '/'. */
  lemma {:induction false} BasenameSuffix(s: string)
    ensures var k := |s| - |Basename(s)|;
      s[k..] == Basename(s) && DirPrefix(s[..k])
    decreases |s|
  {
    if |s| > 0 && s[|s| - 1] != '/' {
      var t := s[..|s| - 1];
      BasenameSuffix(t);
      var k := |t| - |Basename(t)|;
      assert Basename(s) == Basename(t) + [s[|s| - 1]];
      assert |s| - |Basename(s)| == k;
      assert s == t + [s[|s| - 1]];
      assert s[k..] == t[k..] + [s[|s| - 1]];
      assert s[..k] == t[..k];
    }
  }

  /** Without a '/' the whole string is its basename; a trailing '/' leaves it empty. */
  lemma {:induction false} BasenameCases(s: string)
    ensures '/' !in s ==> Basename(s) == s
    ensures |s| > 0 && s[|s| - 1] == '/' ==> Basename(s) == ""
    decreases |s|
  {
    if |s| > 0 && '/' !in s {
      var t := s[..|s| - 1];
      assert '/' !in t by { assert forall i :: 0 <= i < |t| ==> t[i] == s[i]; }
      BasenameCases(t);
      assert s == t + [s[|s| - 1]];
    }
  }

  /** One more character: a '/' empties the basename, anything else extends it. */
  lemma BasenameSnoc(t: string, c: char)
    ensures Basename(t + [c]) == if c == '/' then "" else Basename(t) + [c]
  {
    assert (t + [c])[..|t|] == t;
  }

  /**
   The scan of the C code: walk the string once and remember the position
   just after the most recent '/'.
   */
  method BasenameScan(s: string) returns (r: string)
    ensures r == Basename(s)
  {
    var base := 0;
    var i := 0;
    while i < |s|
      invariant 0 <= base <= i <= |s|
      invariant s[base..i] == Basename(s[..i])
    {
      ScanStep(s, base, i);
      if s[i] == '/' {
        base := i + 1;
      }
      i := i + 1;
    }
    assert s[..|s|] == s;
    r := s[base..];
  }

  /** One turn of the scan keeps the remembered stretch equal to the basename so far. */
  lemma ScanStep(s: string, base: nat, i: nat)
    requires base <= i < |s| && s[base..i] == Basename(s[..i])
    ensures s[i] == '/' ==> s[i + 1..i + 1] == Basename(s[..i + 1])
    ensures s[i] != '/' ==> s[base..i + 1] == Basename(s[..i + 1])
  {
    BasenameSnoc(s[..i], s[i]);
    assert s[..i + 1] == s[..i] + [s[i]];
    if s[i] != '/' {
      assert s[base..i + 1] == s[base..i] + [s[i]];
    }
  }

  /** A basename has no '/', so taking it again changes nothing. */
  lemma BasenameIdempotent(s: string)
    ensures Basename(Basename(s)) == Basename(s)
  {
    BasenameCases(Basename(s));
  }

  /** The decomposition `s == prefix + Basename(s)` is the only one with a '/'-free tail. */
  lemma {:induction false} BasenameUnique(s: string, p: string, t: string)
    requires s == p + t && '/' !in t && DirPrefix(p)
    ensures t == Basename(s)
    decreases |s|
  {
    if |t| > 0 {
      assert s[..|s| - 1] == p + t[..|t| - 1];
      assert t[..|t| - 1] + [t[|t| - 1]] == t;
      BasenameUnique(s[..|s| - 1], p, t[..|t| - 1]);
    } else if |s| > 0 {
      assert s == p;
    }
  }
}

=== FILE: ed2k.dfy ===
/**
 The eDonkey2000 "ed2k" content hash computed by `hashfs_file_hash_ed2k`:
 the file is cut into blocks of 9,728,000 bytes, each block is hashed with
 MD4, and the final digest is the single block's digest or, for several
 blocks, the MD4 of the concatenated block digests; it is then printed as
 32 lower-case hexadecimal characters. MD4 itself is a parameter.
 */
module Ed2k {
  import opened Wrappers

  type byte = x: int | 0 <= x < 256

  /** An MD4 digest: 16 bytes. */
  type Digest = d: seq<byte> | |d| == 16 witness seq(16, _ => 0)

  /** BLOCKSIZE of the C code: 9500 * 1024 bytes. */
  const BlockSize: nat := 9500 * 1024

  /** The `hexdigits` table of the C code. */
  const HexDigits: string := "0123456789abcdef"

  /** A lower-case hexadecimal digit. */
  predicate IsHexDigit(c: char) {
    '0' <= c <= '9' || 'a' <= c <= 'f'
  }

  /** Entry `n` of the digit table, computed from `n`. */
  function Digit(n: nat): (c: char)
    requires n < 16
    ensures IsHexDigit(c)
  {
    if n < 10 then ('0' as int + n) as char else ('a' as int + (n - 10)) as char
  }

  /** `Digit` is the C code's table lookup, and the table holds exactly the hex digits. */
  lemma DigitTable(n: nat)
    requires n < 16
    ensures Digit(n) == HexDigits[n]
  {
  }

  /** Number of blocks: the size divided by the block size, rounded up. */
  function BlockCount(size: nat): (n: nat)
    ensures size <= n * BlockSize
    ensures n > 0 ==> (n - 1) * BlockSize < size
    ensures n == 0 <==> size == 0
  {
    size / BlockSize + (if size % BlockSize > 0 then 1 else 0)
  }

  /** Block length as the C loop computes it: `size % BLOCKSIZE` for the last block. */
  function BlockLenAsWritten(size: nat, b: nat): (len: nat)
    requires b < BlockCount(size)
    ensures len <= BlockSize
    ensures b * BlockSize + len <= size
    ensures b + 1 < BlockCount(size) ==> len == BlockSize
  {
    var n := BlockCount(size);
    if n - b == 1 then size % BlockSize
    else
      assert (b + 1) * BlockSize <= (n - 1) * BlockSize;
      BlockSize
  }

  /** Block length as intended: full blocks, and whatever remains for the last one. */
  function BlockLen(size: nat, b: nat): (len: nat)
    requires b < BlockCount(size)
    ensures 0 < len <= BlockSize
    ensures b * BlockSize + len <= size
    ensures b + 1 < BlockCount(size) ==> len == BlockSize
    ensures b + 1 == BlockCount(size) ==> b * BlockSize + len == size
  {
    if BlockCount(size) - b == 1 then size - b * BlockSize else BlockSize
  }

  /** The two length rules disagree exactly on the last block of an exact multiple of the block size. */
  lemma BlockLenAgreement(size: nat, b: nat)
    requires b < BlockCount(size)
    ensures BlockLenAsWritten(size, b) == BlockLen(size, b)
        <==> !(b + 1 == BlockCount(size) && size % BlockSize == 0)
    ensures b + 1 == BlockCount(size) && size % BlockSize == 0 ==> BlockLenAsWritten(size, b) == 0
  {
  }

  /** The bytes hashed for each block by the C loop, block `b` starting at offset `b * BLOCKSIZE`. */
  function BlocksAsWritten(content: seq<byte>): (bs: seq<seq<byte>>)
    ensures |bs| == BlockCount(|content|)
  {
    var n := BlockCount(|content|);
    seq(n, b requires 0 <= b < n =>
      content[b * BlockSize .. b * BlockSize + BlockLenAsWritten(|content|, b)])
  }

  /** The blocks as intended. */
  function Blocks(content: seq<byte>): (bs: seq<seq<byte>>)
    ensures |bs| == BlockCount(|content|)
    ensures forall b :: 0 <= b < |bs| ==> 0 < |bs[b]| <= BlockSize
  {
    var n := BlockCount(|content|);
    seq(n, b requires 0 <= b < n =>
      content[b * BlockSize .. b * BlockSize + BlockLen(|content|, b)])
  }

  function Flatten<T>(xs: seq<seq<T>>): seq<T>
  {
    if |xs| == 0 then [] else Flatten(xs[..|xs| - 1]) + xs[|xs| - 1]
  }

  lemma FlattenStep<T>(xs: seq<seq<T>>, b: nat)
    requires b < |xs|
    ensures Flatten(xs[..b + 1]) == Flatten(xs[..b]) + xs[b]
  {
    assert xs[..b + 1][..b] == xs[..b];
  }

  /** Block `b` of the C loop lies inside the content and starts at `b * BLOCKSIZE`. */
  lemma BlockAsWrittenAt(content: seq<byte>, b: nat)
    requires b < BlockCount(|content|)
    ensures b * BlockSize + BlockLenAsWritten(|content|, b) <= |content|
    ensures BlocksAsWritten(content)[b]
         == content[b * BlockSize .. b * BlockSize + BlockLenAsWritten(|content|, b)]
  {
  }

  /** One turn of the C loop reads block `b` and leaves the offset at the start of the next block. */
  lemma BlockStepAsWritten(content: seq<byte>, b: nat, offset: nat, len: nat)
    requires b < BlockCount(|content|) && offset == b * BlockSize
    requires len == if BlockCount(|content|) - b == 1 then |content| % BlockSize else BlockSize
    ensures offset + len <= |content|
    ensures content[offset..offset + len] == BlocksAsWritten(content)[b]
    ensures b + 1 < BlockCount(|content|) ==> offset + len == (b + 1) * BlockSize
  {
    BlockAsWrittenAt(content, b);
  }

  function DigestAll(bs: seq<seq<byte>>, md4: seq<byte> -> Digest): (ds: seq<Digest>)
    ensures |ds| == |bs|
    ensures forall b :: 0 <= b < |bs| ==> ds[b] == md4(bs[b])
  {
    seq(|bs|, b requires 0 <= b < |bs| => md4(bs[b]))
  }

  /** One block: its own digest; several: the digest of the concatenated digests. */
  function FinalDigest(ds: seq<Digest>, md4: seq<byte> -> Digest): Digest
    requires |ds| >= 1
  {
    if |ds| == 1 then ds[0] else md4(Flatten(ds))
  }

  /** One byte as two lower-case hex digits, high nibble first. */
  function HexByte(b: byte): (h: string)
    ensures |h| == 2 && IsHexDigit(h[0]) && IsHexDigit(h[1])
  {
    [Digit(b / 16), Digit(b % 16)]
  }

  /** A byte prints as the table entries of its high and its low nibble. */
  lemma HexByteTable(b: byte)
    ensures HexByte(b) == [HexDigits[b / 16], HexDigits[b % 16]]
  {
    DigitTable(b / 16);
    DigitTable(b % 16);
  }

  /** Each byte becomes its high nibble then its low nibble, as lower-case hex digits. */
  function Hex(d: seq<byte>): (h: string)
    ensures |h| == 2 * |d|
  {
    if |d| == 0 then "" else HexByte(d[0]) + Hex(d[1..])
  }

  /** Byte `i` of the input is printed at characters `2 * i` and `2 * i + 1`. */
  lemma {:induction false} HexAt(d: seq<byte>, i: nat)
    requires i < |d|
    ensures Hex(d)[2 * i..2 * i + 2] == HexByte(d[i])
  {
    if i > 0 {
      HexAt(d[1..], i - 1);
      assert Hex(d)[2 * i..2 * i + 2] == Hex(d[1..])[2 * (i - 1)..2 * (i - 1) + 2];
    }
  }

  /** Hex text holds only lower-case hex digits. */
  lemma {:induction false} HexAlphabet(d: seq<byte>)
    ensures forall k :: 0 <= k < |Hex(d)| ==> IsHexDigit(Hex(d)[k])
  {
    if |d| > 0 {
      HexAlphabet(d[1..]);
      var h := Hex(d);
      forall k | 0 <= k < |h| ensures IsHexDigit(h[k]) {
        if k >= 2 {
          assert h[k] == Hex(d[1..])[k - 2];
        }
      }
    }
  }

  /** The value of one lower-case hex digit. */
  function HexValue(c: char): (v: nat)
    ensures v < 16
  {
    if '0' <= c <= '9' then (c as int) - ('0' as int)
    else if 'a' <= c <= 'f' then (c as int) - ('a' as int) + 10
    else 0
  }

  /** Reads pairs of hex digits back into bytes; a trailing odd digit is dropped. */
  function Unhex(h: string): seq<byte>
  {
    if |h| < 2 then [] else [HexValue(h[0]) * 16 + HexValue(h[1])] + Unhex(h[2..])
  }

  /** The two digits of a byte read back to the byte. */
  lemma HexByteValue(b: byte)
    ensures HexValue(HexByte(b)[0]) * 16 + HexValue(HexByte(b)[1]) == b
  {
    HexValueDigit(b / 16);
    HexValueDigit(b % 16);
  }

  lemma HexValueDigit(n: nat)
    requires n < 16
    ensures HexValue(Digit(n)) == n
  {
  }

  /** Reading a pair of digits in front of more digits. */
  lemma UnhexCons(x: string, rest: string)
    requires |x| == 2
    ensures Unhex(x + rest) == [HexValue(x[0]) * 16 + HexValue(x[1])] + Unhex(rest)
  {
    assert (x + rest)[2..] == rest;
  }

  /** The hex text of a digest reads back to the same bytes. */
  lemma {:induction false} UnhexHex(d: seq<byte>)
    ensures Unhex(Hex(d)) == d
  {
    if |d| > 0 {
      UnhexStep(d);
      UnhexHex(d[1..]);
      assert d == [d[0]] + d[1..];
    }
  }

  /** Reading back the first two digits gives the first byte. */
  lemma UnhexStep(d: seq<byte>)
    requires |d| > 0
    ensures Unhex(Hex(d)) == [d[0]] + Unhex(Hex(d[1..]))
  {
    UnhexByte(d[0], Hex(d[1..]));
  }

  /** The two digits of a byte, in front of more text, read back to that byte. */
  lemma UnhexByte(b: byte, rest: string)
    ensures Unhex(HexByte(b) + rest) == [b] + Unhex(rest)
  {
    UnhexCons(HexByte(b), rest);
    HexByteValue(b);
  }

  /** Different digests print differently. */
  lemma HexInjective(a: seq<byte>, b: seq<byte>)
    requires Hex(a) == Hex(b)
    ensures a == b
  {
    UnhexHex(a);
    UnhexHex(b);
  }

  /** The hash the C function produces, or None when it returns 0 (open failure, empty file). */
  function Ed2kAsWritten(canOpen: bool, content: seq<byte>, md4: seq<byte> -> Digest): (r: Option<string>)
    ensures r.Some? <==> canOpen && |content| > 0
    ensures r.Some? ==> |r.value| == 32
  {
    if !canOpen || |content| == 0 then None
    else Some(Hex(FinalDigest(DigestAll(BlocksAsWritten(content), md4), md4)))
  }

  /** The intended ed2k hash, hashing every byte of the file exactly once. */
  function Ed2k(canOpen: bool, content: seq<byte>, md4: seq<byte> -> Digest): (r: Option<string>)
    ensures r.Some? <==> canOpen && |content| > 0
    ensures r.Some? ==> |r.value| == 32 && forall i :: 0 <= i < 32 ==> IsHexDigit(r.value[i])
  {
    if !canOpen || |content| == 0 then None
    else
      var final := FinalDigest(DigestAll(Blocks(content), md4), md4);
      HexAlphabet(final);
      Some(Hex(final))
  }

  /**
   The loop of `hashfs_file_hash_ed2k`: count the blocks, hash each block at
   offset `b * BLOCKSIZE` into a buffer of 16-byte digests, pick the final
   digest and print it in hex.
   */
  method HashEd2k(canOpen: bool, content: seq<byte>, md4: seq<byte> -> Digest) returns (r: Option<string>)
    ensures r == Ed2kAsWritten(canOpen, content, md4)
  {
    if !canOpen {
      return None;
    }
    var size := |content|;
    var blocks := size / BlockSize;
    if size % BlockSize > 0 {
      blocks := blocks + 1;
    }
    assert blocks == BlockCount(size);
    if blocks < 1 {
      assert |content| == 0;
      return None;
    }
    ghost var bs := BlocksAsWritten(content);
    ghost var ds := DigestAll(bs, md4);
    var hashBlocks: seq<byte> := [];
    var offset := 0;
    var b := 0;
    assert blocks == BlockCount(size);
    while b < blocks
      invariant 0 <= b <= blocks
      invariant b < blocks ==> offset == b * BlockSize
      invariant hashBlocks == Flatten(ds[..b])
    {
      var len := if blocks - b == 1 then size % BlockSize else BlockSize;
      BlockStepAsWritten(content, b, offset, len);
      var data := content[offset .. offset + len];
      FlattenStep(ds, b);
      hashBlocks := hashBlocks + md4(data);
      offset := offset + len;
      b := b + 1;
    }
    assert ds[..blocks] == ds;
    var final: Digest;
    if blocks > 1 {
      final := md4(hashBlocks);
      assert final == FinalDigest(ds, md4);
    } else {
      assert ds[..1][..0] == [];
      assert hashBlocks == ds[0];
      final := hashBlocks[..16];
      assert final == FinalDigest(ds, md4);
    }
    r := Some(Hex(final));
  }

  /** The first `b` intended blocks are exactly the first `b * BLOCKSIZE` bytes. */
  lemma {:induction false} BlocksPrefix(content: seq<byte>, b: nat)
    requires b < BlockCount(|content|)
    ensures Flatten(Blocks(content)[..b]) == content[..b * BlockSize]
  {
    if b > 0 {
      var bs := Blocks(content);
      BlocksPrefix(content, b - 1);
      FlattenStep(bs, b - 1);
      FullBlockBefore(content, b);
      PrefixJoin(content, (b - 1) * BlockSize, b * BlockSize);
    }
  }

  /** Every block but the last is full: block `b - 1` is the stretch `[(b - 1) * BLOCKSIZE, b * BLOCKSIZE)`. */
  lemma FullBlockBefore(content: seq<byte>, b: nat)
    requires 0 < b < BlockCount(|content|)
    ensures (b - 1) * BlockSize <= b * BlockSize <= |content|
    ensures Blocks(content)[b - 1] == content[(b - 1) * BlockSize .. b * BlockSize]
  {
  }

  lemma PrefixJoin<T>(s: seq<T>, x: nat, y: nat)
    requires x <= y <= |s|
    ensures s[..y] == s[..x] + s[x..y]
  {
  }

  /** The intended blocks tile the content: every byte is hashed once, in order. */
  lemma BlocksCoverContent(content: seq<byte>)
    ensures Flatten(Blocks(content)) == content
  {
    var n := BlockCount(|content|);
    if n > 0 {
      var bs := Blocks(content);
      BlocksPrefix(content, n - 1);
      assert bs[..n][..n - 1] == bs[..n - 1];
      assert bs[..n] == bs;
      assert content == content[..(n - 1) * BlockSize] + bs[n - 1];
    }
  }

  /** Off exact multiples of the block size the C loop computes the intended hash. */
  lemma AsWrittenAgreesOffMultiples(canOpen: bool, content: seq<byte>, md4: seq<byte> -> Digest)
    requires |content| % BlockSize != 0
    ensures Ed2kAsWritten(canOpen, content, md4) == Ed2k(canOpen, content, md4)
  {
    var n := BlockCount(|content|);
    forall b | 0 <= b < n
      ensures BlocksAsWritten(content)[b] == Blocks(content)[b]
    {
      BlockLenAgreement(|content|, b);
    }
    assert BlocksAsWritten(content) == Blocks(content);
  }

  /**
   A file of exactly one block: the C loop hashes zero bytes instead of the
   block, so its result is the digest of the empty string whatever the file holds.
   */
  lemma ExactBlockHashesNothing(content: seq<byte>, md4: seq<byte> -> Digest)
    requires |content| == BlockSize
    ensures Ed2kAsWritten(true, content, md4) == Some(Hex(md4([])))
    ensures Ed2k(true, content, md4) == Some(Hex(md4(content)))
  {
    assert BlocksAsWritten(content)[0] == [];
    assert Blocks(content)[0] == content;
  }
}

=== FILE: mount.dfy ===
/**
 The virtual tree of `src/hashfs/hashfsmount.c`. Each mount point has a
 schema of `/`-separated levels; a level holds a store query `q` (which may
 refer back to the entries resolved at the levels above it), an optional
 grouping field `g` and a display format `d`. A path `/mount/n2/n3/…` is
 resolved level by level: segment `ni` names the first result of level
 `i`'s query whose display text equals it.

 The store's query engine and formatter are a `StoreView`; `stat` is a
 function from a real path to its size.
 */
module Mount {
  import opened Wrappers
  import opened Strings
  import opened Store
  import opened Mounts
  import Schema
  import Backref
  import Walk

  const ENOENT: int := 2
  const EACCES: int := 13
  /** `S_IFDIR` and `S_IFREG`: the file-type bits of `st_mode`. */
  const TypeDir: int := 0x4000
  const TypeReg: int := 0x8000
  /** Access modes: mount points and the root (0555), set directories (0755), files (0444). */
  const ModeRoot: int := 365
  const ModeSet: int := 493
  const ModeFile: int := 292
  /** `O_RDONLY`, the access mode `flags & 3` must have. */
  const ReadOnly: int := 0

  /** What the store offers the resolver: the results of a query, grouped or not, and the display text of an entry. */
  datatype StoreView = StoreView(search: (string, Option<string>) -> seq<Entry>,
                                 format: (Entry, string) -> string)

  /** A schema level's query, display format and optional grouping field. */
  datatype Level = Level(q: string, d: string, g: Option<string>)

  /** The level at index `i` of a split schema, when it is there and names both a query and a display format. */
  function LevelAt(levels: seq<string>, i: nat): (r: Option<Level>)
    ensures r.Some? <==> i < |levels| && "q" in Schema.ParseLevel(levels[i]) && "d" in Schema.ParseLevel(levels[i])
    ensures r.Some? ==> var m := Schema.ParseLevel(levels[i]);
      r.value.q == m["q"] && r.value.d == m["d"] && r.value.g == (if "g" in m then Some(m["g"]) else None)
  {
    if i < |levels| then
      var m := Schema.ParseLevel(levels[i]);
      if "q" in m && "d" in m then Some(Level(m["q"], m["d"], if "g" in m then Some(m["g"]) else None))
      else None
    else None
  }

  /** Index of the first of `results` from `from` on whose display text is `name`, or `|results|`. */
  function FindIndex(results: seq<Entry>, format: (Entry, string) -> string, d: string, name: string, from: nat): (k: nat)
    requires from <= |results|
    ensures from <= k <= |results|
    ensures k < |results| ==> format(results[k], d) == name
    ensures forall j :: from <= j < k ==> format(results[j], d) != name
    decreases |results| - from
  {
    if from == |results| || format(results[from], d) == name then from
    else FindIndex(results, format, d, name, from + 1)
  }

  /** The first of `results` whose display text is `name` (the loop of `resolve_path`). */
  function FindDisplayed(results: seq<Entry>, format: (Entry, string) -> string, d: string, name: string): (r: Option<Entry>)
    ensures r.None? <==> forall i :: 0 <= i < |results| ==> format(results[i], d) != name
    ensures r.Some? ==> var k := FindIndex(results, format, d, name, 0);
      k < |results| && r.value == results[k] && format(results[k], d) == name
  {
    var k := FindIndex(results, format, d, name, 0);
    if k < |results| then Some(results[k]) else None
  }

  /** The loop of `resolve_path`, scanning the results in order. */
  method ResolvePath(results: seq<Entry>, format: (Entry, string) -> string, d: string, name: string)
    returns (r: Option<Entry>)
    ensures r == FindDisplayed(results, format, d, name)
  {
    var i := 0;
    while i < |results|
      invariant 0 <= i <= |results|
      invariant FindIndex(results, format, d, name, 0) == FindIndex(results, format, d, name, i)
    {
      if format(results[i], d) == name {
        return Some(results[i]);
      }
      i := i + 1;
    }
    return None;
  }

  /** The results of level `lv` once the entries above it are substituted into its query. */
  function Results(v: StoreView, lv: Level, entries: seq<Entry>): seq<Entry> {
    v.search(Backref.PrepareQuery(lv.q, entries), lv.g)
  }

  /** `prepare_query` followed by `resolve_path`: the entry of level `lv` displayed as `name`. */
  function Lookup(v: StoreView, lv: Level, entries: seq<Entry>, name: string): Option<Entry> {
    FindDisplayed(Results(v, lv, entries), v.format, lv.d, name)
  }

  /** `prepare_query` followed by `hashfs_fuse_listdir`: the display text of every result, in order. */
  function Listing(v: StoreView, lv: Level, entries: seq<Entry>): (ns: seq<string>)
    ensures |ns| == |Results(v, lv, entries)|
    ensures forall i :: 0 <= i < |ns| ==> ns[i] == v.format(Results(v, lv, entries)[i], lv.d)
  {
    var rs := Results(v, lv, entries);
    seq(|rs|, i requires 0 <= i < |rs| => v.format(rs[i], lv.d))
  }

  /** A name is listed by a level exactly when the level resolves that name. */
  lemma ListingFinds(v: StoreView, lv: Level, entries: seq<Entry>, name: string)
    ensures name in Listing(v, lv, entries) <==> Lookup(v, lv, entries, name).Some?
  {
    var ns := Listing(v, lv, entries);
    var rs := Results(v, lv, entries);
    if name in ns {
      var i :| 0 <= i < |ns| && ns[i] == name;
      assert v.format(rs[i], lv.d) == name;
    }
    if Lookup(v, lv, entries, name).Some? {
      var k := FindIndex(rs, v.format, lv.d, name, 0);
      assert ns[k] == name;
    }
  }

  function Find(v: StoreView, levels: seq<string>, i: nat, entries: seq<Entry>, name: string): Option<Entry> {
    match LevelAt(levels, i)
    case None => None
    case Some(lv) => Lookup(v, lv, entries, name)
  }

  function List(v: StoreView, levels: seq<string>, i: nat, entries: seq<Entry>): seq<string> {
    match LevelAt(levels, i)
    case None => []
    case Some(lv) => Listing(v, lv, entries)
  }

  /** The resolver of a mount's split schema. */
  function ResolverOf(v: StoreView, levels: seq<string>): (rv: Walk.Resolver)
    ensures Walk.Coherent(rv)
  {
    var rv := Walk.Resolver((i: nat) => LevelAt(levels, i).Some?,
                            (i: nat, es: seq<Entry>, n: string) => Find(v, levels, i, es, n),
                            (i: nat, es: seq<Entry>) => List(v, levels, i, es));
    forall i: nat, es: seq<Entry>, name: string
      ensures (rv.hasLevel(i) ==> (name in rv.list(i, es) <==> rv.find(i, es, name).Some?))
           && (!rv.hasLevel(i) ==> rv.find(i, es, name).None?)
    {
      if LevelAt(levels, i).Some? {
        ListingFinds(v, LevelAt(levels, i).value, es, name);
      }
    }
    rv
  }

  /** The mount's split schema for a split path, when the mount exists. */
  function LevelsOf(t: MountTable, spath: seq<string>): Option<seq<string>>
    requires |spath| >= 2
  {
    match MountsGet(t, spath[1])
    case None => None
    case Some(stored) => Some(Split(stored, '/'))
  }

  /** `resolve_paths`, with a miss at any level failing the whole path. */
  function ResolvePaths(t: MountTable, v: StoreView, path: string): (r: seq<Entry>)
    ensures r != [] ==> var spath := Split(path, '/');
      |spath| > 2 && LevelsOf(t, spath).Some?
      && Walk.Resolved(ResolverOf(v, LevelsOf(t, spath).value), spath, r)
  {
    var spath := Split(path, '/');
    if |spath| < 2 then []
    else
      match LevelsOf(t, spath)
      case None => []
      case Some(levels) =>
        var r := Walk.Chain(ResolverOf(v, levels), spath, 2, []).GetOr([]);
        if r == [] then r
        else
          Walk.ChainResolves(ResolverOf(v, levels), spath, r);
          r
  }

  /** Every full resolution of a path below a mount is what `ResolvePaths` returns. */
  lemma ResolvePathsComplete(t: MountTable, v: StoreView, path: string, c: seq<Entry>)
    requires var spath := Split(path, '/');
      |spath| > 2 && LevelsOf(t, spath).Some?
      && Walk.Resolved(ResolverOf(v, LevelsOf(t, spath).value), spath, c)
    ensures ResolvePaths(t, v, path) == c && c != []
  {
    var spath := Split(path, '/');
    Walk.ChainResolves(ResolverOf(v, LevelsOf(t, spath).value), spath, c);
  }

  /** `resolve_paths` as written: a miss drops the entries found so far and the walk goes on. */
  function ResolvePathsAsWritten(t: MountTable, v: StoreView, path: string): (r: seq<Entry>)
    ensures |r| <= |Split(path, '/')|
  {
    var spath := Split(path, '/');
    if |spath| < 2 then []
    else
      match LevelsOf(t, spath)
      case None => []
      case Some(levels) => Walk.WalkAsWritten(ResolverOf(v, levels), spath, 2, [])
  }

  /** Whenever the resolution succeeds, the code as written returns the same entries. */
  lemma AsWrittenAgreesOnResolvedPaths(t: MountTable, v: StoreView, path: string)
    requires ResolvePaths(t, v, path) != []
    ensures ResolvePathsAsWritten(t, v, path) == ResolvePaths(t, v, path)
  {
    var spath := Split(path, '/');
    Walk.WalkAgrees(ResolverOf(v, LevelsOf(t, spath).value), spath, 2, []);
  }

  /** The level `q="x", d="y"`: query `x` and display format `y`. */
  const MiniLevel: string := Schema.Item("q", "x") + ", " + Schema.Item("d", "y")

  /**
   As written, a path whose second segment names nothing still resolves
   when a later level matches: in a mount `m` of two such levels over a
   store that returns one entry displayed as `b`, `/m/a/b` yields that
   entry although nothing is displayed as `a`; the resolution fails it.
   */
  lemma ResolveAfterMissAsWritten(e: Entry)
    ensures var t := MountsAdd([], "m", MiniLevel + "/" + MiniLevel);
      var v := StoreView((q: string, g: Option<string>) => [e], (x: Entry, d: string) => "b");
      ResolvePathsAsWritten(t, v, "/m/a/b") == [e] && ResolvePaths(t, v, "/m/a/b") == []
  {
    var t := MountsAdd([], "m", MiniLevel + "/" + MiniLevel);
    var v := StoreView((q: string, g: Option<string>) => [e], (x: Entry, d: string) => "b");
    MiniWalk(t, v, e);
  }

  lemma MiniWalk(t: MountTable, v: StoreView, e: Entry)
    requires MountsGet(t, "m") == Some(Stored("m", MiniLevel + "/" + MiniLevel))
    requires forall q, g :: v.search(q, g) == [e]
    requires forall x, d :: v.format(x, d) == "b"
    ensures ResolvePathsAsWritten(t, v, "/m/a/b") == [e] && ResolvePaths(t, v, "/m/a/b") == []
  {
    var spath, levels := MiniSetup(t);
    MiniResolver(v, levels, spath, e);
    ResolveWith(t, v, "/m/a/b", spath, levels);
  }

  /** The segments of `/m/a/b` and the levels of mount `m`. */
  lemma MiniSetup(t: MountTable) returns (spath: seq<string>, levels: seq<string>)
    requires MountsGet(t, "m") == Some(Stored("m", MiniLevel + "/" + MiniLevel))
    ensures spath == ["", "m", "a", "b"] && levels == ["", "m", MiniLevel, MiniLevel]
    ensures Split("/m/a/b", '/') == spath && |spath| >= 2 && LevelsOf(t, spath) == Some(levels)
  {
    spath := MiniPath();
    levels := MiniLevels();
  }

  /** Both resolutions of a path, once its segments and its mount's levels are known. */
  lemma ResolveWith(t: MountTable, v: StoreView, path: string, spath: seq<string>, levels: seq<string>)
    requires Split(path, '/') == spath && |spath| >= 2 && LevelsOf(t, spath) == Some(levels)
    ensures ResolvePathsAsWritten(t, v, path) == Walk.WalkAsWritten(ResolverOf(v, levels), spath, 2, [])
    ensures Walk.Chain(ResolverOf(v, levels), spath, 2, []).None? ==> ResolvePaths(t, v, path) == []
  {
  }

  lemma MiniResolver(v: StoreView, levels: seq<string>, spath: seq<string>, e: Entry)
    requires levels == ["", "m", MiniLevel, MiniLevel] && spath == ["", "m", "a", "b"]
    requires forall q, g :: v.search(q, g) == [e]
    requires forall x, d :: v.format(x, d) == "b"
    ensures Walk.WalkAsWritten(ResolverOf(v, levels), spath, 2, []) == [e]
    ensures Walk.Chain(ResolverOf(v, levels), spath, 2, []).None?
  {
    var rv := ResolverOf(v, levels);
    MiniFinds(v, levels, e);
    assert rv.find(2, [], spath[2]) == Find(v, levels, 2, [], "a");
    assert rv.find(3, [], spath[3]) == Find(v, levels, 3, [], "b");
    Walk.WalkRestartsAfterMiss(rv, spath, e);
  }

  lemma MiniFinds(v: StoreView, levels: seq<string>, e: Entry)
    requires levels == ["", "m", MiniLevel, MiniLevel]
    requires forall q, g :: v.search(q, g) == [e]
    requires forall x, d :: v.format(x, d) == "b"
    ensures Find(v, levels, 2, [], "a") == None
    ensures Find(v, levels, 3, [], "b") == Some(e)
  {
    var lv := MiniLevelParsed(levels);
    assert Results(v, lv, []) == [e];
    assert FindIndex([e], v.format, lv.d, "a", 1) == 1;
    assert FindIndex([e], v.format, lv.d, "a", 0) == 1;
    assert FindIndex([e], v.format, lv.d, "b", 0) == 0;
  }

  lemma MiniPath() returns (spath: seq<string>)
    ensures spath == Split("/m/a/b", '/') == ["", "m", "a", "b"]
  {
    spath := ["", "m", "a", "b"];
    assert Join(spath, '/') == "/m/a/b";
    SplitJoin(spath, '/');
  }

  lemma MiniLevels() returns (levels: seq<string>)
    ensures levels == Split(Stored("m", MiniLevel + "/" + MiniLevel), '/') == ["", "m", MiniLevel, MiniLevel]
  {
    levels := ["", "m", MiniLevel, MiniLevel];
    assert levels[1..][1..][1..] == [MiniLevel];
    assert Join(levels[2..], '/') == MiniLevel + "/" + MiniLevel;
    assert Join(levels[1..], '/') == "m" + "/" + (MiniLevel + "/" + MiniLevel);
    assert Join(levels, '/') == Stored("m", MiniLevel + "/" + MiniLevel);
    forall p | 0 <= p < |MiniLevel| ensures MiniLevel[p] != '/' {
    }
    SplitJoin(levels, '/');
  }

  lemma MiniLevelParsed(levels: seq<string>) returns (lv: Level)
    requires levels == ["", "m", MiniLevel, MiniLevel]
    ensures LevelAt(levels, 2) == Some(lv) && LevelAt(levels, 3) == Some(lv) && lv.d == "y"
  {
    MiniLevelMap();
    assert levels[2] == MiniLevel && levels[3] == MiniLevel;
    lv := LevelAt(levels, 2).value;
  }

  lemma MiniLevelMap()
    ensures var m := Schema.ParseLevel(MiniLevel); "q" in m && "d" in m && m["d"] == "y"
  {
    var ps := [("q", "x"), ("d", "y")];
    MiniLevelText();
    assert Schema.IsKey("q") && Schema.IsKey("d");
    assert Schema.NoWordChar(", ") && Schema.NoWordChar("");
    Schema.ParseRender(ps, ", ", "");
    assert ps[0].0 == "q" && ps[1].0 == "d";
  }

  lemma MiniLevelText()
    ensures Schema.Render([("q", "x"), ("d", "y")], ", ") + "" == MiniLevel
  {
    var ps := [("q", "x"), ("d", "y")];
    assert ps[1..] == [("d", "y")];
  }

  // ---------------------------------------------------------------- FUSE operations

  /** The part of `struct stat` the file system fills in; all zero unless set. */
  datatype Attr = Attr(mode: int, nlink: int, size: int)

  const Zeroed: Attr := Attr(0, 0, 0)

  /**
   `hashfs_fuse_listattrs`: the path is resolved by `resolve_paths` as
   written; a set entry is a directory, an entry with a real path a regular
   file of that file's size.
   */
  function ListAttrs(t: MountTable, v: StoreView, size: string -> int, path: string): (r: (int, Attr))
    ensures r.0 == -ENOENT <==> ResolvePathsAsWritten(t, v, path) == []
    ensures r.0 == 0 || r.0 == -ENOENT
    ensures r.0 == 0 ==> r == EntryAttrs(Last(ResolvePathsAsWritten(t, v, path)), size)
  {
    var entries := ResolvePathsAsWritten(t, v, path);
    if entries == [] then (-ENOENT, Zeroed)
    else EntryAttrs(entries[|entries| - 1], size)
  }

  /** The last entry of a non-empty resolution. */
  function Last(es: seq<Entry>): Entry
    requires es != []
  {
    es[|es| - 1]
  }

  /** The attributes `hashfs_fuse_listattrs` gives the last entry of a resolved path. */
  function EntryAttrs(last: Entry, size: string -> int): (r: (int, Attr))
    ensures r.0 == 0
  {
    if Contains(last.pkey, "set:") then (0, Attr(TypeDir + ModeSet, 2, 0))
    else
      match EntryLookup(last, "path")
      case Some(target) => (0, Attr(TypeReg + ModeFile, 1, size(target)))
      case None => (0, Zeroed)
  }

  /** Whether the path names the root or a mount point. */
  predicate IsTop(t: MountTable, path: string) {
    path == "/" || (|path| >= 1 && MountsExists(t, path[1..]))
  }

  /** `hashfs_fuse_getattr`: the root and the mount points are read-only directories; everything else is resolved. */
  function GetAttr(t: MountTable, v: StoreView, size: string -> int, path: string): (r: (int, Attr))
    ensures IsTop(t, path) ==> r == (0, Attr(TypeDir + ModeRoot, 2, 0))
    ensures !IsTop(t, path) ==> (r.0 == -ENOENT <==> ResolvePathsAsWritten(t, v, path) == [])
  {
    if IsTop(t, path) then (0, Attr(TypeDir + ModeRoot, 2, 0))
    else ListAttrs(t, v, size, path)
  }

  /** What `hashfs_fuse_open` answers, and the real file it opens. */
  datatype Opened = Opened(res: int, target: Option<string>)

  /**
   `hashfs_fuse_open`: a path `resolve_paths` (as written) leaves empty is
   ENOENT before anything else; any access mode other than read-only is
   EACCES; otherwise the real path of the last entry, if it has one, is opened.
   */
  function Open(t: MountTable, v: StoreView, path: string, flags: int): (r: Opened)
    ensures ResolvePathsAsWritten(t, v, path) == [] ==> r == Opened(-ENOENT, None)
    ensures ResolvePathsAsWritten(t, v, path) != [] && flags % 4 != ReadOnly ==> r == Opened(-EACCES, None)
    ensures r.res == 0 <==> ResolvePathsAsWritten(t, v, path) != [] && flags % 4 == ReadOnly
    ensures r.res == 0 ==> r.target == EntryLookup(Last(ResolvePathsAsWritten(t, v, path)), "path")
    ensures r.target.Some? ==> r.res == 0
  {
    var entries := ResolvePathsAsWritten(t, v, path);
    if entries == [] then Opened(-ENOENT, None)
    else if flags % 4 != ReadOnly then Opened(-EACCES, None)
    else Opened(0, EntryLookup(entries[|entries| - 1], "path"))
  }

  /** `hashfs_fuse_readdir`: `.` and `..`, then the mount names at the root, or the listing of the directory's level. */
  function ReadDir(t: MountTable, v: StoreView, path: string): (r: seq<string>)
    ensures |r| >= 2 && r[..2] == [".", ".."]
    ensures path == "/" ==> r[2..] == Names(t)
  {
    var spath := Split(path, '/');
    if path == "/" then [".", ".."] + Names(t)
    else if |spath| < 2 then [".", ".."]
    else
      match LevelsOf(t, spath)
      case None => [".", ".."]
      case Some(levels) => [".", ".."] + Walk.ReadWalk(ResolverOf(v, levels), spath, 2, [])
  }

  /** The directory `path` below the root resolves: its mount exists and each of its segments resolves. */
  ghost predicate DirResolves(t: MountTable, v: StoreView, path: string) {
    var spath := Split(path, '/');
    |spath| >= 2 && LevelsOf(t, spath).Some?
    && Walk.Chain(ResolverOf(v, LevelsOf(t, spath).value), spath, 2, []).Some?
  }

  /**
   A name is listed in a directory that resolves exactly when the path of
   that name inside it resolves.
   */
  lemma ListedIffResolves(t: MountTable, v: StoreView, path: string, name: string)
    requires path != "/" && '/' !in name
    ensures (name in ReadDir(t, v, path)[2..] && DirResolves(t, v, path))
        <==> ResolvePaths(t, v, path + "/" + name) != []
  {
    var sp := Split(path, '/');
    SplitAppend(path, '/', name);
    assert path + "/" + name == path + ['/'] + name;
    var sq := sp + [name];
    assert Split(path + "/" + name, '/') == sq;
    if |sp| >= 2 {
      assert sq[1] == sp[1];
      assert LevelsOf(t, sq) == LevelsOf(t, sp);
      if LevelsOf(t, sp).Some? {
        var rv := ResolverOf(v, LevelsOf(t, sp).value);
        Walk.ListedIffExtends(rv, sp, name);
        assert ReadDir(t, v, path)[2..] == Walk.ReadWalk(rv, sp, 2, []);
      }
    } else {
      assert |sq| <= 2;
    }
  }

  /** At the root, a name is listed exactly when it is a mount point, which `getattr` reports as a directory. */
  lemma RootListing(t: MountTable, v: StoreView, size: string -> int, name: string)
    ensures name in ReadDir(t, v, "/")[2..] <==> MountsExists(t, name)
    ensures MountsExists(t, name) ==> GetAttr(t, v, size, "/" + name) == (0, Attr(TypeDir + ModeRoot, 2, 0))
  {
    var ns := ReadDir(t, v, "/")[2..];
    if name in ns {
      var i :| 0 <= i < |ns| && ns[i] == name;
      assert t[i].0 == name;
    }
    if MountsExists(t, name) {
      var i :| 0 <= i < |t| && t[i].0 == name;
      assert ns[i] == name;
      assert ("/" + name)[1..] == name;
    }
  }

  /** A name listed in a directory that resolves has attributes. */
  lemma ListedHasAttrs(t: MountTable, v: StoreView, size: string -> int, path: string, name: string)
    ensures path != "/" && '/' !in name && DirResolves(t, v, path) && name in ReadDir(t, v, path)[2..] ==>
      GetAttr(t, v, size, path + "/" + name).0 == 0
  {
    if path != "/" && '/' !in name && DirResolves(t, v, path) && name in ReadDir(t, v, path)[2..] {
      ListedIffResolves(t, v, path, name);
      AsWrittenAgreesOnResolvedPaths(t, v, path + "/" + name);
    }
  }

  /** Below the mount points, `open` finds a path exactly when `getattr` does. */
  lemma OpenAgreesWithGetAttr(t: MountTable, v: StoreView, size: string -> int, path: string, flags: int)
    requires !IsTop(t, path)
    ensures Open(t, v, path, flags).res == -ENOENT <==> GetAttr(t, v, size, path).0 == -ENOENT
  {
  }

  /**
   Below the mount points, a path whose every segment resolves gets the
   attributes of the last entry of its resolution, and opens its real path.
   */
  lemma ResolvedPathAttrs(t: MountTable, v: StoreView, size: string -> int, path: string, flags: int)
    ensures var es := ResolvePaths(t, v, path);
      !IsTop(t, path) && es != [] ==> GetAttr(t, v, size, path) == EntryAttrs(Last(es), size)
    ensures var es := ResolvePaths(t, v, path);
      es != [] && flags % 4 == ReadOnly ==> Open(t, v, path, flags) == Opened(0, EntryLookup(Last(es), "path"))
  {
    if ResolvePaths(t, v, path) != [] {
      AsWrittenAgreesOnResolvedPaths(t, v, path);
    }
  }

  /**
   As written, `getattr` and `open` accept a path whose middle segment names
   nothing: in the mount of `ResolveAfterMissAsWritten`, `/m/a/b` has the
   attributes of the entry displayed as `b` and opens, although the full
   resolution of the path fails.
   */
  lemma MiniAttrsAsWritten(e: Entry, size: string -> int)
    ensures var t := MountsAdd([], "m", MiniLevel + "/" + MiniLevel);
      var v := StoreView((q: string, g: Option<string>) => [e], (x: Entry, d: string) => "b");
      ResolvePaths(t, v, "/m/a/b") == []
      && GetAttr(t, v, size, "/m/a/b") == EntryAttrs(e, size) && GetAttr(t, v, size, "/m/a/b").0 == 0
      && Open(t, v, "/m/a/b", ReadOnly).res == 0
  {
    var t := MountsAdd([], "m", MiniLevel + "/" + MiniLevel);
    var v := StoreView((q: string, g: Option<string>) => [e], (x: Entry, d: string) => "b");
    MiniWalk(t, v, e);
    assert !MountsExists(t, "m/a/b") by {
      assert ("/m/a/b")[1..] == "m/a/b";
      assert "m/a/b" != "m";
    }
  }

  /**
   A path ending in a set record (`hashfs_set_new`) is a directory; one
   ending in a file record (`hashfs_file_new`) is a read-only regular file
   the size of the real file.
   */
  lemma AttrsOfRecords(t: MountTable, v: StoreView, size: string -> int, path: string,
                       id: string, source: string, kind: string, md5: string -> Md5Hex)
    ensures var es := ResolvePathsAsWritten(t, v, path);
      !IsTop(t, path) && es != [] && es[|es| - 1].pkey == PrimaryKey("set", id, source, kind, md5) ==>
      GetAttr(t, v, size, path) == (0, Attr(TypeDir + ModeSet, 2, 0))
    ensures var es := ResolvePathsAsWritten(t, v, path);
      !IsTop(t, path) && es != [] && es[|es| - 1].pkey == PrimaryKey("file", id, "", "", md5)
      && EntryLookup(es[|es| - 1], "path") == Some(id) ==>
      GetAttr(t, v, size, path) == (0, Attr(TypeReg + ModeFile, 1, size(id)))
  {
    var es := ResolvePathsAsWritten(t, v, path);
    if !IsTop(t, path) && es != [] {
      var last := es[|es| - 1];
      assert GetAttr(t, v, size, path) == EntryAttrs(last, size);
      if last.pkey == PrimaryKey("set", id, source, kind, md5) {
        SetEntryAttrs(last, size, id, source, kind, md5);
      }
      if last.pkey == PrimaryKey("file", id, "", "", md5) && EntryLookup(last, "path") == Some(id) {
        FileEntryAttrs(last, size, id, md5);
      }
    }
  }

  lemma SetEntryAttrs(last: Entry, size: string -> int, id: string, source: string, kind: string, md5: string -> Md5Hex)
    requires last.pkey == PrimaryKey("set", id, source, kind, md5)
    ensures EntryAttrs(last, size) == (0, Attr(TypeDir + ModeSet, 2, 0))
  {
    SetKeyIsSetKey(id, source, kind, md5);
  }

  lemma FileEntryAttrs(last: Entry, size: string -> int, id: string, md5: string -> Md5Hex)
    requires last.pkey == PrimaryKey("file", id, "", "", md5) && EntryLookup(last, "path") == Some(id)
    ensures EntryAttrs(last, size) == (0, Attr(TypeReg + ModeFile, 1, size(id)))
  {
    FileKeyIsNotSetKey(id, md5);
  }
}

=== FILE: mounts.dfy ===
/**
 The mount table of `src/hashfs/hashfsmount.c` (`hashfs_mounts_add`,
 `hashfs_mounts_get`, `hashfs_mounts_exists`): each mount name maps to the
 text `/name/schema`, so that splitting it on `/` puts schema level `i` at
 index `i`, the index of the path segment it resolves.
 */
module Mounts {
  import opened Wrappers

  /** The mounts: each name with its stored schema, in listing order. */
  type MountTable = seq<(string, string)>

  predicate UniqueNames(t: MountTable) {
    forall a, b :: 0 <= a < b < |t| ==> t[a].0 != t[b].0
  }

  /** `hashfs_mounts_get`: the stored schema of a mount. */
  function MountsGet(t: MountTable, name: string): (r: Option<string>)
    ensures r.None? <==> forall i :: 0 <= i < |t| ==> t[i].0 != name
    ensures r.Some? ==> exists i :: 0 <= i < |t| && t[i] == (name, r.value)
  {
    if |t| == 0 then None
    else if t[0].0 == name then Some(t[0].1)
    else
      var r := MountsGet(t[1..], name);
      assert forall i :: 0 < i < |t| ==> t[i] == t[1..][i - 1];
      r
  }

  /** In a table with unique names, the stored schema is the one recorded with the name. */
  lemma MountsGetUnique(t: MountTable, i: nat)
    requires UniqueNames(t) && i < |t|
    ensures MountsGet(t, t[i].0) == Some(t[i].1)
  {
    var r := MountsGet(t, t[i].0);
    var j :| 0 <= j < |t| && t[j] == (t[i].0, r.value);
    assert j == i;
  }

  /** `hashfs_mounts_exists`. */
  function MountsExists(t: MountTable, name: string): (b: bool)
    ensures b <==> exists i :: 0 <= i < |t| && t[i].0 == name
  {
    MountsGet(t, name).Some?
  }

  /** The text `hashfs_mounts_add` stores: the schema behind `/name/`. */
  function Stored(name: string, schema: string): string {
    "/" + name + "/" + schema
  }

  /**
   `hashfs_mounts_add`: `name` now maps to its stored schema, replacing an
   earlier one; no other mount changes.
   */
  function MountsAdd(t: MountTable, name: string, schema: string): (r: MountTable)
    ensures MountsGet(r, name) == Some(Stored(name, schema))
    ensures forall other :: other != name ==> MountsGet(r, other) == MountsGet(t, other)
    ensures |r| == |t| + (if MountsExists(t, name) then 0 else 1)
  {
    if |t| == 0 then [(name, Stored(name, schema))]
    else if t[0].0 == name then
      var r := [(name, Stored(name, schema))] + t[1..];
      assert r[1..] == t[1..];
      r
    else
      var rest := MountsAdd(t[1..], name, schema);
      var r := [t[0]] + rest;
      assert r[0] == t[0] && r[1..] == rest;
      r
  }

  /** Adding a mount keeps every name at its place and appends `name` only when it is new. */
  lemma {:induction false} MountsAddNames(t: MountTable, name: string, schema: string)
    ensures var r := MountsAdd(t, name, schema);
      (forall i :: 0 <= i < |t| ==> r[i].0 == t[i].0) && (forall i :: |t| <= i < |r| ==> r[i].0 == name)
  {
    if |t| > 0 && t[0].0 != name {
      MountsAddNames(t[1..], name, schema);
      MountsAddCons(t, name, schema);
    }
  }

  /** Past a different first mount, adding works on the rest of the table. */
  lemma MountsAddCons(t: MountTable, name: string, schema: string)
    requires |t| > 0 && t[0].0 != name
    requires var r := MountsAdd(t[1..], name, schema);
      (forall i :: 0 <= i < |t[1..]| ==> r[i].0 == t[1..][i].0) && (forall i :: |t[1..]| <= i < |r| ==> r[i].0 == name)
    ensures var r := MountsAdd(t, name, schema);
      (forall i :: 0 <= i < |t| ==> r[i].0 == t[i].0) && (forall i :: |t| <= i < |r| ==> r[i].0 == name)
  {
    var rest := MountsAdd(t[1..], name, schema);
    var r := MountsAdd(t, name, schema);
    assert r == [t[0]] + rest;
    forall i | 0 < i < |t| ensures r[i].0 == t[i].0 {
      assert r[i] == rest[i - 1] && t[i] == t[1..][i - 1];
    }
    forall i | |t| <= i < |r| ensures r[i].0 == name {
      assert r[i] == rest[i - 1];
    }
  }

  /** `hashfs_mounts_add` keeps mount names unique. */
  lemma MountsAddUnique(t: MountTable, name: string, schema: string)
    requires UniqueNames(t)
    ensures UniqueNames(MountsAdd(t, name, schema))
  {
    var r := MountsAdd(t, name, schema);
    MountsAddNames(t, name, schema);
    forall a, b | 0 <= a < b < |r| ensures r[a].0 != r[b].0 {
      assert r[a].0 == t[a].0;
      if b < |t| {
        assert r[b].0 == t[b].0;
      } else {
        assert !MountsExists(t, name);
      }
    }
  }

  /** The mount names, in listing order. */
  function Names(t: MountTable): (ns: seq<string>)
    ensures |ns| == |t| && forall i :: 0 <= i < |t| ==> ns[i] == t[i].0
  {
    seq(|t|, i requires 0 <= i < |t| => t[i].0)
  }
}

=== FILE: records.dfy ===
/**
 The record views of `src/hashfs/file.c` and `src/hashfs/set.c`: a file owns
 its `file:` entry and the sets a backend attached to it; destroying a file
 issues the store operations that persist them.
 */
module Records {
  import opened Wrappers
  import opened Store
  import Backends

  /** Capacity of `set->name` (`gchar name[256]`), terminator included. */
  const SetNameCapacity: nat := 256

  /** `hashfs_set_t`: the (possibly truncated) name and the set's entry. */
  datatype SetRec = SetRec(name: string, entry: Entry)

  /** `hashfs_file_t`, without the unused `ed2k`/`md5` slots. */
  datatype File = File(filename: string, size: int, sets: seq<SetRec>,
                       backend: Option<Backends.Backend>, entry: Entry)

  /** `g_strlcpy` into a buffer of `cap` bytes: at most `cap - 1` bytes (one `char` each) survive. */
  function Truncate(s: string, cap: nat): (r: string)
    requires cap > 0
    ensures |r| <= cap - 1 && |r| <= |s|
    ensures r == s[..|r|]
    ensures |s| < cap ==> r == s
  {
    if |s| < cap then s else s[..cap - 1]
  }

  /**
   `hashfs_set_new`: the entry is keyed by `set:source:type:md5(name)` from the
   full name, starts with no fields, and the stored name is cut to 255 bytes.
   */
  function SetNew(name: string, source: string, kind: string, md5: string -> Md5Hex): (s: SetRec)
    ensures s.entry.pkey == "set:" + source + ":" + kind + ":" + md5(name)
    ensures s.entry.fields == map[]
    ensures |s.name| <= 255 && |s.name| <= |name| && s.name == name[..|s.name|]
    ensures |name| <= 255 ==> s.name == name
  {
    SetRec(Truncate(name, SetNameCapacity), EntryNew("set", name, source, kind, md5))
  }

  /** Equal (name, source, type) triples give the same key; with colon-free source and type, the converse holds up to the digest. */
  lemma SetKeyDeterminedByTriple(n1: string, s1: string, k1: string, n2: string, s2: string, k2: string,
                                 md5: string -> Md5Hex)
    requires ':' !in s1 && ':' !in k1 && ':' !in s2 && ':' !in k2
    ensures SetNew(n1, s1, k1, md5).entry.pkey == SetNew(n2, s2, k2, md5).entry.pkey
        <==> s1 == s2 && k1 == k2 && md5(n1) == md5(n2)
  {
    if SetNew(n1, s1, k1, md5).entry.pkey == SetNew(n2, s2, k2, md5).entry.pkey {
      SetKeyInjective(n1, s1, k1, n2, s2, k2, md5);
    }
  }

  /** `hashfs_set_prop_set`: only the set's own entry changes. */
  function SetPropSet(s: SetRec, key: string, value: string): (r: SetRec)
    ensures r.name == s.name && r.entry.pkey == s.entry.pkey
    ensures EntryLookup(r.entry, key) == Some(value)
    ensures forall k :: k != key ==> EntryLookup(r.entry, k) == EntryLookup(s.entry, k)
  {
    s.(entry := EntrySet(s.entry, key, value))
  }

  /** `hashfs_set_prop_lookup`: a field of the set's own entry. */
  function SetPropLookup(s: SetRec, key: string): (r: Option<string>)
    ensures r.Some? <==> key in s.entry.fields
    ensures r.Some? ==> r.value == s.entry.fields[key]
  {
    EntryLookup(s.entry, key)
  }

  /** `hashfs_set_destroy`: the set's entry is put (merged into the store) before it is released. */
  function SetDestroy(s: SetRec): (ops: seq<DbOp>)
    ensures ops == [Put(s.entry.pkey, s.entry.fields)]
  {
    [EntryPut(Some(s.entry)).value]
  }

  /**
   `hashfs_file_new`: the entry has prefix "file" and the file name as its id,
   its `path` field is the file name, and a transaction is begun. The size
   comes from `stat`, an input here.
   */
  function FileNew(filename: string, backend: Option<Backends.Backend>, size: int,
                   md5: string -> Md5Hex): (r: (File, seq<DbOp>))
    ensures r.0.entry.pkey == "file:" + md5(filename)
    ensures r.0.entry.fields == map["path" := filename]
    ensures r.0.sets == [] && r.0.filename == filename && r.0.backend == backend && r.0.size == size
    ensures r.1 == [Begin]
  {
    var e := EntrySet(EntryNew("file", filename, "", "", md5), "path", filename);
    (File(filename, size, [], backend, e), [Begin])
  }

  /** `hashfs_file_prop_set`: only the file's own entry changes. */
  function FilePropSet(f: File, key: string, value: string): (r: File)
    ensures r.filename == f.filename && r.sets == f.sets && r.backend == f.backend
    ensures r.entry.pkey == f.entry.pkey
    ensures EntryLookup(r.entry, key) == Some(value)
    ensures forall k :: k != key ==> EntryLookup(r.entry, k) == EntryLookup(f.entry, k)
  {
    f.(entry := EntrySet(f.entry, key, value))
  }

  /** `hashfs_file_prop_lookup`: a field of the file's own entry. */
  function FilePropLookup(f: File, key: string): (r: Option<string>)
    ensures r.Some? <==> key in f.entry.fields
    ensures r.Some? ==> r.value == f.entry.fields[key]
  {
    EntryLookup(f.entry, key)
  }

  /** The source recorded in a set's key: the backend's short name, or "unknown" without a backend. */
  function SourceOf(f: File): (src: string)
    ensures f.backend.Some? ==> src == f.backend.value.desc.shortname
    ensures f.backend.None? ==> src == "unknown"
  {
    match f.backend
    case Some(b) => b.desc.shortname
    case None => "unknown"
  }

  /**
   `hashfs_file_add_to_set`: a new set keyed by (name, source, type) is
   appended to the file's sets and returned, and the file's field named by
   the type now holds the set's primary key.
   */
  function FileAddToSet(f: File, name: string, kind: string, md5: string -> Md5Hex): (r: (File, SetRec))
    ensures r.1 == SetNew(name, SourceOf(f), kind, md5)
    ensures r.0.sets == f.sets + [r.1]
    ensures EntryLookup(r.0.entry, kind) == Some(r.1.entry.pkey)
    ensures forall k :: k != kind ==> EntryLookup(r.0.entry, k) == EntryLookup(f.entry, k)
    ensures r.0.entry.pkey == f.entry.pkey && r.0.filename == f.filename && r.0.backend == f.backend
  {
    var s := SetNew(name, SourceOf(f), kind, md5);
    (f.(entry := EntrySet(f.entry, kind, s.entry.pkey), sets := f.sets + [s]), s)
  }

  /** The puts of each set, in list order. */
  function PutSets(sets: seq<SetRec>): (ops: seq<DbOp>)
    ensures |ops| == |sets|
    ensures forall i :: 0 <= i < |sets| ==> ops[i] == Put(sets[i].entry.pkey, sets[i].entry.fields)
  {
    if |sets| == 0 then [] else SetDestroy(sets[0]) + PutSets(sets[1..])
  }

  /**
   `hashfs_file_destroy` as written: the transaction is committed first, then
   every set is put in list order, then the file's own entry is put.
   */
  function FileDestroyAsWritten(f: File): (ops: seq<DbOp>)
    ensures |ops| == |f.sets| + 2
    ensures ops[0] == Commit
    ensures forall i :: 0 <= i < |f.sets| ==> ops[i + 1] == Put(f.sets[i].entry.pkey, f.sets[i].entry.fields)
    ensures ops[|ops| - 1] == Put(f.entry.pkey, f.entry.fields)
  {
    [Commit] + PutSets(f.sets) + [EntryPut(Some(f.entry)).value]
  }

  /** The intended order: the sets and the file are put inside the transaction, then it is committed. */
  function FileDestroy(f: File): (ops: seq<DbOp>)
    ensures |ops| == |f.sets| + 2
    ensures forall i :: 0 <= i < |f.sets| ==> ops[i] == Put(f.sets[i].entry.pkey, f.sets[i].entry.fields)
    ensures ops[|f.sets|] == Put(f.entry.pkey, f.entry.fields)
    ensures ops[|ops| - 1] == Commit
  {
    PutSets(f.sets) + [EntryPut(Some(f.entry)).value] + [Commit]
  }

  /** Puts inside an open transaction never show in the committed table. */
  lemma {:induction false} PutsStayPending(st: DbState, ops: seq<DbOp>, clash: (string, string) -> string)
    requires st.pending.Some?
    requires forall i :: 0 <= i < |ops| ==> ops[i].Put?
    ensures forall i :: 0 <= i < |Observed(st, ops, clash)| ==> Observed(st, ops, clash)[i] == st.committed
    ensures ApplyAll(st, ops, clash).pending.Some?
    ensures ApplyAll(st, ops, clash).committed == st.committed
    decreases |ops|
  {
    if |ops| > 0 {
      var st' := Apply(st, ops[0], clash);
      PutsStayPending(st', ops[1..], clash);
      var obs := Observed(st, ops, clash);
      assert obs == [st.committed] + Observed(st', ops[1..], clash);
      forall i | 0 <= i < |obs| ensures obs[i] == st.committed {
        if i > 0 {
          assert obs[i] == Observed(st', ops[1..], clash)[i - 1];
        }
      }
    }
  }

  /**
   With the intended order, a reader sees the store either as it was before
   the file was processed or with all of its records in place, never in between.
   */
  lemma FileDestroyIsAtomic(st: DbState, f: File, clash: (string, string) -> string)
    requires st.pending.Some?
    ensures var obs := Observed(st, FileDestroy(f), clash);
      forall i :: 0 <= i < |obs| ==> obs[i] == st.committed || obs[i] == obs[|obs| - 1]
  {
    var ops := FileDestroy(f);
    var puts := ops[..|ops| - 1];
    assert forall i :: 0 <= i < |puts| ==> puts[i].Put?;
    PutsStayPending(st, puts, clash);
    ObservedSplit(st, puts, [Commit], clash);
    assert puts + [Commit] == ops;
  }

  /** Observing a run of operations is observing its prefix, then the rest from where the prefix ended. */
  lemma {:induction false} ObservedSplit(st: DbState, a: seq<DbOp>, b: seq<DbOp>, clash: (string, string) -> string)
    ensures Observed(st, a + b, clash) == Observed(st, a, clash) + Observed(ApplyAll(st, a, clash), b, clash)[1..]
    ensures ApplyAll(st, a + b, clash) == ApplyAll(ApplyAll(st, a, clash), b, clash)
    decreases |a|
  {
    if |a| > 0 {
      assert (a + b)[1..] == a[1..] + b;
      assert (a + b)[0] == a[0];
      ObservedSplit(Apply(st, a[0], clash), a[1..], b, clash);
    } else {
      assert a + b == b;
    }
  }

  /**
   As written, a file with one new set shows the set's record to readers
   before the file's own record exists: a state the intended order never exposes.
   */
  lemma FileDestroyAsWrittenExposesPartialState(st: DbState, f: File, clash: (string, string) -> string)
    requires st.pending == Some(st.committed)
    requires |f.sets| == 1
    requires f.sets[0].entry.pkey !in st.committed && f.entry.pkey !in st.committed
    requires f.sets[0].entry.pkey != f.entry.pkey
    ensures var obs := Observed(st, FileDestroyAsWritten(f), clash);
      f.sets[0].entry.pkey in obs[2] && f.entry.pkey !in obs[2]
      && obs[2] != st.committed && obs[2] != obs[|obs| - 1]
  {
    var ops := FileDestroyAsWritten(f);
    var s0 := Apply(st, ops[0], clash);
    assert s0 == DbState(st.committed, None);
    var s1 := Apply(s0, ops[1], clash);
    var s2 := Apply(s1, ops[2], clash);
    var o2 := Observed(s1, ops[2..], clash);
    assert ops[2..][1..] == [];
    assert o2 == [s1.committed, s2.committed];
    var o1 := Observed(s0, ops[1..], clash);
    assert ops[1..][1..] == ops[2..];
    assert o1 == [s0.committed] + o2;
    var obs := Observed(st, ops, clash);
    assert obs == [st.committed] + o1;
    assert obs[2] == s1.committed && obs[3] == s2.committed;
  }

  /** After the intended destroy, the committed table holds every set and the file. */
  lemma FileDestroyPersistsAll(st: DbState, f: File, clash: (string, string) -> string)
    requires st.pending.Some?
    ensures var end := ApplyAll(st, FileDestroy(f), clash);
      end.pending.None? && f.entry.pkey in end.committed
      && forall i :: 0 <= i < |f.sets| ==> f.sets[i].entry.pkey in end.committed
  {
    var ops := FileDestroy(f);
    var puts := ops[..|ops| - 1];
    assert puts + [Commit] == ops;
    ObservedSplit(st, puts, [Commit], clash);
    PutsKeepKeys(st, puts, clash);
  }

  /** Every key put inside the transaction is present in its pending table afterwards. */
  lemma {:induction false} PutsKeepKeys(st: DbState, ops: seq<DbOp>, clash: (string, string) -> string)
    requires st.pending.Some?
    requires forall i :: 0 <= i < |ops| ==> ops[i].Put?
    ensures ApplyAll(st, ops, clash).pending.Some?
    ensures st.pending.value.Keys <= ApplyAll(st, ops, clash).pending.value.Keys
    ensures forall i :: 0 <= i < |ops| ==> ops[i].pkey in ApplyAll(st, ops, clash).pending.value
    decreases |ops|
  {
    if |ops| > 0 {
      var st' := Apply(st, ops[0], clash);
      PutsKeepKeys(st', ops[1..], clash);
      forall i | 0 <= i < |ops| ensures ops[i].pkey in ApplyAll(st, ops, clash).pending.value {
        if i > 0 {
          assert ops[i] == ops[1..][i - 1];
        }
      }
    }
  }
}

=== FILE: refcount.dfy ===
/**
 The reference counters of the AniDB client objects (`anidb_session_ref/unref`,
 `anidb_dict_ref/unref`, `anidb_result_ref/unref` in
 `src/lib/libanidb/anidb.c`). Every object is created holding one reference;
 `ref` adds one, `unref` takes one away and releases the object exactly when
 the count drops to zero.
 */
module RefCount {

  /** What is left of an object after an `unref`. */
  datatype Count = Held(count: nat) | Released

  /** `*_unref` on a live object (count at least one). */
  function Unref(c: nat): (r: Count)
    requires c >= 1
    ensures r.Released? <==> c == 1
    ensures r.Held? ==> r.count >= 1 && r.count + 1 == c
  {
    if c == 1 then Released else Held(c - 1)
  }

  /** `*_ref`: one more holder. */
  function Ref(c: nat): (r: nat)
    ensures r >= 1
  {
    c + 1
  }

  /** An `unref` undoes a `ref` on a live object, and releases a new-born one. */
  lemma RefThenUnref(c: nat)
    ensures Unref(Ref(c)) == (if c == 0 then Released else Held(c))
  {
  }

  /** `n` successive `ref` calls. */
  function RefTimes(c: nat, n: nat): nat
  {
    if n == 0 then c else Ref(RefTimes(c, n - 1))
  }

  /** `n` successive `unref` calls; at most as many as there are holders, as a later one would touch freed memory. */
  function UnrefTimes(c: nat, n: nat): (r: Count)
    requires 1 <= c && n <= c
    decreases n
  {
    if n == 0 then Held(c)
    else match Unref(c)
      case Released => Released
      case Held(m) => UnrefTimes(m, n - 1)
  }

  lemma {:induction false} RefTimesAdds(c: nat, n: nat)
    ensures RefTimes(c, n) == c + n
  {
    if n > 0 {
      RefTimesAdds(c, n - 1);
    }
  }

  /** The object survives every `unref` but the one that matches its last holder. */
  lemma {:induction false} ReleasedExactlyAtLast(c: nat, n: nat)
    requires 1 <= n <= c
    ensures UnrefTimes(c, n).Released? <==> n == c
    ensures UnrefTimes(c, n).Held? ==> UnrefTimes(c, n).count == c - n
    decreases n
  {
    if c > 1 && n > 1 {
      ReleasedExactlyAtLast(c - 1, n - 1);
    }
  }

  /** A new object (one holder) given `k` more references is freed by the (k+1)-th `unref` and by no earlier one. */
  lemma BalancedRelease(k: nat)
    ensures RefTimes(1, k) == k + 1
    ensures UnrefTimes(RefTimes(1, k), k) == Held(1)
    ensures UnrefTimes(RefTimes(1, k), k + 1) == Released
  {
    RefTimesAdds(1, k);
    if k > 0 {
      ReleasedExactlyAtLast(k + 1, k);
    }
    ReleasedExactlyAtLast(k + 1, k + 1);
  }
}

=== FILE: schema.dfy ===
/**
 One level of a mount schema, as read by `parse_schema` in
 `src/hashfs/hashfsmount.c`: every leftmost, non-overlapping match of the
 pattern `(\w+)="(.*?)"` binds a key to the text between the quotes, and a
 later binding of the same key replaces an earlier one.
 */
module Schema {
  import opened Wrappers
  import opened Strings

  /** A match of the pattern: the key, the quoted value, and the index just past the closing quote. */
  datatype Match = Match(key: string, val: string, end: nat)

  /** A key the pattern can capture: a non-empty run of word characters. */
  predicate IsKey(k: string) {
    |k| > 0 && forall i :: 0 <= i < |k| ==> IsWordChar(k[i])
  }

  /**
   The characters GRegex's default newline convention (the set `\R`
   recognises) treats as line breaks, which `.` does not match.
   */
  predicate IsLineBreak(c: char) {
    c == '\n' || c == '\r' || c == '\U{B}' || c == '\U{C}'
  }

  /** A value the lazy `.*?` can capture before the closing quote. */
  predicate IsValue(v: string) {
    '"' !in v && forall i :: 0 <= i < |v| ==> !IsLineBreak(v[i])
  }

  /** The text the pattern matches for a binding. */
  function Item(k: string, v: string): string {
    k + "=\"" + v + "\""
  }

  /** First closing quote or line break at or after `i`. */
  function QuoteEnd(s: string, i: nat): (k: nat)
    requires i <= |s|
    ensures i <= k <= |s|
    ensures forall p :: i <= p < k ==> s[p] != '"' && !IsLineBreak(s[p])
    ensures k < |s| ==> s[k] == '"' || IsLineBreak(s[k])
    decreases |s| - i
  {
    if i == |s| || s[i] == '"' || IsLineBreak(s[i]) then i else QuoteEnd(s, i + 1)
  }

  /** The match of the pattern starting exactly at `i`, if there is one. */
  function MatchAt(s: string, i: nat): (r: Option<Match>)
    requires i <= |s|
    ensures r.Some? ==> i < r.value.end <= |s|
    ensures r.Some? ==> IsKey(r.value.key) && IsValue(r.value.val)
    ensures i < |s| && !IsWordChar(s[i]) ==> r.None?
  {
    var j := WordEnd(s, i);
    if j > i && j + 1 < |s| && s[j] == '=' && s[j + 1] == '"' then
      var k := QuoteEnd(s, j + 2);
      if k < |s| && s[k] == '"' then Some(Match(s[i..j], s[j + 2..k], k + 1))
      else None
    else None
  }

  /** What the pattern matches is a binding written out. */
  lemma MatchAtText(s: string, i: nat)
    requires i <= |s|
    ensures var r := MatchAt(s, i); r.Some? ==> s[i..r.value.end] == Item(r.value.key, r.value.val)
  {
    var j := WordEnd(s, i);
    if j > i && j + 1 < |s| && s[j] == '=' && s[j + 1] == '"' {
      var k := QuoteEnd(s, j + 2);
      if k < |s| && s[k] == '"' {
        assert s[i..k + 1] == s[i..j] + [s[j], s[j + 1]] + s[j + 2..k] + [s[k]];
      }
    }
  }

  /** A binding written out at `i` is exactly what the pattern matches there. */
  lemma MatchAtItem(s: string, i: nat, k: string, v: string)
    requires IsKey(k) && IsValue(v)
    requires i + |Item(k, v)| <= |s| && s[i..i + |Item(k, v)|] == Item(k, v)
    ensures MatchAt(s, i) == Some(Match(k, v, i + |Item(k, v)|))
  {
    ItemChars(k, v);
    var j := i + |k|;
    var q := j + 2 + |v|;
    ItemKeyRun(s, i, k, v);
    ItemValueRun(s, i, k, v);
    MatchAtParts(s, i, j, q);
  }

  lemma ItemKeyRun(s: string, i: nat, k: string, v: string)
    requires IsKey(k)
    requires i + |Item(k, v)| <= |s| && s[i..i + |Item(k, v)|] == Item(k, v)
    ensures WordEnd(s, i) == i + |k| && s[i..i + |k|] == k
    ensures s[i + |k|] == '=' && s[i + |k| + 1] == '"'
  {
    var it := Item(k, v);
    ItemChars(k, v);
    var j := i + |k|;
    forall p | i <= p < j ensures IsWordChar(s[p]) {
      assert s[p] == it[p - i] == k[p - i];
    }
    assert s[j] == it[|k|];
    WordEndSkip(s, i, j);
    assert s[i..j] == it[..|k|];
    assert s[j + 1] == it[|k| + 1];
  }

  lemma ItemValueRun(s: string, i: nat, k: string, v: string)
    requires IsValue(v)
    requires i + |Item(k, v)| <= |s| && s[i..i + |Item(k, v)|] == Item(k, v)
    ensures QuoteEnd(s, i + |k| + 2) == i + |k| + 2 + |v|
    ensures s[i + |k| + 2..i + |k| + 2 + |v|] == v
    ensures s[i + |k| + 2 + |v|] == '"'
  {
    var it := Item(k, v);
    ItemChars(k, v);
    var j := i + |k| + 2;
    var q := j + |v|;
    forall p | j <= p < q ensures s[p] != '"' && !IsLineBreak(s[p]) {
      assert s[p] == it[p - i] == v[p - j];
    }
    assert s[q] == it[q - i];
    QuoteEndSkip(s, j, q);
    assert s[j..q] == it[|k| + 2..|k| + 2 + |v|];
  }

  lemma MatchAtParts(s: string, i: nat, j: nat, q: nat)
    requires i < j && j + 2 <= q < |s|
    requires WordEnd(s, i) == j && s[j] == '=' && s[j + 1] == '"'
    requires QuoteEnd(s, j + 2) == q && s[q] == '"'
    ensures MatchAt(s, i) == Some(Match(s[i..j], s[j + 2..q], q + 1))
  {
  }

  /** Where the parts of a written-out binding sit. */
  lemma ItemChars(k: string, v: string)
    ensures var it := Item(k, v);
      |it| == |k| + |v| + 3
      && (forall p | 0 <= p < |k| :: it[p] == k[p])
      && it[|k|] == '=' && it[|k| + 1] == '"'
      && (forall p | 0 <= p < |v| :: it[|k| + 2 + p] == v[p])
      && it[|k| + 2 + |v|] == '"'
  {
  }

  lemma {:induction false} QuoteEndSkip(s: string, i: nat, k: nat)
    requires i <= k < |s|
    requires forall p :: i <= p < k ==> s[p] != '"' && !IsLineBreak(s[p])
    requires s[k] == '"'
    ensures QuoteEnd(s, i) == k
    decreases k - i
  {
    if i < k {
      QuoteEndSkip(s, i + 1, k);
    }
  }

  /** Every binding of the pattern in `s` from `from` on, left to right and non-overlapping. */
  function Scan(s: string, from: nat): seq<(string, string)>
    requires from <= |s|
    decreases |s| - from
  {
    if from == |s| then []
    else
      match MatchAt(s, from)
      case Some(m) => [(m.key, m.val)] + Scan(s, m.end)
      case None => Scan(s, from + 1)
  }

  /** Every binding the scan finds has a key and a value the pattern can capture. */
  lemma {:induction false} ScanBindings(s: string, from: nat)
    requires from <= |s|
    ensures forall n :: 0 <= n < |Scan(s, from)| ==> IsKey(Scan(s, from)[n].0) && IsValue(Scan(s, from)[n].1)
    decreases |s| - from
  {
    if from < |s| {
      var r := MatchAt(s, from);
      if r.Some? {
        var m := r.value;
        ScanBindings(s, m.end);
        var rest := Scan(s, m.end);
        var ps := Scan(s, from);
        assert ps == [(m.key, m.val)] + rest;
        forall n | 0 <= n < |ps| ensures IsKey(ps[n].0) && IsValue(ps[n].1) {
          if n > 0 {
            assert ps[n] == rest[n - 1];
          }
        }
      } else {
        ScanBindings(s, from + 1);
        assert Scan(s, from) == Scan(s, from + 1);
      }
    }
  }

  /** Text without word characters holds no binding and is skipped. */
  lemma {:induction false} ScanSkipsJunk(s: string, from: nat, to: nat)
    requires from <= to <= |s|
    requires forall p :: from <= p < to ==> !IsWordChar(s[p])
    ensures Scan(s, from) == Scan(s, to)
    decreases |s| - from
  {
    if from < to {
      ScanSkipsOne(s, from);
      ScanSkipsJunk(s, from + 1, to);
    }
  }

  /** A character that cannot start a key is passed over. */
  lemma ScanSkipsOne(s: string, from: nat)
    requires from < |s| && !IsWordChar(s[from])
    ensures Scan(s, from) == Scan(s, from + 1)
  {
    assert MatchAt(s, from).None?;
  }

  /** Bindings separated by `sep`, in order. */
  function Render(ps: seq<(string, string)>, sep: string): string
  {
    if |ps| == 0 then ""
    else if |ps| == 1 then Item(ps[0].0, ps[0].1)
    else Item(ps[0].0, ps[0].1) + sep + Render(ps[1..], sep)
  }

  predicate NoWordChar(t: string) {
    forall p :: 0 <= p < |t| ==> !IsWordChar(t[p])
  }

  /**
   Scanning rendered bindings gives the bindings back, whatever separator
   and trailing text without word characters surround them.
   */
  lemma {:induction false} ScanRender(s: string, i: nat, ps: seq<(string, string)>, sep: string, tail: string)
    requires forall n :: 0 <= n < |ps| ==> IsKey(ps[n].0) && IsValue(ps[n].1)
    requires NoWordChar(sep) && NoWordChar(tail)
    requires i <= |s| && s[i..] == Render(ps, sep) + tail
    ensures Scan(s, i) == ps
    decreases |ps|
  {
    if |ps| == 0 {
      ScanTail(s, i, tail);
    } else if |ps| == 1 {
      var e := SliceTwo(s, i, Item(ps[0].0, ps[0].1), tail);
      ScanTail(s, e, tail);
      ScanItem(s, i, e, ps[0].0, ps[0].1);
      assert ps == [(ps[0].0, ps[0].1)] + [];
    } else {
      var e, f := RenderSplit(s, i, ps, sep, tail);
      BindingsTail(ps);
      ScanRender(s, f, ps[1..], sep, tail);
      ScanJunk(s, e, f, sep);
      ScanItem(s, i, e, ps[0].0, ps[0].1);
      assert ps == [(ps[0].0, ps[0].1)] + ps[1..];
    }
  }

  /** Rendered bindings start with the first one and the separator; the rest follows. */
  lemma RenderSplit(s: string, i: nat, ps: seq<(string, string)>, sep: string, tail: string) returns (e: nat, f: nat)
    requires |ps| > 1
    requires i <= |s| && s[i..] == Render(ps, sep) + tail
    ensures e == i + |Item(ps[0].0, ps[0].1)| && f == e + |sep| && f <= |s|
    ensures s[i..e] == Item(ps[0].0, ps[0].1) && s[e..f] == sep
    ensures s[f..] == Render(ps[1..], sep) + tail
  {
    var it := Item(ps[0].0, ps[0].1);
    var rest := Render(ps[1..], sep) + tail;
    assert Render(ps, sep) == it + sep + Render(ps[1..], sep);
    assert s[i..] == it + (sep + rest);
    e := SliceTwo(s, i, it, sep + rest);
    f := SliceTwo(s, e, sep, rest);
  }

  lemma BindingsTail(ps: seq<(string, string)>)
    requires |ps| > 0 && forall n :: 0 <= n < |ps| ==> IsKey(ps[n].0) && IsValue(ps[n].1)
    ensures forall n :: 0 <= n < |ps[1..]| ==> IsKey(ps[1..][n].0) && IsValue(ps[1..][n].1)
  {
    forall n | 0 <= n < |ps[1..]| ensures IsKey(ps[1..][n].0) && IsValue(ps[1..][n].1) {
      assert ps[1..][n] == ps[n + 1];
    }
  }

  /** Trailing text without word characters scans to nothing. */
  lemma ScanTail(s: string, i: nat, tail: string)
    requires NoWordChar(tail)
    requires i <= |s| && s[i..] == tail
    ensures Scan(s, i) == []
  {
    assert s[i..|s|] == tail;
    ScanJunk(s, i, |s|, tail);
  }

  /** Cutting `s[i..]` where it is the concatenation `a + c`: `a` ends at `e`. */
  lemma SliceTwo(s: string, i: nat, a: string, c: string) returns (e: nat)
    requires i <= |s| && s[i..] == a + c
    ensures e == i + |a| && e <= |s|
    ensures s[i..e] == a && s[e..] == c
  {
    e := i + |a|;
    assert s[i..e] == s[i..][..|a|];
    assert s[e..] == s[i..][|a|..];
  }

  /** A written-out binding ending at `e` is scanned as that binding, and the scan resumes at `e`. */
  lemma ScanItem(s: string, i: nat, e: nat, k: string, v: string)
    requires IsKey(k) && IsValue(v)
    requires e == i + |Item(k, v)| && e <= |s| && s[i..e] == Item(k, v)
    ensures Scan(s, i) == [(k, v)] + Scan(s, e)
  {
    MatchAtItem(s, i, k, v);
    ScanAt(s, i, Match(k, v, e));
  }

  /** Where the pattern matches, the scan records the binding and resumes after it. */
  lemma ScanAt(s: string, i: nat, m: Match)
    requires i < |s| && MatchAt(s, i) == Some(m)
    ensures m.end <= |s| && Scan(s, i) == [(m.key, m.val)] + Scan(s, m.end)
  {
  }

  /** A stretch `t` without word characters, from `i` to `j`, is skipped. */
  lemma ScanJunk(s: string, i: nat, j: nat, t: string)
    requires NoWordChar(t)
    requires i <= j <= |s| && s[i..j] == t
    ensures Scan(s, i) == Scan(s, j)
  {
    forall p | i <= p < j ensures !IsWordChar(s[p]) {
      assert s[p] == t[p - i];
    }
    ScanSkipsJunk(s, i, j);
  }

  /** The bindings as a table: a later binding of a key replaces an earlier one (`g_hash_table_insert`). */
  function ToMap(ps: seq<(string, string)>): (m: map<string, string>)
    ensures forall k :: k in m <==> exists n | 0 <= n < |ps| :: ps[n].0 == k
  {
    if |ps| == 0 then map[]
    else
      var m := ToMap(ps[..|ps| - 1]);
      assert forall n | 0 <= n < |ps| - 1 :: ps[..|ps| - 1][n] == ps[n];
      m[ps[|ps| - 1].0 := ps[|ps| - 1].1]
  }

  /** The value a key ends up with is the one of its last binding. */
  lemma {:induction false} ToMapLastWins(ps: seq<(string, string)>, n: nat)
    requires n < |ps|
    requires forall p :: n < p < |ps| ==> ps[p].0 != ps[n].0
    ensures ps[n].0 in ToMap(ps) && ToMap(ps)[ps[n].0] == ps[n].1
    decreases |ps|
  {
    if n < |ps| - 1 {
      var pre := ps[..|ps| - 1];
      forall p | n < p < |pre| ensures pre[p].0 != pre[n].0 { assert pre[p] == ps[p]; }
      ToMapLastWins(pre, n);
    }
  }

  /** `parse_schema`: the table of bindings of one schema level. */
  function ParseLevel(level: string): (m: map<string, string>)
    ensures forall k :: k in m ==> IsKey(k) && IsValue(m[k])
  {
    var ps := Scan(level, 0);
    ScanBindings(level, 0);
    ToMapValues(ps);
    ToMap(ps)
  }

  /**
   A carriage return inside the quotes ends the attempt, as `.` does not
   match it: the level `q="a\rb"` binds nothing.
   */
  lemma CarriageReturnBindsNothing()
    ensures ParseLevel("q=\"a\rb\"") == map[]
  {
    var s := "q=\"a\rb\"";
    assert WordEnd(s, 0) == 1 && QuoteEnd(s, 3) == 4;
    assert MatchAt(s, 0).None?;
    assert WordEnd(s, 3) == 4 && MatchAt(s, 3).None?;
    assert WordEnd(s, 5) == 6 && MatchAt(s, 5).None?;
    assert Scan(s, 0) == [];
  }

  lemma {:induction false} ToMapValues(ps: seq<(string, string)>)
    requires forall n :: 0 <= n < |ps| ==> IsKey(ps[n].0) && IsValue(ps[n].1)
    ensures forall k :: k in ToMap(ps) ==> IsKey(k) && IsValue(ToMap(ps)[k])
    decreases |ps|
  {
    if |ps| > 0 {
      var pre := ps[..|ps| - 1];
      forall n | 0 <= n < |pre| ensures IsKey(pre[n].0) && IsValue(pre[n].1) { assert pre[n] == ps[n]; }
      ToMapValues(pre);
    }
  }

  /** Rendering bindings with distinct keys and parsing the text gives the same table back. */
  lemma ParseRender(ps: seq<(string, string)>, sep: string, tail: string)
    requires forall n :: 0 <= n < |ps| ==> IsKey(ps[n].0) && IsValue(ps[n].1)
    requires forall a, b :: 0 <= a < b < |ps| ==> ps[a].0 != ps[b].0
    requires NoWordChar(sep) && NoWordChar(tail)
    ensures var m := ParseLevel(Render(ps, sep) + tail);
      |m| == |ps| && forall n :: 0 <= n < |ps| ==> ps[n].0 in m && m[ps[n].0] == ps[n].1
  {
    var s := Render(ps, sep) + tail;
    ScanRender(s, 0, ps, sep, tail);
    forall n | 0 <= n < |ps| ensures ps[n].0 in ToMap(ps) && ToMap(ps)[ps[n].0] == ps[n].1 {
      ToMapLastWins(ps, n);
    }
    ToMapSize(ps);
  }

  lemma {:induction false} ToMapSize(ps: seq<(string, string)>)
    requires forall a, b :: 0 <= a < b < |ps| ==> ps[a].0 != ps[b].0
    ensures |ToMap(ps)| == |ps|
    decreases |ps|
  {
    if |ps| > 0 {
      var pre := ps[..|ps| - 1];
      forall a, b | 0 <= a < b < |pre| ensures pre[a].0 != pre[b].0 { assert pre[a] == ps[a] && pre[b] == ps[b]; }
      ToMapSize(pre);
      assert ps[|ps| - 1].0 !in ToMap(pre) by {
        forall n | 0 <= n < |pre| ensures pre[n].0 != ps[|ps| - 1].0 { assert pre[n] == ps[n]; }
      }
    }
  }

  /**
   The first level of the by-group mount schema, as `main` registers it: the
   text `q="pkey.BeginsWith(set:anidb:group)", d="$name")`, spelled here as
   its two bindings, the separator and a stray closing parenthesis.
   */
  const ByGroupFirst: string := Item("q", "pkey.BeginsWith(set:anidb:group)") + ", " + Item("d", "$name") + ")"

  /**
   The first level of the by-group mount carries a stray `)` after its last
   binding; the parser ignores it and still reads both bindings.
   */
  lemma ByGroupFirstLevel()
    ensures var m := ParseLevel(ByGroupFirst);
      |m| == 2 && "q" in m && m["q"] == "pkey.BeginsWith(set:anidb:group)" && "d" in m && m["d"] == "$name"
  {
    var ps := ByGroupFirstBindings();
    ParseRender(ps, ", ", ")");
  }

  /** The bindings of `ByGroupFirst`, and the check that they render back to it. */
  lemma ByGroupFirstBindings() returns (ps: seq<(string, string)>)
    ensures ps == [("q", "pkey.BeginsWith(set:anidb:group)"), ("d", "$name")]
    ensures Render(ps, ", ") + ")" == ByGroupFirst
    ensures forall n :: 0 <= n < |ps| ==> IsKey(ps[n].0) && IsValue(ps[n].1)
    ensures forall a, b :: 0 <= a < b < |ps| ==> ps[a].0 != ps[b].0
    ensures NoWordChar(", ") && NoWordChar(")")
  {
    var q := ("q", "pkey.BeginsWith(set:anidb:group)");
    var d := ("d", "$name");
    ps := [q, d];
    assert ps[1..] == [d];
    ByGroupFirstKeys();
    ByGroupFirstQuery();
  }

  lemma ByGroupFirstKeys()
    ensures IsKey("q") && IsKey("d") && IsValue("$name")
  {
  }

  lemma ByGroupFirstQuery()
    ensures IsValue("pkey.BeginsWith(set:anidb:group)")
  {
  }
}

=== FILE: store.dfy ===
/**
 The record store of `src/hashfs/db.c`: entries are a primary key plus a
 string-to-string field map, built in memory and merged into a table of
 records by `put`, optionally inside a transaction. The Tokyo Cabinet table
 itself is modelled as a map from primary key to fields, and the policy of
 its merge-put for a field present on both sides is a parameter.
 */
module Store {
  import opened Wrappers
  import opened Strings

  type Fields = map<string, string>

  /** An entry: `entry->pkey` and `entry->data`. */
  datatype Entry = Entry(pkey: string, fields: Fields)

  /** The table: primary key to stored fields. */
  type Db = map<string, Fields>

  predicate IsLowerHex(c: char) {
    ('0' <= c <= '9') || ('a' <= c <= 'f')
  }

  /** What `hashfs_md5_str` returns: 32 lower-case hex characters. */
  type Md5Hex = s: string | |s| == 32 && forall i :: 0 <= i < |s| ==> IsLowerHex(s[i])
    witness "00000000000000000000000000000000"

  /**
   The primary key of `hashfs_db_entry_new`: `set:source:type:md5(id)` for the
   prefix "set", `prefix:md5(id)` for any other prefix (source and type unused).
   */
  function PrimaryKey(prefix: string, id: string, source: string, kind: string,
                      md5: string -> Md5Hex): (k: string)
  {
    if prefix == "set" then prefix + ":" + source + ":" + kind + ":" + md5(id)
    else prefix + ":" + md5(id)
  }

  /** A key of the "set" prefix reads back as its four colon-separated components. */
  lemma SetKeyComponents(id: string, source: string, kind: string, md5: string -> Md5Hex)
    requires ':' !in source && ':' !in kind
    ensures Split(PrimaryKey("set", id, source, kind, md5), ':') == ["set", source, kind, md5(id)]
  {
    var h := md5(id);
    HexHasNoColon(h);
    var parts := ["set", source, kind, h];
    assert Join(parts[3..], ':') == h;
    assert Join(parts[2..], ':') == kind + ":" + h;
    assert Join(parts[1..], ':') == source + ":" + kind + ":" + h;
    assert Join(parts, ':') == PrimaryKey("set", id, source, kind, md5);
    SplitJoin(parts, ':');
  }

  /** Any other prefix reads back as the prefix and the digest; source and type leave no trace. */
  lemma PlainKeyComponents(prefix: string, id: string, source: string, kind: string,
                           md5: string -> Md5Hex)
    requires prefix != "set" && ':' !in prefix
    ensures Split(PrimaryKey(prefix, id, source, kind, md5), ':') == [prefix, md5(id)]
    ensures PrimaryKey(prefix, id, source, kind, md5) == PrimaryKey(prefix, id, "", "", md5)
  {
    var h := md5(id);
    HexHasNoColon(h);
    var parts := [prefix, h];
    assert Join(parts[1..], ':') == h;
    assert Join(parts, ':') == PrimaryKey(prefix, id, source, kind, md5);
    SplitJoin(parts, ':');
  }

  lemma HexHasNoColon(h: Md5Hex)
    ensures ':' !in h
  {
    forall i | 0 <= i < |h| ensures h[i] != ':' {
      assert IsLowerHex(h[i]);
    }
  }

  /** With colon-free components, equal set keys come from equal source, type and digest. */
  lemma SetKeyInjective(id1: string, s1: string, k1: string, id2: string, s2: string, k2: string,
                        md5: string -> Md5Hex)
    requires ':' !in s1 && ':' !in k1 && ':' !in s2 && ':' !in k2
    requires PrimaryKey("set", id1, s1, k1, md5) == PrimaryKey("set", id2, s2, k2, md5)
    ensures s1 == s2 && k1 == k2 && md5(id1) == md5(id2)
  {
    SetKeyComponents(id1, s1, k1, md5);
    SetKeyComponents(id2, s2, k2, md5);
  }

  /** A key of the "file" prefix never contains "set:", so it is never taken for a set. */
  lemma FileKeyIsNotSetKey(id: string, md5: string -> Md5Hex)
    ensures !Contains(PrimaryKey("file", id, "", "", md5), "set:")
  {
    var k := PrimaryKey("file", id, "", "", md5);
    var h := md5(id);
    assert k == "file:" + h;
    forall i | 0 <= i <= |k| ensures !OccursAt(k, "set:", i) {
      if i + 4 <= |k| {
        if i == 0 {
          assert k[0] == 'f';
        } else if i == 1 {
          assert k[1] == 'i';
        } else {
          assert k[i + 3] == h[i - 2];
          assert IsLowerHex(h[i - 2]);
        }
      }
    }
  }

  /** A key of the "set" prefix always contains "set:". */
  lemma SetKeyIsSetKey(id: string, source: string, kind: string, md5: string -> Md5Hex)
    ensures Contains(PrimaryKey("set", id, source, kind, md5), "set:")
  {
    var k := PrimaryKey("set", id, source, kind, md5);
    assert OccursAt(k, "set:", 0);
  }

  /**
   `hashfs_db_entry_new`: the key is composed from the digest of `id`, and the
   entry starts with no fields; fields already stored under that key are not loaded.
   */
  function EntryNew(prefix: string, id: string, source: string, kind: string,
                    md5: string -> Md5Hex): (e: Entry)
    ensures e.fields == map[]
    ensures prefix == "set" ==> e.pkey == "set:" + source + ":" + kind + ":" + md5(id)
    ensures prefix != "set" ==> e.pkey == prefix + ":" + md5(id)
  {
    Entry(PrimaryKey(prefix, id, source, kind, md5), map[])
  }

  /** `hashfs_db_entry_set`: one field changes, the key and every other field do not. */
  function EntrySet(e: Entry, key: string, value: string): (r: Entry)
    ensures r.pkey == e.pkey
    ensures key in r.fields && r.fields[key] == value
    ensures r.fields.Keys == e.fields.Keys + {key}
    ensures forall k :: k in e.fields && k != key ==> r.fields[k] == e.fields[k]
  {
    e.(fields := e.fields[key := value])
  }

  /** The stored value of a field, if the entry has one. */
  function EntryLookup(e: Entry, key: string): (r: Option<string>)
    ensures r.Some? <==> key in e.fields
    ensures r.Some? ==> r.value == e.fields[key]
  {
    if key in e.fields then Some(e.fields[key]) else None
  }

  /** Setting a field and then looking it up gives the value set; other lookups are unaffected. */
  lemma SetThenLookup(e: Entry, key: string, value: string, other: string)
    ensures EntryLookup(EntrySet(e, key, value), key) == Some(value)
    ensures other != key ==> EntryLookup(EntrySet(e, key, value), other) == EntryLookup(e, other)
  {
  }

  /**
   The merge of `tctdbputcat`: every field of either side survives; a field on
   one side only keeps its value; a field on both sides gets `clash(stored, incoming)`.
   */
  function MergeFields(stored: Fields, incoming: Fields, clash: (string, string) -> string): (r: Fields)
    ensures r.Keys == stored.Keys + incoming.Keys
    ensures forall k :: k in stored && k !in incoming ==> r[k] == stored[k]
    ensures forall k :: k in incoming && k !in stored ==> r[k] == incoming[k]
    ensures forall k :: k in stored && k in incoming ==> r[k] == clash(stored[k], incoming[k])
  {
    map k | k in stored.Keys + incoming.Keys ::
      if k in stored && k in incoming then clash(stored[k], incoming[k])
      else if k in incoming then incoming[k] else stored[k]
  }

  /** Merge-put into the table: the record at `pkey` is created or merged; other records do not change. */
  function MergePut(db: Db, pkey: string, fields: Fields, clash: (string, string) -> string): (r: Db)
    ensures r.Keys == db.Keys + {pkey}
    ensures forall k :: k in db && k != pkey ==> r[k] == db[k]
    ensures pkey !in db ==> r[pkey] == fields
    ensures pkey in db ==> r[pkey] == MergeFields(db[pkey], fields, clash)
  {
    if pkey in db then db[pkey := MergeFields(db[pkey], fields, clash)]
    else db[pkey := fields]
  }

  /**
   A policy is stable when a value clashing with itself stays as it is and
   merging the same incoming value again changes nothing (both "keep the
   stored value" and "take the incoming value" are stable; appending is not).
   */
  ghost predicate StableClash(clash: (string, string) -> string) {
    && (forall v :: clash(v, v) == v)
    && (forall a, b :: clash(clash(a, b), b) == clash(a, b))
  }

  lemma StableSelf(clash: (string, string) -> string, v: string)
    requires StableClash(clash)
    ensures clash(v, v) == v
  {
  }

  /** A put never loses a field already stored under its key. */
  lemma PutKeepsStoredFields(db: Db, pkey: string, fields: Fields, clash: (string, string) -> string)
    ensures var r := MergePut(db, pkey, fields, clash);
      pkey in r && (pkey in db ==> db[pkey].Keys <= r[pkey].Keys) && fields.Keys <= r[pkey].Keys
  {
  }

  /** With a stable clash policy, putting the same fields twice is the same as putting them once. */
  lemma PutIdempotent(db: Db, pkey: string, fields: Fields, clash: (string, string) -> string)
    requires StableClash(clash)
    ensures MergePut(MergePut(db, pkey, fields, clash), pkey, fields, clash)
         == MergePut(db, pkey, fields, clash)
  {
    var once := MergePut(db, pkey, fields, clash);
    var m := once[pkey];
    forall k | k in m && k in fields
      ensures clash(m[k], fields[k]) == m[k]
    {
      var v := fields[k];
      if pkey in db && k in db[pkey] {
        var o := db[pkey][k];
        assert m[k] == clash(o, v);
        assert clash(clash(o, v), v) == clash(o, v);
      } else {
        assert m[k] == v;
        StableSelf(clash, v);
      }
    }
    assert MergeFields(m, fields, clash) == m;
  }

  /** The store operations an update scan issues, in order. */
  datatype DbOp = Begin | Commit | Abort | Put(pkey: string, fields: Fields)

  /** The table as other readers see it, and the pending table of an open transaction. */
  datatype DbState = DbState(committed: Db, pending: Option<Db>)

  /**
   `hashfs_db_entry_put`: nothing to put (and FALSE) for a missing entry,
   otherwise one merge-put under the entry's own key.
   */
  function EntryPut(e: Option<Entry>): (r: Option<DbOp>)
    ensures r.Some? <==> e.Some?
    ensures r.Some? ==> r.value.Put? && r.value.pkey == e.value.pkey && r.value.fields == e.value.fields
  {
    match e
    case None => None
    case Some(en) => Some(Put(en.pkey, en.fields))
  }

  /** One store operation. A put outside a transaction is visible at once. */
  function Apply(st: DbState, op: DbOp, clash: (string, string) -> string): (r: DbState)
    ensures op.Put? && st.pending.None? ==>
      r == DbState(MergePut(st.committed, op.pkey, op.fields, clash), None)
    ensures op.Put? && st.pending.Some? ==>
      r == DbState(st.committed, Some(MergePut(st.pending.value, op.pkey, op.fields, clash)))
    ensures op.Commit? && st.pending.Some? ==> r == DbState(st.pending.value, None)
    ensures op.Abort? ==> r == DbState(st.committed, None)
    ensures op.Begin? && st.pending.None? ==> r == DbState(st.committed, Some(st.committed))
  {
    match op
    case Begin => if st.pending.None? then DbState(st.committed, Some(st.committed)) else st
    case Commit => if st.pending.Some? then DbState(st.pending.value, None) else st
    case Abort => DbState(st.committed, None)
    case Put(k, f) =>
      if st.pending.Some? then DbState(st.committed, Some(MergePut(st.pending.value, k, f, clash)))
      else DbState(MergePut(st.committed, k, f, clash), None)
  }

  function ApplyAll(st: DbState, ops: seq<DbOp>, clash: (string, string) -> string): DbState
    decreases |ops|
  {
    if |ops| == 0 then st else ApplyAll(Apply(st, ops[0], clash), ops[1..], clash)
  }

  /** The committed tables a concurrent reader can observe: before the first operation and after each one. */
  function Observed(st: DbState, ops: seq<DbOp>, clash: (string, string) -> string): (obs: seq<Db>)
    ensures |obs| == |ops| + 1
    ensures obs[0] == st.committed
    ensures forall i :: 0 <= i <= |ops| ==> obs[i] == ApplyAll(st, ops[..i], clash).committed
    ensures obs[|ops|] == ApplyAll(st, ops, clash).committed
    decreases |ops|
  {
    if |ops| == 0 then [st.committed]
    else
      var rest := Observed(Apply(st, ops[0], clash), ops[1..], clash);
      forall i | 1 <= i <= |ops|
        ensures ApplyAll(st, ops[..i], clash) == ApplyAll(Apply(st, ops[0], clash), ops[1..][..i - 1], clash)
      {
        assert ops[..i][1..] == ops[1..][..i - 1];
      }
      assert ops[..0] == [];
      assert ops[..|ops|] == ops;
      [st.committed] + rest
  }
}

=== FILE: strings.dfy ===
/**
 Character classes and the splitting/joining of strings on a single delimiter
 character, shared by the path resolver (`g_strsplit(path, "/", 0)`) and the
 AniDB field extractors (`get_part`).
 */
module Strings {

  /** The class `\w` of the GRegex patterns: ASCII letters, digits and underscore. */
  predicate IsWordChar(c: char) {
    ('a' <= c <= 'z') || ('A' <= c <= 'Z') || ('0' <= c <= '9') || c == '_'
  }

  /** The class `\d`: ASCII decimal digits. */
  predicate IsDigit(c: char) {
    '0' <= c <= '9'
  }

  function DigitValue(c: char): (v: nat)
    requires IsDigit(c)
    ensures v < 10
  {
    (c as int) - ('0' as int)
  }

  /** True when `t` occurs in `s` starting at index `i`. */
  predicate OccursAt(s: string, t: string, i: int) {
    0 <= i && i + |t| <= |s| && s[i..i + |t|] == t
  }

  /** True when `t` occurs somewhere in `s` (the test made by `g_strrstr`). */
  predicate Contains(s: string, t: string) {
    exists i | 0 <= i <= |s| :: OccursAt(s, t, i)
  }

  /** Index of the first `c` at or after `from`, or `|s|` when there is none. */
  function FindFrom(s: string, c: char, from: nat): (k: nat)
    requires from <= |s|
    ensures from <= k <= |s|
    ensures k < |s| ==> s[k] == c
    ensures forall j :: from <= j < k ==> s[j] != c
    decreases |s| - from
  {
    if from == |s| || s[from] == c then from else FindFrom(s, c, from + 1)
  }

  /** Searching a suffix gives the same answer, shifted. */
  lemma {:induction false} FindFromShift(s: string, c: char, p: nat, from: nat)
    requires p <= |s| && from <= |s| - p
    ensures FindFrom(s, c, p + from) == p + FindFrom(s[p..], c, from)
    decreases |s| - p - from
  {
    if p + from == |s| || s[p + from] == c {
    } else {
      FindFromShift(s, c, p, from + 1);
    }
  }

  /** Adjacent slices glue into one. */
  lemma SliceJoin(s: string, a: nat, b: nat, c: nat)
    requires a <= b <= c <= |s|
    ensures s[a..c] == s[a..b] + s[b..c]
  {
  }

  /** Where `t` is written at `i`, its slices are the slices of `s` shifted by `i`. */
  lemma Within(s: string, i: nat, t: string, x: nat, y: nat)
    requires i + |t| <= |s| && s[i..i + |t|] == t && x <= y <= |t|
    ensures s[i + x..i + y] == t[x..y]
  {
    forall p | 0 <= p < y - x ensures s[i + x..i + y][p] == t[x..y][p] {
      assert s[i + x + p] == s[i..i + |t|][x + p];
    }
  }

  /** The slices of a suffix are slices of the whole string, shifted by the suffix's start. */
  lemma SliceShift(s: string, from: nat, len: nat, k: nat)
    requires k == from + len <= |s|
    ensures s[from..][..len] == s[from..k]
    ensures k < |s| ==> s[from..][len + 1..] == s[k + 1..]
  {
  }

  /** `s` cut at every occurrence of `d`; like `g_strsplit(s, d, 0)` on a non-empty `s`. */
  function Split(s: string, d: char): (parts: seq<string>)
    ensures |parts| >= 1
    ensures forall i :: 0 <= i < |parts| ==> d !in parts[i]
    decreases |s|
  {
    var k := FindFrom(s, d, 0);
    if k == |s| then [s] else [s[..k]] + Split(s[k + 1..], d)
  }

  /** The parts glued back together with `d` between neighbours. */
  function Join(parts: seq<string>, d: char): (s: string)
    requires |parts| >= 1
    ensures |s| >= |parts[0]| && s[..|parts[0]|] == parts[0]
  {
    if |parts| == 1 then parts[0] else parts[0] + [d] + Join(parts[1..], d)
  }

  /** Number of occurrences of `c` in `s`. */
  function Count(s: string, c: char): nat
  {
    if |s| == 0 then 0 else Count(s[..|s| - 1], c) + (if s[|s| - 1] == c then 1 else 0)
  }

  /** Joining the parts of a split gives the original string back. */
  lemma {:induction false} JoinSplit(s: string, d: char)
    ensures Join(Split(s, d), d) == s
    decreases |s|
  {
    var k := FindFrom(s, d, 0);
    if k < |s| {
      var ps := Split(s, d);
      assert ps == [s[..k]] + Split(s[k + 1..], d);
      assert ps[1..] == Split(s[k + 1..], d);
      JoinSplit(s[k + 1..], d);
      assert Join(ps, d) == s[..k] + [d] + s[k + 1..];
      assert s == s[..k] + [d] + s[k + 1..];
    }
  }

  /** Splitting a join of delimiter-free parts gives the parts back. */
  lemma {:induction false} SplitJoin(parts: seq<string>, d: char)
    requires |parts| >= 1
    requires forall i :: 0 <= i < |parts| ==> d !in parts[i]
    ensures Split(Join(parts, d), d) == parts
    decreases |parts|
  {
    var s := Join(parts, d);
    if |parts| == 1 {
      FindFirstOfPart(parts[0], d, []);
      assert parts[0] + [] == parts[0];
    } else {
      var rest := Join(parts[1..], d);
      assert s == parts[0] + ([d] + rest);
      FindFirstOfPart(parts[0], d, [d] + rest);
      var k := |parts[0]|;
      assert s[..k] == parts[0];
      assert s[k + 1..] == rest;
      forall i | 0 <= i < |parts[1..]| ensures d !in parts[1..][i] {
        assert parts[1..][i] == parts[i + 1];
      }
      SplitJoin(parts[1..], d);
      assert Split(s, d) == [parts[0]] + parts[1..];
    }
  }

  /** In `p + rest` with no `d` in `p`, the first `d` is where `rest` starts, if `rest` starts with `d`. */
  lemma FindFirstOfPart(p: string, d: char, rest: string)
    requires d !in p
    requires rest == [] || rest[0] == d
    ensures FindFrom(p + rest, d, 0) == |p|
  {
    var s := p + rest;
    forall j | 0 <= j < |p| ensures s[j] != d { assert s[j] == p[j]; }
    FindFromSkip(s, d, 0, |p|);
  }

  /** Appending one character to a string extends or adds its last part. */
  lemma SplitSnoc(s: string, c: char, d: char)
    ensures var ps := Split(s, d);
      Split(s + [c], d) == (if c == d then ps + [""] else ps[..|ps| - 1] + [ps[|ps| - 1] + [c]])
  {
    if c == d {
      SplitAppend(s, d, "");
      assert s + [d] + "" == s + [c];
    } else {
      SplitSnocOther(s, c, d);
    }
  }

  /** A character other than the delimiter grows the last part. */
  lemma SplitSnocOther(s: string, c: char, d: char)
    requires c != d
    ensures var ps := Split(s, d);
      Split(s + [c], d) == ps[..|ps| - 1] + [ps[|ps| - 1] + [c]]
  {
    var ps := Split(s, d);
    var n := |ps|;
    var qs := ps[..n - 1] + [ps[n - 1] + [c]];
    JoinSplit(s, d);
    JoinLastSnoc(ps, d, c);
    forall i | 0 <= i < |qs| ensures d !in qs[i] {
      if i < n - 1 {
        assert qs[i] == ps[i];
      }
    }
    SplitJoin(qs, d);
  }

  /** Appending a delimiter and a delimiter-free part adds exactly that part. */
  lemma SplitAppend(s: string, d: char, t: string)
    requires d !in t
    ensures Split(s + [d] + t, d) == Split(s, d) + [t]
  {
    var ps := Split(s, d);
    JoinSplit(s, d);
    JoinSnoc(ps, d, t);
    forall i | 0 <= i < |ps + [t]| ensures d !in (ps + [t])[i] {
      if i < |ps| {
        assert (ps + [t])[i] == ps[i];
      }
    }
    SplitJoin(ps + [t], d);
  }

  /** Joining one more part adds a delimiter and that part. */
  lemma {:induction false} JoinSnoc(ps: seq<string>, d: char, p: string)
    requires |ps| >= 1
    ensures Join(ps + [p], d) == Join(ps, d) + [d] + p
  {
    if |ps| == 1 {
      assert (ps + [p])[1..] == [p];
    } else {
      assert (ps + [p])[1..] == ps[1..] + [p];
      JoinSnoc(ps[1..], d, p);
      JoinRegroup(ps[0], d, Join(ps[1..], d), p);
    }
  }

  lemma JoinRegroup(a: string, d: char, j: string, p: string)
    ensures a + [d] + (j + [d] + p) == a + [d] + j + [d] + p
  {
  }

  /** Growing the last part by one character grows the join by that character. */
  lemma JoinLastSnoc(ps: seq<string>, d: char, c: char)
    requires |ps| >= 1
    ensures Join(ps[..|ps| - 1] + [ps[|ps| - 1] + [c]], d) == Join(ps, d) + [c]
  {
    var n := |ps|;
    var last := ps[n - 1];
    if n == 1 {
      assert ps[..0] + [last + [c]] == [last + [c]];
      assert ps == [last];
    } else {
      var init := ps[..n - 1];
      JoinSnoc(init, d, last + [c]);
      JoinSnoc(init, d, last);
      assert init + [last] == ps;
      assert Join(init, d) + [d] + (last + [c]) == Join(init, d) + [d] + last + [c];
    }
  }

  /** When no `d` occurs in `[from, to)`, the search may start at `to`. */
  lemma {:induction false} FindFromSkip(s: string, d: char, from: nat, to: nat)
    requires from <= to <= |s|
    requires forall j :: from <= j < to ==> s[j] != d
    ensures FindFrom(s, d, from) == FindFrom(s, d, to)
    decreases |s| - from
  {
    if from < to {
      FindFromSkip(s, d, from + 1, to);
    }
  }

  /** There is one more part than there are delimiters. */
  lemma {:induction false} SplitCount(s: string, d: char)
    ensures |Split(s, d)| == Count(s, d) + 1
    decreases |s|
  {
    if |s| > 0 {
      var pre := s[..|s| - 1];
      SplitCount(pre, d);
      SplitSnoc(pre, s[|s| - 1], d);
      assert pre + [s[|s| - 1]] == s;
    }
  }

  /** End of the run of word characters starting at `i`. */
  function WordEnd(s: string, i: nat): (j: nat)
    requires i <= |s|
    ensures i <= j <= |s|
    ensures forall p :: i <= p < j ==> IsWordChar(s[p])
    ensures j < |s| ==> !IsWordChar(s[j])
    decreases |s| - i
  {
    if i == |s| || !IsWordChar(s[i]) then i else WordEnd(s, i + 1)
  }

  lemma {:induction false} WordEndSkip(s: string, i: nat, j: nat)
    requires i <= j <= |s|
    requires forall p :: i <= p < j ==> IsWordChar(s[p])
    requires j < |s| ==> !IsWordChar(s[j])
    ensures WordEnd(s, i) == j
    decreases j - i
  {
    if i < j {
      WordEndSkip(s, i + 1, j);
    }
  }

  /** A non-empty run of decimal digits. */
  predicate IsNumeral(w: string) {
    |w| > 0 && forall i :: 0 <= i < |w| ==> IsDigit(w[i])
  }

  /** End of the run of decimal digits starting at `i`. */
  function DigitEnd(s: string, i: nat): (j: nat)
    requires i <= |s|
    ensures i <= j <= |s|
    ensures forall p :: i <= p < j ==> IsDigit(s[p])
    ensures j < |s| ==> !IsDigit(s[j])
    decreases |s| - i
  {
    if i == |s| || !IsDigit(s[i]) then i else DigitEnd(s, i + 1)
  }

  lemma {:induction false} DigitEndSkip(s: string, i: nat, j: nat)
    requires i <= j <= |s|
    requires forall p :: i <= p < j ==> IsDigit(s[p])
    requires j < |s| ==> !IsDigit(s[j])
    ensures DigitEnd(s, i) == j
    decreases j - i
  {
    if i < j {
      DigitEndSkip(s, i + 1, j);
    }
  }

  /** Value of a decimal numeral (`atoi` on digits only). */
  function Decimal(w: string): nat
    requires forall i :: 0 <= i < |w| ==> IsDigit(w[i])
  {
    if |w| == 0 then 0 else Decimal(w[..|w| - 1]) * 10 + DigitValue(w[|w| - 1])
  }

  /** The numeral of a number, without leading zeros; partner of `Decimal`. */
  function Numeral(v: nat): (w: string)
    ensures |w| > 0 && forall i :: 0 <= i < |w| ==> IsDigit(w[i])
    ensures v > 0 ==> w[0] != '0'
    decreases v
  {
    if v < 10 then ['0' + v as char] else Numeral(v / 10) + ['0' + (v % 10) as char]
  }

  lemma {:induction false} DecimalNumeral(v: nat)
    ensures Decimal(Numeral(v)) == v
    decreases v
  {
    var w := Numeral(v);
    if v >= 10 {
      DecimalNumeral(v / 10);
      assert w[..|w| - 1] == Numeral(v / 10);
    }
  }

  /** No part is longer than the string it was cut from. */
  lemma {:induction false} PartsShorter(s: string, d: char)
    ensures forall i :: 0 <= i < |Split(s, d)| ==> |Split(s, d)[i]| <= |s|
    decreases |s|
  {
    var k := FindFrom(s, d, 0);
    if k < |s| {
      PartsShorter(s[k + 1..], d);
      assert Split(s, d) == [s[..k]] + Split(s[k + 1..], d);
    }
  }
}

=== FILE: walk.dfy ===
/**
 The level-by-level walk over the segments of a path that
 `src/hashfs/hashfsmount.c` performs in `resolve_paths` and
 `hashfs_fuse_readdir`, over an abstract `Resolver`: which schema levels
 exist, which entry a level displays under a name given the entries resolved
 above it, and which names a level lists. Segment 0 is empty (the path
 starts with `/`), segment 1 is the mount name, and segment `i >= 2` is
 resolved by level `i`.
 */
module Walk {
  import opened Wrappers
  import opened Store

  datatype Resolver = Resolver(hasLevel: nat -> bool,
                               find: (nat, seq<Entry>, string) -> Option<Entry>,
                               list: (nat, seq<Entry>) -> seq<string>)

  /** A level lists exactly the names it resolves, and a missing level resolves nothing. */
  ghost predicate Coherent(rv: Resolver) {
    forall i: nat, es: seq<Entry>, name: string ::
      (rv.hasLevel(i) ==> (name in rv.list(i, es) <==> rv.find(i, es, name).Some?))
      && (!rv.hasLevel(i) ==> rv.find(i, es, name).None?)
  }

  /** The entries of the segments from `i` on, after `entries`; any miss fails the walk. */
  function Chain(rv: Resolver, spath: seq<string>, i: nat, entries: seq<Entry>): (r: Option<seq<Entry>>)
    requires i <= |spath|
    ensures r.Some? ==> |r.value| == |entries| + |spath| - i && r.value[..|entries|] == entries
    decreases |spath| - i
  {
    if i == |spath| then Some(entries)
    else
      match rv.find(i, entries, spath[i])
      case None => None
      case Some(e) =>
        var r := Chain(rv, spath, i + 1, entries + [e]);
        assert r.Some? ==> r.value[..|entries|] == r.value[..|entries| + 1][..|entries|];
        r
  }

  /** Every segment from `i` on is resolved, under the entries before it, to its entry in `c`. */
  ghost predicate ResolvedFrom(rv: Resolver, spath: seq<string>, c: seq<Entry>, i: nat)
    requires 2 <= i && |c| == |spath| - 2
  {
    forall j :: i <= j < |spath| ==> rv.find(j, c[..j - 2], spath[j]) == Some(c[j - 2])
  }

  /** `c` resolves every segment after the mount name. */
  ghost predicate Resolved(rv: Resolver, spath: seq<string>, c: seq<Entry>) {
    |spath| >= 2 && |c| == |spath| - 2 && ResolvedFrom(rv, spath, c, 2)
  }

  /** The chain is the one and only resolution of the segments. */
  lemma ChainResolves(rv: Resolver, spath: seq<string>, c: seq<Entry>)
    requires |spath| >= 2
    ensures Chain(rv, spath, 2, []) == Some(c) <==> Resolved(rv, spath, c)
  {
    if |c| == |spath| - 2 {
      ChainFrom(rv, spath, 2, [], c);
      assert c[..0] == [];
    }
  }

  lemma {:induction false} ChainFrom(rv: Resolver, spath: seq<string>, i: nat, entries: seq<Entry>, c: seq<Entry>)
    requires 2 <= i <= |spath| && |entries| == i - 2 && |c| == |spath| - 2
    ensures Chain(rv, spath, i, entries) == Some(c)
        <==> c[..i - 2] == entries && ResolvedFrom(rv, spath, c, i)
    decreases |spath| - i
  {
    if i == |spath| {
      assert c[..i - 2] == c;
    } else {
      var e := rv.find(i, entries, spath[i]);
      if e.Some? {
        ChainFrom(rv, spath, i + 1, entries + [e.value], c);
        if c[..i - 2] == entries && ResolvedFrom(rv, spath, c, i) {
          assert c[..i - 1] == c[..i - 2] + [c[i - 2]];
        }
        if c[..i - 1] == entries + [e.value] && ResolvedFrom(rv, spath, c, i + 1) {
          assert c[..i - 2] == c[..i - 1][..i - 2];
          assert c[i - 2] == c[..i - 1][i - 2];
        }
      } else {
        assert c[..i - 2] == entries ==> rv.find(i, c[..i - 2], spath[i]).None?;
      }
    }
  }

  /** The loop of `resolve_paths` as written: a miss drops the entries found so far, and the walk goes on. */
  function WalkAsWritten(rv: Resolver, spath: seq<string>, i: nat, entries: seq<Entry>): (r: seq<Entry>)
    requires i <= |spath|
    ensures |r| <= |entries| + |spath| - i
    decreases |spath| - i
  {
    if i == |spath| then entries
    else
      match rv.find(i, entries, spath[i])
      case None => WalkAsWritten(rv, spath, i + 1, [])
      case Some(e) => WalkAsWritten(rv, spath, i + 1, entries + [e])
  }

  /** Where every segment resolves, the walk as written agrees with the chain. */
  lemma {:induction false} WalkAgrees(rv: Resolver, spath: seq<string>, i: nat, entries: seq<Entry>)
    requires i <= |spath| && Chain(rv, spath, i, entries).Some?
    ensures WalkAsWritten(rv, spath, i, entries) == Chain(rv, spath, i, entries).value
    decreases |spath| - i
  {
    if i < |spath| {
      var e := rv.find(i, entries, spath[i]).value;
      WalkAgrees(rv, spath, i + 1, entries + [e]);
    }
  }

  /**
   As written, a segment that names nothing does not fail the walk: when the
   next level, queried with no entries above it, matches the last segment,
   the walk ends with that entry although the chain fails.
   */
  lemma WalkRestartsAfterMiss(rv: Resolver, spath: seq<string>, e: Entry)
    requires |spath| == 4
    requires rv.find(2, [], spath[2]).None? && rv.find(3, [], spath[3]) == Some(e)
    ensures WalkAsWritten(rv, spath, 2, []) == [e]
    ensures Chain(rv, spath, 2, []).None?
  {
    assert [] + [e] == [e];
    assert WalkAsWritten(rv, spath, 3, []) == WalkAsWritten(rv, spath, 4, [e]) == [e];
  }

  /**
   The walk of `hashfs_fuse_readdir`: the segments are resolved (a miss
   keeps the entries found so far) and the level after the last segment is
   listed; a missing level lists nothing.
   */
  function ReadWalk(rv: Resolver, spath: seq<string>, i: nat, entries: seq<Entry>): (ns: seq<string>)
    requires i <= |spath|
    ensures !rv.hasLevel(i) ==> ns == []
    decreases |spath| - i
  {
    if !rv.hasLevel(i) then []
    else if i == |spath| then rv.list(i, entries)
    else
      match rv.find(i, entries, spath[i])
      case Some(e) => ReadWalk(rv, spath, i + 1, entries + [e])
      case None => ReadWalk(rv, spath, i + 1, entries)
  }

  /**
   One more segment: its chain is the directory's chain extended by the
   entry the next level displays under that name, and along a directory's
   chain the read walk lists that next level.
   */
  lemma {:induction false} ChainAppend(rv: Resolver, sp: seq<string>, name: string, i: nat, entries: seq<Entry>)
    requires Coherent(rv)
    requires 2 <= i <= |sp|
    ensures var c := Chain(rv, sp, i, entries);
      (Chain(rv, sp + [name], i, entries).Some? <==> c.Some? && rv.find(|sp|, c.value, name).Some?)
      && (c.Some? ==> ReadWalk(rv, sp, i, entries) == (if rv.hasLevel(|sp|) then rv.list(|sp|, c.value) else []))
    decreases |sp| - i
  {
    var sq := sp + [name];
    if i == |sp| {
      assert sq[i] == name;
      var e := rv.find(i, entries, name);
      if e.Some? {
        assert Chain(rv, sq, i + 1, entries + [e.value]).Some?;
      }
    } else {
      assert sq[i] == sp[i];
      var e := rv.find(i, entries, sp[i]);
      if e.Some? {
        ChainAppend(rv, sp, name, i + 1, entries + [e.value]);
      }
    }
  }

  /** A directory whose segments resolve lists a name exactly when that name resolves inside it. */
  lemma ListedIffExtends(rv: Resolver, sp: seq<string>, name: string)
    requires Coherent(rv) && |sp| >= 2
    ensures (name in ReadWalk(rv, sp, 2, []) && Chain(rv, sp, 2, []).Some?)
        <==> Chain(rv, sp + [name], 2, []).Some?
  {
    ChainAppend(rv, sp, name, 2, []);
    var c := Chain(rv, sp, 2, []);
    if c.Some? {
      var found := rv.find(|sp|, c.value, name);
    }
  }
}

=== FILE: wrappers.dfy ===
/** The optional value used wherever the C code returns NULL or FALSE for "absent". */
module Wrappers {

  datatype Option<+T> = None | Some(value: T) {

    /** Returns the value encapsulated in Some or a default value if None */
    function GetOr(default: T): T {
      match this
      case Some(v) => v
      case None => default
    }
  }
}
